=== FILE: README.md ===
# datapackage-js descriptor core in Dafny

A model of the descriptor-handling core of the frictionlessdata
`datapackage-js` library. A data package is a JSON descriptor that lists
resources. The library wraps that descriptor in an instance that does several things:

- It normalises deprecated resource properties.
- It expands defaults and validates the descriptor against a profile's JSON Schema.
- It keeps one child `Resource` per resource descriptor.
- It lets callers add, remove and look up resources and edit and commit the descriptor.

Around this sit:

- the path and URL predicates (`checkPath`, `isRemoteURL`, `isRemotePath`, `isSafePath`);
- the profile machinery (`Profile.load` with its cache, `Profiles`, `Registry`);
- the `Resource` getters;
- the legacy `index.js` API (`getResource` by name or index, and the CSV parser options and cast map).

Every operation is a pure function over immutable values:

- JSON values are the `Json` datatype in `json.dfy`. `undefined` is `None` or a missing key.
- JavaScript truthiness, `String(x)` and loose `== false` are written out explicitly.
- A method that throws after mutating its instance returns `Threw(error, state)`. The state is the instance as the throw leaves it.
- Everything the code reaches outside the core is a parameter of the model:
  - network and file reads;
  - the JSON-Schema evaluator;
  - URL protocol parsing;
  - the child `Resource` constructor;
  - glob expansion.

The modules follow the source files:

- `Utils` models src/utils.js.
- `Helpers` models src/helpers.js.
- `Profile`, `Profiles` and `Registry` model the profile and registry files.
- `Resource` models src/resource.js.
- `DataPackage` models src/datapackage.js.
- `Package` models src/package.js.
- `Legacy` models index.js.

Shared pieces:

- `Wrappers` holds `Option` and `Result`.
- `Strings` holds `split`, `join`, `toLowerCase` and decimal parsing.
- `JsonValues` holds the JSON values.
- `ResourceSet` holds what both instance classes share: the positional reconciliation of child resources, `valid`/`errors`, `getResource`, the resource filter, and the profile load step of `load`.

## Model

| member | source | states |
|---|---|---|
| Strings.Split | src/utils.js:140 | `split` on one character: never empty and no piece holds the separator; `JoinSplit` and `SplitJoin` prove it is the inverse of joining with the separator |
| Strings.ReplaceFirst | src/utils.js:140 | `replace` with a one-character pattern: unchanged without the character, otherwise one character replaced; `ReplaceFirstAfter` pins the replaced one as the first |
| Strings.Lower | src/profile.js:49 | `toLowerCase` on ASCII: same length, each upper-case ASCII letter lowered in place and every other character kept |
| JsonValues.Truthy | src/helpers.js:30 | JavaScript truthiness of a JSON value: falsy exactly for `null`, `false`, `0` and `""` |
| JsonValues.JsString | src/datapackage.js:52 | `String(v)`: a string is its own text, and `null` and the booleans render as words that start with no digit |
| JsonValues.JsStringIntParses | src/datapackage.js:52 | an integer's text reads back as the integer: decimal digits, after a '-' when negative, that parse to its magnitude |
| Utils.IsRemoteUrlMatchesPattern | src/utils.js:27-33 | the executable scan for a word character followed by "://" and one more non-line-terminator decides exactly whether the unanchored regex `\w+:\/\/.+` matches somewhere in the string |
| Utils.IsRemoteUrl | src/utils.js:27-33 | a remote URL needs at least five characters (a word character, "://" and one more); `IsRemoteUrlMatchesPattern` proves the scan decides the regular expression |
| Utils.IsRemoteUrlValue | src/utils.js:27-33 | `null` throws a `TypeError` when its `constructor` is read; any other value is a remote URL exactly when it is a string the unanchored regex matches |
| Utils.NoColonNotRemote | src/utils.js:27-33 | a string without ':' is never a remote URL |
| Utils.DotDotSegmentIff | src/utils.js:140-142 | ".." is one of the '/'-separated parts of a string exactly when ".." occurs there bounded by '/' or the string's ends |
| Utils.CheckForDotDot | src/utils.js:134-149 | at most one message, the "Found illegal '..'" message, present exactly when the path is not a remote URL and still has a ".." segment after its first backslash is deleted |
| Utils.CheckBeginning | src/utils.js:156-167 | a leading '/' gives the slash message, a leading '.' the dot message, anything else no message |
| Utils.MessagesDiffer | src/utils.js:145-163 | the three path messages are pairwise distinct, so a caller can tell which check failed |
| Utils.StripFirstBackslash | src/utils.js:140 | `replace('\\', '')`: unchanged without a backslash, one character shorter with one; `Strings.ReplaceFirstAfter` pins the deleted backslash as the first |
| Utils.DotDotMessage | src/utils.js:145 | no contract of its own: the ".." message; `MessagesDiffer` proves the three path messages pairwise distinct |
| Utils.SlashMessage | src/utils.js:161 | no contract of its own: the leading '/' message; `MessagesDiffer` proves the three path messages pairwise distinct |
| Utils.DotMessage | src/utils.js:163 | no contract of its own: the leading '.' message; `MessagesDiffer` proves the three path messages pairwise distinct |
| Utils.NotStringMessage | src/utils.js:177 | no contract of its own: the message `CheckPath` gives for a value that is not a string |
| Utils.CheckPath | src/utils.js:127-178 | a non-string gets only the "is not a string" message; a string is accepted exactly when it is a remote URL or has no ".." segment, and starts with neither '/' nor '.'; the dot-dot message comes before the beginning message and a remote URL never gets the dot-dot message |
| Utils.CheckPathRefusesDotDot | src/utils.js:140-146 | example case: "data/../../data.csv" is refused with exactly the dot-dot message |
| Utils.CheckPathStripsOneBackslash | src/utils.js:140 | example case: deleting only the first backslash turns "data/.\./data.csv" into a path with a ".." segment, which is refused |
| Utils.CheckPathRefusesAbsolute | src/utils.js:156-161 | example case: "/data.csv" is refused with exactly the slash message |
| Utils.Describe | src/utils.js:96-102 | the rendering starts with the evaluator's message; a non-empty data path follows it as ` in "<dataPath>"`, a non-empty schema path ends it as ` schema path: "<schemaPath>"`, and nothing else is added; with both paths empty it is the message alone |
| Utils.DescribeIsDetermined | src/utils.js:96-102 | those parts determine the rendering: any string with that prefix, those decorations in those places and that length is `Describe`'s result |
| Utils.ErrorsToStringArray | src/utils.js:93-106 | one string per error, in order, each the description of that error |
| Utils.ErrorsToStringArrayAppend | src/utils.js:93-106 | converting a concatenation converts each part: the conversion distributes over `+` |
| Helpers.ExpandDataPackageDescriptor | src/helpers.js:28-33 | the result has a truthy `profile`: the caller's when truthy, otherwise "data-package"; every other key and value is the caller's |
| Helpers.ExpandIdempotent | src/helpers.js:28-33 | expanding twice equals expanding once |
| Helpers.ExpandKeepsTruthyProfile | src/helpers.js:28-33 | a descriptor with a truthy profile is already expanded |
| Helpers.IsRemotePath | src/helpers.js:38-41 | a path is remote exactly when its first four characters are "http"; `IsRemotePathExamples` and `RemoteTestsDisagree` show what that prefix test accepts |
| Helpers.PreparationIsTransparent | src/helpers.js:10-23 | retrieval and dereferencing are shallow copies, so preparing then expanding equals expanding |
| Helpers.LocateDescriptor | src/helpers.js:3-5 | no contract of its own: the unimplemented stub gives `undefined` for every descriptor, so `load` keeps an absent base path |
| Helpers.RetrieveDescriptor | src/helpers.js:10-14 | no contract of its own: the spread copy equals its argument as a value; `PreparationIsTransparent` states the consequence |
| Helpers.DereferenceDataPackageDescriptor | src/helpers.js:19-23 | no contract of its own: the spread copy equals its argument as a value; `PreparationIsTransparent` states the consequence |
| Helpers.IsRemotePathExamples | src/helpers.js:38-41 | example cases: "https://…" is a remote path and "ftp://…" is not; for every rest, a string beginning "http" is one |
| Helpers.RemoteTestsDisagree | src/helpers.js:38-41 | the remote-path prefix test and the remote-URL regex disagree both ways: an FTP URL and "httpdata.csv" |
| Helpers.IsSafePathAsWritten | src/helpers.js:44-54 | as written the helper never returns a verdict: it throws a `ReferenceError` on paths starting with '/' or containing "../", and a `TypeError` on all other paths |
| Helpers.IsSafePathAsWrittenThrows | src/helpers.js:44-54 | every path the intended logic calls safe, "data.csv" among them, makes the written helper throw |
| Helpers.IsSafePath | src/helpers.js:44-54 | the intended check: unsafe when the path starts with '/' or contains "../" or "..\" (src/helpers.js:47-53), or starts with '~', '$' or '%' as the helper tests at test/helpers.js:15-21 expect; a safe path can hold a ".." segment only as its very last segment |
| Helpers.IsSafePathTyposFixed | src/helpers.js:47-53 | the code's own two checks with `False`, `True` and `inclues` spelled as meant: it accepts every path the intended check accepts, and differs from it only on a leading '~', '$' or '%' |
| Helpers.CodeAndTestsDisagree | test/helpers.js:16 | example case: "~/data.csv" passes the code's own checks, while the helper tests expect it refused |
| Helpers.IsSafePathTestsSafe | test/helpers.js:10-14 | example cases: the five relative paths the helper tests call safe, with either separator, are safe |
| Helpers.IsSafePathTestsUnsafe | test/helpers.js:15-21 | example cases: the seven paths the helper tests call unsafe are unsafe: "../data.csv", two home-directory paths, and four Windows or shell variable references |
| Helpers.SafePathRefusedByCheckPath | src/helpers.js:44-54 | example case: the two path checks differ, since "data/.." is safe for the intended `isSafePath` and refused by `checkPath` |
| Profile.TitleToName | src/profile.js:49 | the first space becomes '-' and every other character is lower-cased in place (ASCII letters only, so the name has the title's length) |
| Profile.Name | src/profile.js:45-52 | a null schema throws; an absent or falsy title gives no name; a truthy non-string title throws; a string title gives its name |
| Profile.TitleToNameFirstSpace | src/profile.js:49 | for a first word without spaces, the name is the lower-cased first word, '-', then the lower-cased rest, later spaces included |
| Profile.NameExample | src/profile.js:45-52 | example case: "Data Package" is named "data-package" |
| Profile.NameIsLowerCase | src/profile.js:49 | a name has no upper-case ASCII letter, and has a '-' whenever the title had a space |
| Profile.Load | src/profile.js:15-40 | a truthy cached schema is returned without reading anything; otherwise an "http" key succeeds exactly when the fetch does and a local key exactly when the bundled profile exists, each failure carrying its message; a success stores the schema under the key and changes nothing else |
| Profile.CacheHit | src/profile.js:16-17 | no contract of its own: `_cache[profile]` is present and truthy; `CacheHitIgnoresSources` and `FalsySchemaIsRefetched` state what a hit and a miss do |
| Profile.RemoteErrorMessage | src/profile.js:25 | no contract of its own: the error text `Profile.Load`'s contract gives for a failed remote fetch |
| Profile.LocalErrorMessage | src/profile.js:33 | no contract of its own: the error text `Profile.Load`'s contract gives for a name missing from the bundled profiles |
| Profile.CacheHitIgnoresSources | src/profile.js:16-17 | on a cache hit the result does not depend on the network or the bundled profiles |
| Profile.LoadThenLoadHits | src/profile.js:37 | after loading a truthy schema, loading the same key again returns the same profile and cache whatever the sources say |
| Profile.FalsySchemaIsRefetched | src/profile.js:16-17 | a falsy schema is cached but never served: the next load fetches again and can fail |
| Profile.RegistryNamesAreLocal | src/profile.js:29-34 | "data-package" is looked up among the bundled profiles, never fetched |
| Profile.ValidationMessageParts | src/profile.js:69-73 | each message begins with the header, then the evaluator's message, and carries the data path after the first `at "` |
| Profile.ValidationMessage | src/profile.js:69-73 | no contract of its own: the message text; `ValidationMessageParts` states where the header, the evaluator message and the data path sit in it |
| Profile.Validate | src/profile.js:64-78 | succeeds (with true) exactly when the evaluator accepts; otherwise fails with one message per evaluator error, in order |
| Profile.ValidateReportsEvaluatorErrors | src/profile.js:64-78 | on rejection, the i-th message holds the i-th evaluator error's message right after the header |
| Profiles.Retrieve | src/profiles.js:54-56 | gives the catalogue schema for the id, "base" when none is given, exactly when that schema is present and truthy |
| Profiles.Tv4Validation | src/profiles.js:69-80 | a missing schema fails with the load-error message; otherwise passes exactly when the evaluator accepts and fails with the converted evaluator errors |
| Profiles.Validate | src/profiles.js:68-87 | a plain-object profile is validated against directly; anything else is turned into an id and looked up in the catalogue |
| Profiles.ProfileKey | src/profiles.js:68-86 | no contract of its own: a profile argument that is not a plain object becomes its string form, "base" when omitted; `ValidateUnknownId` and `ValidateByIdMatchesInline` state the lookup |
| Profiles.ValidateInlineIgnoresCatalog | src/profiles.js:82-84 | an inline schema gives the same verdict whatever the catalogue holds, passing exactly when the evaluator accepts |
| Profiles.ValidateUnknownId | src/profiles.js:70-72 | an unknown id fails with the single load-error message |
| Profiles.ValidateByIdMatchesInline | src/profiles.js:82-86 | validating by an id whose schema is an object equals validating against that schema inline |
| Profiles.RegistryPath | src/profiles.js:30 | a remote or browser catalogue reads the default remote registry, any other the local one |
| Profiles.Create | src/profiles.js:28-46 | the catalogue settles exactly when the registry and every schema can be read; a row with no schema path cannot be read outside the browser; a settled catalogue has one schema per registry id, read from the path chosen for that id's last row |
| Profiles.RemoteCatalogUsesSchemaUrls | src/profiles.js:111-126 | a remote catalogue has no base path, so every schema is read from its row's `schema` URL |
| Profiles.RetrieveAfterCreate | src/profiles.js:54-56 | after construction, retrieving an id gives the truthy schema read for the last registry row with that id |
| Registry.GroupById | src/registry.js:74-82 | the ids are exactly the rows' ids, and each maps to the last row carrying it |
| Registry.IdOf | src/registry.js:78 | no contract of its own: `profile.id` as an object key, "undefined" for a row without an id |
| Registry.GroupByIdLastWins | src/registry.js:77-79 | the last row with an id is the one filed under it |
| Registry.GroupByIdDuplicate | src/registry.js:77-79 | of two rows with the same id only the second is kept |
| Registry.DefaultRegistryPath | src/registry.js:7-8 | the browser uses the remote registry URL, Node the bundled CSV |
| Registry.LoadBasePath | src/registry.js:51-55 | there is a base path, the directory of the registry, exactly when not in the browser and the registry is not a remote URL |
| Registry.Create | src/registry.js:23-26 | the profiles are available exactly when the registry can be read, grouped by id; the base path is the one `_loadBasePath` chooses |
| Registry.ProfilePath | src/registry.js:57-68 | with a base path and a non-empty `schema_path` outside the browser the schema is read from their join; otherwise from the row's `schema`, or from nowhere when that is missing |
| Registry.RemoteRegistryUsesSchemaUrls | src/registry.js:51-68 | a remote or browser registry reads every profile from its `schema` URL |
| Registry.ReadProfile | src/registry.js:62-71 | a path is read and parsed; a missing path is `undefined`, which Node cannot read and a browser fetches as the relative URL "undefined" |
| Registry.Get | src/registry.js:38-43 | an unreadable registry fails; an unknown id gives `undefined`; a known id gives the schema read from its path, or fails naming that path, and always fails outside the browser when its row has no schema path |
| Registry.GetUnknownReadsNothing | src/registry.js:58-60 | an unknown id resolves to `undefined` without reading anything |
| Registry.GetFindsLastRow | src/registry.js:38-43 | `get` of an id gives the schema of the last registry row with that id |
| Resource.GetSourceKey | src/resource.js:86-95 | the source key is `data` exactly when the inline data is truthy |
| Resource.Name | src/resource.js:33-35 | the name is the descriptor's `name`, `undefined` when missing |
| Resource.Source | src/resource.js:65-67 | truthy inline data is the source; otherwise the `path` value, `undefined` when missing |
| Resource.Type | src/resource.js:43-57 | inline exactly for truthy data; otherwise a string path is remote exactly when its protocol is one of http:, https:, ftp:, ftps:, and a missing or non-string path throws |
| Resource.TypeMatchesSource | src/resource.js:43-67 | an inline resource's source is its data, and a remote or local resource's source is a string path |
| Resource.InlineDataWins | src/resource.js:86-95 | with both data and path, truthy data is the source and falsy data falls back to the path |
| Resource.ResourceExamples | test/resource.js:13-68 | example cases from the resource tests: an empty descriptor has no source; inline data is the source and is inline; a relative path is local; an http path is remote; the name is read from the descriptor |
| Resource.NoSourceNoType | src/resource.js:50 | a descriptor with neither data nor path has no type: parsing the missing path throws |
| ResourceSet.ResourceList | src/datapackage.js:220-221 | the resource list is empty for a falsy `resources` and the array's items for an array; a string has no `entries()` (`TypeError`), and a number, boolean or object has no length (`RangeError`) |
| ResourceSet.Resize | src/datapackage.js:220 | setting `length` keeps the first entries and pads with holes to exactly the new length |
| ResourceSet.RebuildFrom | src/datapackage.js:221-228 | the loop keeps an existing child exactly when its descriptor is equal and it need not be rebuilt, and makes a new one from the descriptor otherwise |
| ResourceSet.Reconcile | src/package.js:333-347 | one child per descriptor, each the kept or rebuilt child of its slot |
| ResourceSet.ReconcileIsStable | src/datapackage.js:220-228 | when new children carry their descriptor and need no rebuild, reconciling again with the same descriptors changes nothing |
| ResourceSet.ReconcileReplacesFlagged | src/package.js:336-345 | a child that must be rebuilt is always replaced by a new one made from its descriptor |
| ResourceSet.FindByName | src/datapackage.js:100-102 | finds the first child whose name is exactly the given string, and none exactly when no child has it |
| ResourceSet.HasName | src/datapackage.js:101 | no contract of its own: `resource.name === name`, strict equality with the string; `FindByName` states the search |
| ResourceSet.GetResource | src/datapackage.js:100-102 | `null` exactly when no child has the name; otherwise the first child with it, as in both instance classes |
| ResourceSet.GetResourceFindsFirst | src/package.js:133-135 | with several children of the same name, the first is returned |
| ResourceSet.InvalidMessages | src/datapackage.js:50-54 | at most one message per child, and none exactly when every child is valid |
| ResourceSet.Errors | src/datapackage.js:48-56 | the package errors come first and unchanged, followed by at most one message per child |
| ResourceSet.ValidIffNoErrors | src/datapackage.js:41-56 | `valid` holds exactly when `errors` is empty |
| ResourceSet.Valid | src/datapackage.js:41-43 | no contract of its own: no package errors and every child valid (the same getter is src/package.js:69-71); `ValidIffNoErrors` proves it holds exactly when `errors` is empty |
| ResourceSet.ResourceMessage | src/datapackage.js:52 | the message is at least 31 characters long, starts `Resource "` and ends `" validation error(s)` (the same template is src/package.js:84) |
| ResourceSet.ResourceMessageTag | src/datapackage.js:52 | between the quotes stands `String(name)` for a truthy name of any kind, and otherwise the decimal digits of the index, which parse back to it |
| ResourceSet.InvalidMessagesAppend | src/datapackage.js:50-54 | the messages of a concatenation are the messages of each part, the second indexed from where the first ends |
| ResourceSet.ErrorsOfAppendedChild | src/package.js:80-88 | appending an invalid child appends exactly its message, tagged with its name or its index |
| ResourceSet.NormalizeEntries | src/datapackage.js:174-188 | the constructor throws exactly when some resource entry is null; otherwise each object entry is rewritten in place and the rest are kept |
| ResourceSet.NormalizeEntry | src/datapackage.js:174-188 | no contract of its own: an object entry is rewritten and any other entry is kept; `NormalizeEntries` states the loop |
| ResourceSet.NormalizeDescriptor | src/datapackage.js:174-188 | a falsy or string `resources` is left alone; another non-array throws; an array throws exactly on a null entry and otherwise has each entry rewritten in place, the rest of the descriptor unchanged (the same loop as src/package.js:292-301 with that class's rewrite) |
| ResourceSet.Last | src/datapackage.js:94 | the last child, `undefined` exactly when there are none |
| ResourceSet.FilterOutNamed | src/datapackage.js:110-111 | throws exactly on a null entry; otherwise no kept entry has the name, every entry without it is kept, and nothing new appears |
| ResourceSet.DescriptorNamed | src/datapackage.js:110 | no contract of its own: the filter's `resource.name !== name` negated; only an object whose `name` is that string has the name |
| ResourceSet.FilterOutNamedCons | src/datapackage.js:110-111 | filtering an entry followed by a list throws exactly when the entry is null or the list throws, and otherwise keeps the entry (unless named) in front of the list's kept entries |
| ResourceSet.FilterOutNamedSingle | src/datapackage.js:110-111 | one entry: null throws, a named entry is dropped, any other is kept |
| ResourceSet.FilterOutNamedAppend | src/datapackage.js:110-111 | filtering distributes over concatenation, so the kept entries keep their order and their number of copies, as `Array.prototype.filter` does |
| ResourceSet.FilterOutNamedIsKept | src/datapackage.js:110-111 | a filter that does not throw keeps exactly the entries of the reference filter `Kept`: every entry without the name, in order, once per occurrence |
| ResourceSet.KeptAppend | src/datapackage.js:110-111 | the reference filter of a concatenation is the concatenation of the parts' reference filters |
| ResourceSet.FilterOutUnnamedIsIdentity | src/package.js:159-160 | when no entry has the name, the filter returns the list unchanged |
| ResourceSet.ProfileKeyOf | src/datapackage.js:31-32 | the profile key is the descriptor's truthy profile, otherwise "data-package" |
| ResourceSet.LoadProfile | src/package.js:57 | a string key loads like `Profile.load`; any other key is used through its string form, and only a truthy cached schema can answer it |
| ResourceSet.LoadProfileAgainHits | src/profile.js:15-40 | loading a key again with the cache the first load left gives the same profile and cache whatever the sources say, when the schema is truthy |
| DataPackage.NormalizeResource | src/datapackage.js:175-187 | a truthy `url` becomes `path: [url]` and is deleted; otherwise a string `path` is wrapped in an array; all other keys are untouched |
| DataPackage.NormalizeResourceIdempotent | src/datapackage.js:174-188 | a normalised resource has neither a truthy url nor a string path, so normalising again changes nothing |
| DataPackage.Build | src/datapackage.js:204-230 | current becomes the expansion and next equals it; an accepted descriptor clears the errors; a rejection stores the messages, or in strict mode throws them leaving the resources and errors as they were; success reconciles the children with the resource list |
| DataPackage.UpdateResources | src/datapackage.js:219-228 | only the children change; it succeeds exactly when the resource list can be read, and then reconciles with it |
| DataPackage.Create | src/datapackage.js:171-202 | a constructor that returns has its current descriptor expanded from the normalised one, next equal to it, one child per resource and the given options; normalisation throws pass through |
| DataPackage.Commit | src/datapackage.js:151-157 | without a strict flag and with nothing edited it returns false and changes nothing; otherwise it sets strict, rebuilds from next and returns true with one child per resource |
| DataPackage.CommitThenCommitIsNoOp | src/datapackage.js:151-157 | committing again right after a commit is a no-op returning false |
| DataPackage.EditThenCommit | src/datapackage.js:151-157 | after an edit of next through the `descriptor` getter, a commit makes the expanded edit current, reports true and sizes the children to its resources |
| DataPackage.Descriptor | src/datapackage.js:68-71 | no contract of its own: the getter returns next, the descriptor callers edit; `EditThenCommit` states what committing an edit does |
| DataPackage.AddResource | src/datapackage.js:90-95 | a truthy non-array `resources` throws leaving the instance as it was; otherwise the result is the last child |
| DataPackage.AddResourceAppends | src/datapackage.js:90-95 | adding makes the descriptor's resources the pending ones plus the new one, adds one child, and returns it; that child is freshly made when no stale child sat in its slot |
| DataPackage.RemoveResource | src/datapackage.js:107-115 | an unknown name changes nothing and gives `null`; a known name gives the first child with it, and throws when next has no resource array |
| DataPackage.RemoveResourceDropsAllNamed | src/datapackage.js:110-112 | after a removal the current resources are exactly next's resources filtered by name, in order: none has the name, and every one that did not have it remains |
| DataPackage.Load | src/datapackage.js:19-36 | a profile-load failure fails the load with that error, and a normalisation throw passes through; a loaded instance has the given options, the profile loaded for the profile key with the cache that load left, the expanded normalised descriptor as current and next, and one child per resource |
| DataPackage.LoadAgainReadsNothing | src/datapackage.js:30-34 | loading the same descriptor again with the cache the first load left gives the same instance and cache whatever the sources say, when the profile's schema is truthy |
| Package.NormalizeResource | src/package.js:292-301 | a truthy `url` replaces `path` as a plain string and is deleted; otherwise the resource is unchanged; other keys are untouched |
| Package.NormalizeResourceIdempotent | src/package.js:292-301 | no truthy url remains, so normalising again changes nothing |
| Package.Build | src/package.js:316-348 | current becomes the expansion and next equals it; the errors are the evaluator's or none; strict rejection throws a package error with the count message, leaving the children alone; otherwise the children are reconciled and foreign-key children are always rebuilt |
| Package.BuildRebuildsForeignKeyChildren | src/package.js:336-345 | a child with foreign keys is replaced after every build, and any other child whose descriptor is unchanged is kept |
| Package.StrictRejectionThrows | src/package.js:324-329 | a strict package whose expansion the profile rejects throws with the rejection count in the message and keeps the errors |
| Package.StrictMessage | src/package.js:327 | no contract of its own: the count message; `StrictRejectionThrows` states that the thrown error carries it with the errors |
| Package.MustRebuild | src/package.js:339 | no contract of its own: the foreign-key disjunct of the rebuild test; `BuildRebuildsForeignKeyChildren` states its effect |
| Package.Create | src/package.js:290-314 | a constructor that returns has its current descriptor expanded from the normalised one, next equal to it, one child per resource and the given options; normalisation throws pass through |
| Package.Load | src/package.js:38-60 | a profile-load failure fails the load with that error, and after a successful profile load a normalisation throw passes through; a loaded instance has the given options, the schema of the profile loaded for the profile key, the cache that load left, the expanded normalised descriptor as current and next, and one child per resource |
| Package.LoadAgainReadsNothing | src/package.js:38-60 | loading the same descriptor again with the cache the first load left gives the same instance and cache whatever the sources say, when the profile's schema is truthy |
| Package.Commit | src/package.js:232-238 | without a strict flag and with nothing edited it returns false and changes nothing; otherwise it sets strict, rebuilds from next and returns true with one child per resource |
| Package.CommitThenCommitIsNoOp | src/package.js:232-238 | committing again right after a commit is a no-op returning false |
| Package.EditThenCommit | src/package.js:232-238 | after an edit of next through the `descriptor` getter, a commit makes the expanded edit current and reports true |
| Package.Descriptor | src/package.js:104-107 | no contract of its own: the getter returns next, the descriptor callers edit; `EditThenCommit` states what committing an edit does |
| Package.AddResource | src/package.js:143-148 | a truthy non-array `resources` in current throws leaving the instance as it was; otherwise the result is the last child |
| Package.AddResourceDiscardsPendingEdits | src/package.js:143-148 | adding works on the current descriptor, so uncommitted edits are discarded |
| Package.AddResourceAppends | src/package.js:143-148 | when expansion keeps the resource list, adding appends the descriptor to the current resources, adds one child and returns it |
| Package.DataPackageExpansionKeepsResources | src/helpers.js:28-33 | the expansion src/helpers.js defines keeps every resource list and its length, so it meets the requirements of the append, removal and infer lemmas |
| Package.RemoveResource | src/package.js:156-164 | an unknown name changes nothing and gives `null`; a known name gives the first child with it, and throws when current has no resource array |
| Package.RemoveResourceDropsAllNamed | src/package.js:156-164 | after a removal the current resources are exactly the old ones filtered by name, in order: none has the name, and every one that did not have it remains |
| Package.AddFiles | src/package.js:186-189 | no files change nothing; otherwise, unless a build throws, the children match the resources afterwards |
| Package.InferResources | src/package.js:193-197 | replacing each resource by its inferred descriptor and rebuilding keeps one child per resource and their number |
| Package.PromoteProfile | src/package.js:200-205 | the profile is promoted to tabular exactly when next has the default profile and there are children, all tabular; promotion rebuilds |
| Package.Promotes | src/package.js:200-201 | no contract of its own: next's profile is exactly "data-package" and there are children, all tabular; `PromotionIffAllTabular` proves both directions |
| Package.Infer | src/package.js:172-208 | a pattern without a base path throws the base-path error and changes nothing; a successful infer returns the current descriptor |
| Package.InferWithoutResources | src/package.js:172-208 | with no pattern and no resources infer changes nothing |
| Package.PromotionIffAllTabular | src/package.js:200-205 | with the default profile and some children, promotion happens exactly when every child is tabular |
| Package.ZipPath | src/package.js:268-272 | only named local children are renamed, to "data/<name>", with ".<format>" lower-cased when the format is truthy; a truthy non-string format throws |
| Package.ZipPathInDataDirectory | src/package.js:270-273 | every renamed path lies in the "data/" directory |
| Package.ZipPaths | src/package.js:267-275 | succeeds exactly when every child's zip path does, then gives them in order |
| Package.RenameEntries | src/package.js:273 | each entry with a new path and object shape gets that path; all others are unchanged |
| Package.RenamedEntry | src/package.js:273 | no contract of its own: the assignment of `path` to one object entry; `RenameEntries` states it over the list |
| Package.ZipDescriptor | src/package.js:266-276 | a failing zip path fails; without renames the descriptor is unchanged; otherwise exactly the renamed entries' paths change |
| Package.ZipRenamesExactlyNamedLocal | src/package.js:266-276 | the zipped descriptor's i-th resource has its zip path when the child has one and is untouched otherwise |
| Legacy.NewResource | index.js:84-87 | the metadata is the descriptor; the base is the given base when truthy, otherwise "" |
| Legacy.PathValue | index.js:37 | no contract of its own: the package path handed to each resource, `null` when none was given; `NewPackageFromDescriptor` states the resulting bases |
| Legacy.MakeResources | index.js:36-39 | one resource per descriptor resource, in order |
| Legacy.SetDataPackageJson | index.js:32-40 | succeeds exactly when `resources` is an array; then the metadata is the data, the path is kept, and each resource wraps its descriptor with the path (or "") as base |
| Legacy.NewPackage | index.js:18-29 | no or falsy argument gives an empty package; a string sets the path; anything else is handed to setDataPackageJson |
| Legacy.NewPackageFromDescriptor | index.js:18-29 | a descriptor object gives one resource per entry, each with base "" |
| Legacy.LastNamed | index.js:66-72 | the index of the last resource with the name, and none exactly when no resource has it |
| Legacy.LookupByName | index.js:66-79 | reading `name` from null metadata throws; an empty package gives `null`; otherwise the last resource with the name, or the first one when none has it |
| Legacy.NamedAs | index.js:68 | no contract of its own: `res.metadata.name === id`, strict equality with the string; `LastNamed` states the search |
| Legacy.HasNullMetadata | index.js:68 | no contract of its own: some resource has `null` metadata, whose `name` read throws; `LookupByName` fails exactly then |
| Legacy.GetResourceAsWritten | index.js:59-80 | as written, an identifier of one or more 'd' letters selects index NaN, so `null` for an empty package and `undefined` otherwise; any other identifier, digits included, is looked up by name |
| Legacy.GetResource | index.js:59-80 | a digit string selects the resource at its decimal value (`null` when empty, `undefined` past the end); anything else is looked up by name |
| Legacy.EmptyPackageHasNoResource | index.js:74-75 | an empty package gives `null` for every identifier, in both readings |
| Legacy.NameLookupLastWinsElseFirst | index.js:60-78 | a name nobody has gives the first resource; otherwise the last resource with that name |
| Legacy.ReadingsAgreeOnNames | index.js:64-72 | the two readings agree on every identifier that is neither a digit string nor a run of 'd' |
| Legacy.IndexIdentifierCounterexample | index.js:64-65 | with resources a and b, "1" gives a as written but b as intended, and "d" gives `undefined` as written |
| Legacy.NotNumericZero | index.js:151 | a trimmed string starting with anything but '0', '.' or a sign is not numerically zero |
| Legacy.Trim | index.js:151 | the string cut only at white space on either side, the way `Number` trims it, beginning and ending with a non-space character unless empty |
| Legacy.LooselyFalse | index.js:151 | `v != undefined && v == false`: never for undefined, null or an object; always for a falsy value that is not null; a boolean exactly when false and an integer exactly when zero |
| Legacy.LooselyFalseExamples | index.js:151 | example cases: false, 0 and "" equal false loosely; true, null and undefined do not |
| Legacy.ZeroTextIsLooselyFalse | index.js:151 | example case: "0" equals false loosely |
| Legacy.FalseWordIsNotLooselyFalse | index.js:151 | example case: "false" does not equal false loosely, so it keeps the escape character |
| Legacy.ParseOptions | index.js:143-154 | columns and ltrim are always set; no dialect sets nothing else; a dialect gives its truthy delimiter and quote or ',' and '"', its line terminator as is, and an empty escape exactly when doubleQuote is loosely false |
| Legacy.OrDefault | index.js:149 | no contract of its own: `v || fallback` for a property that may be `undefined`; `ParseOptions` states the defaults it gives |
| Legacy.ParseBoolean | index.js:161-167 | true exactly for "1" or "true" in any case; false exactly for "0" or "false" in any case that is not already true; `undefined` otherwise |
| Legacy.LowerIdempotent | index.js:162-164 | lower-casing twice is lower-casing once |
| Legacy.ParseBooleanProperties | index.js:161-167 | case does not matter, both spellings of each value parse back to it, "TRUE" is true and "yes" is `undefined` |
| Legacy.CastMapOf | index.js:179-183 | throws exactly on a null field; otherwise the names in the map are exactly the names of fields with a castable type, each mapped to the cast of the last such field with that name |
| Legacy.KeyOf | index.js:180-181 | no contract of its own: a field property used as a property key, its string form or "undefined"; `CastMapOf` states the map over it |
| Legacy.Castable | index.js:180 | no contract of its own: the field's type is one of the seven `typeToCast` keys; `CastMapOf` states the map over it |
| Legacy.CastMap | index.js:178-184 | no schema, or no or falsy `fields`, gives an empty map; a field array gives its cast map; any other truthy `fields` throws |
| Legacy.CastMapExample | index.js:168-184 | example case: string fields get no cast; integer and date fields get `parseInt` and the date parser |

## Left out

- I/O is not modelled. Reads are parameters instead:
  - `readFileOrURL` (src/utils.js:50-84), the axios fetch in `Profile.load`, CSV loading in the `Profiles` and `Registry` constructors, and `DataPackage.load` in index.js.
  - Their results (`fetch`, `readRows`, `readJson`) are parameters.
  - Promises and their ordering are flattened into one pure result.
- Path helpers are reduced to parameters:
  - `getDirname` and `path.resolve` depend on the working directory, so a `dirOf` function is a parameter.
  - `path.join` is a `join` parameter.
  - `url.parse` is a `protocolOf` parameter.
- Zip handling and glob expansion are not modelled, except where a later step needs their output:
  - `extractZip` and the zip branch of `Package.load`;
  - `findFiles` (the list of files is a parameter of `Package.Infer`);
  - zip and JSON writing in `save` (only the path renaming is modelled);
  - `rawStream`, `stream`, `objectStreamToArray` and `fullPath` in index.js.
- JSON-Schema evaluation (tv4) is an `eval` parameter, or a `validate` parameter for src/package.js. `jts.Table` and the CSV parser are left out.
- The casts themselves (`parseInt`, `parseFloat`, `Date.parse`, `JSON.parse`) work on floating point and a foreign parser. The model records which cast a field gets, not what it computes.
- `src/package.js` calls `helpers.expandPackageDescriptor` and `helpers.dereferencePackageDescriptor`, neither of which src/helpers.js defines. The expansion is a parameter `expand`, and the dereferencing is treated as a shallow copy.
- `src/package.js` expects `validate` to return `{valid, errors}`, while src/profile.js throws instead. `Package` therefore takes the validator as a parameter, and `DataPackage` uses `Profile.Validate`.
- The child `Resource` of the instance classes is an abstract record. It is made by a `make` parameter that never throws. Its `name`, `valid`, `tabular`, `local` and foreign-key flag are fields, because src/resource.js has none of `valid`, `tabular`, `local`, `infer` or `rawRead`.
- Resource-level defaults (dialect, field types) are not modelled. No shown function applies them: `expandDataPackageDescriptor` only defaults `profile`.
- Foreign-key resolution is not modelled. `Package` sees only a "has foreign keys" flag on each child.
- The `profile`, `resources` and `resourceNames` getters return a stored field and carry no property of their own.
- `DataPackage.infer` (src/datapackage.js:120-146) and `save` (src/datapackage.js:162-167) are not modelled. The file search and I/O they need are not part of this model, and the package variant of infer is modelled instead.
- Loading from a string descriptor (a path or URL) is left out: descriptor retrieval is an unimplemented stub. `locateDescriptor` always gives `undefined`.
- `console.warn` is left out. So is the constructor's in-place rewrite of the caller's own descriptor object, which the model cannot observe because values are immutable.
- A `resources` value that is a non-empty string: `_build` sets the child list's length to the string's length before the resource loop reads it. The model reports the `TypeError` from the resource list without that intermediate resize.
- Package.Infer and Package.InferResources require that every child matches one resource and that expansion keeps the number of resources. The source iterates the live child array while it is rebuilt, and without these requirements the loop would need holes or an unbounded length.
- Legacy.SetDataPackageJson: a throw leaves `metadata` already replaced and `resources` emptied. The model reports only the error.
- Profile.TitleToName: `toLowerCase` is modelled for ASCII letters only. JavaScript lowers every Unicode letter, so "Über Schema" gives "über-schema" there and "Über-schema" here, and 'İ' lowers to two characters, so the name can be longer than the title.
- Package.ZipPath: the format is lower-cased for ASCII letters only, for the same reason; a non-ASCII format keeps its other capital letters here.
- Legacy.ParseBoolean: `toLowerCase` is modelled for ASCII letters only. This is exact for the comparisons with "true" and "false", because no other character lowers to a letter of those words. The general Unicode lower case is left out.
- Legacy.LooselyFalse: it decides numeric zero for the decimal, hexadecimal, octal and binary literals `Number` accepts. A decimal literal that underflows to zero (such as "1e-400") is not counted as zero, because floating-point rounding is left out.
- Legacy.CastMapOf: `field.type in typeToCast` also accepts inherited property names such as "toString". The model accepts only the seven listed types, and assigning a field named `__proto__` is not modelled.
- Profile.Load: the cache is a plain `{}` object, so an inherited name such as "constructor" or "toString" finds a truthy function there and returns a profile over it without reading anything. The model knows only the keys stored in the cache, and fails for such a key with the bundled-lookup error.
- Profiles.Retrieve: for the same reason `retrieve('constructor')` returns the inherited function in JavaScript. The model returns `null`.
- Registry.Get: the grouped registry is a plain `{}` object too, so `get('constructor')` goes on to read the `schema` of the inherited function. The model answers `undefined` for every id not in the registry. src/util/is-remote-url.js is not part of this model; a missing schema path is taken to be unreadable outside the browser, as both `fs.readFile` and the `utils.js` URL test reject `undefined`.
- ResourceSet.ResourceList: an object `resources` with its own `length` key is reported as a `RangeError`. JavaScript assigns that length first: a valid array length resizes the child list and then fails with a `TypeError` at `entries()`.
- JSON numbers are integers of unbounded size (`JInt`). Fractions, `NaN`, infinities and the rounding of doubles above 2^53 are left out. `String(n)` is rendered as plain decimal digits, while JavaScript writes 1e21 and above in exponent form. This affects `Truthy`, `JsString` and `LooselyFalse` on numbers, and through them profile keys, zip names and resource messages.
- Resource.Type: the `TypeError` thrown by `url.parse` on a missing or non-string path is reported as a string error and not a structured one.
- Property reads on `null` throw `TypeError` in JavaScript. The model raises that error wherever a loop reads a property of a possibly-null entry: constructor normalisation, the resource filter, `getResource` in index.js, and the cast fields. Elsewhere the descriptors are objects by type.
- The browser branches are not modelled. `config.IS_BROWSER` is not defined in src/config.js, so both instance classes always take the Node paths. `Registry` and `Profiles` take a `browser` flag.

## Findings

| source | as written | input that shows it | evidently intended | confidence | as-written member | corrected member |
|---|---|---|---|---|---|---|
| index.js:64-65 | the pattern is the string `'^\d+$'`; `\d` is not a string escape, so the regular expression is `^d+$`. A digit identifier is looked up by name, and an identifier like "d" selects index NaN | a package with resources named a and b, identifier "1": as written it gives a (no name matches, so index 0); "d" gives `undefined` | a digit string selects the resource at that index: "1" gives b | not executed | Legacy.GetResourceAsWritten | Legacy.GetResource |
| src/helpers.js:44-54 | the verdicts are the undefined identifiers `False` and `True`, and the second test calls `path.inclues`, so every call throws | "data.csv": `path.inclues` is not a function, so a `TypeError` is thrown; "/x" throws a `ReferenceError` | return false for a leading '/', a "../" or "..\" part, and, as the helper tests at test/helpers.js:15-21 expect, a leading '~', '$' or '%' (a home directory or variable reference); true otherwise | not executed | Helpers.IsSafePathAsWritten | Helpers.IsSafePath |

=== FILE: datapackage.dfy ===
/** src/datapackage.js: the `DataPackage` class. An instance holds a
    *current* descriptor, which its resources and errors reflect, and a
    *next* descriptor, the one callers edit; `commit` copies next into
    current and rebuilds. Every mutating call is a pure function from the
    instance before to a `Step`: the instance after, and either the return
    value or what was thrown. The JSON Schema evaluator and the child
    `Resource` constructor are parameters (`Env`). */
module DataPackage {
  import opened Wrappers
  import opened JsonValues
  import Helpers
  import Profile
  import opened ResourceSet

  /** A `DataPackage` instance. */
  datatype DataPackage = DataPackage(
    current: Obj,
    next: Obj,
    basePath: Option<string>,
    strict: bool,
    profile: Profile.SchemaProfile,
    resources: seq<Child>,
    errors: seq<string>)

  /** The evaluator behind `Profile.validate`, and `new Resource(descriptor,
      {strict, basePath})`. */
  datatype Env = Env(eval: (Json, Json) -> Profile.Evaluation, make: (Json, bool, Option<string>) -> Child)

  /** The deprecated forms a constructor rewrites in one resource: a truthy
      `url` becomes `path: [url]` and is deleted, and a string `path`
      becomes a one-element list. */
  function NormalizeResource(m: Obj): (r: Obj)
    ensures TruthyField(m, "url") ==> "url" !in r && "path" in r && r["path"] == JArr([m["url"]])
    ensures !TruthyField(m, "url") && "path" in m && m["path"].JStr? ==> r == m["path" := JArr([m["path"]])]
    ensures !TruthyField(m, "url") && !("path" in m && m["path"].JStr?) ==> r == m
    ensures forall k | k != "url" && k != "path" :: (k in r <==> k in m) && (k in r ==> r[k] == m[k])
  {
    var m1 := if TruthyField(m, "url") then (m - {"url"})["path" := JArr([m["url"]])] else m;
    if "path" in m1 && m1["path"].JStr? then m1["path" := JArr([m1["path"]])] else m1
  }

  /** A normalised resource has no truthy `url` and no string `path`. */
  predicate IsNormalized(m: Obj) {
    !TruthyField(m, "url") && !("path" in m && m["path"].JStr?)
  }

  /** Normalising produces a normalised resource, and a normalised resource
      is left as it is: normalising twice is normalising once. */
  lemma NormalizeResourceIdempotent(m: Obj)
    ensures IsNormalized(NormalizeResource(m))
    ensures NormalizeResource(NormalizeResource(m)) == NormalizeResource(m)
  {
  }

  /** `_build()`: expand the current descriptor and make next a copy of it;
      validate it against the profile, rethrowing the errors in strict mode
      and storing them otherwise (a valid descriptor clears them); then
      reconcile the resources with the descriptor's resource list. */
  function Build(s: DataPackage, env: Env): (r: Step<DataPackage, ()>)
    ensures r.state.current == Helpers.ExpandDataPackageDescriptor(s.current)
    ensures r.state.next == r.state.current
    ensures r.state.strict == s.strict && r.state.basePath == s.basePath && r.state.profile == s.profile
    ensures var validation := Profile.Validate(s.profile, JObj(r.state.current), env.eval);
      && (validation.Success? ==> r.state.errors == [])
      && (validation.Failure? && s.strict ==> r == Threw(ValidationErrors(validation.error), r.state) && r.state.resources == s.resources && r.state.errors == s.errors)
      && (validation.Failure? && !s.strict ==> r.state.errors == validation.error)
      && (r.Ok? <==> (validation.Success? || !s.strict) && ResourceList(r.state.current).Success?)
    ensures r.Ok? ==>
      var descs := ResourceList(r.state.current).value;
      r.state.resources == Reconcile(s.resources, descs, _ => false, d => env.make(d, s.strict, s.basePath))
    ensures r.Ok? ==> Reconciled(r.state.current, r.state.resources)
  {
    var current := Helpers.ExpandDataPackageDescriptor(s.current);
    var s1 := s.(current := current, next := current);
    match Profile.Validate(s.profile, JObj(current), env.eval)
    case Failure(errs) =>
      if s.strict then Threw(ValidationErrors(errs), s1)
      else UpdateResources(s1.(errors := errs), env)
    case Success(_) => UpdateResources(s1.(errors := []), env)
  }

  /** The resource update at the end of `_build`. */
  function UpdateResources(s: DataPackage, env: Env): (r: Step<DataPackage, ()>)
    ensures r.state.(resources := s.resources) == s
    ensures r.Ok? <==> ResourceList(s.current).Success?
    ensures r.Ok? ==>
      r.state.resources == Reconcile(s.resources, ResourceList(s.current).value, _ => false, d => env.make(d, s.strict, s.basePath))
    ensures r.Threw? ==> r == Threw(ResourceList(s.current).error, s)
  {
    match ResourceList(s.current)
    case Failure(e) => Threw(e, s)
    case Success(descs) =>
      Ok(s.(resources := Reconcile(s.resources, descs, _ => false, d => env.make(d, s.strict, s.basePath))), ())
  }

  /** `new DataPackage(descriptor, {basePath, strict, profile})`: normalise
      the deprecated resource forms, start with no resources and no errors,
      and build. A throw leaves no instance. */
  function Create(descriptor: Obj, basePath: Option<string>, strict: bool, profile: Profile.SchemaProfile, env: Env)
    : (r: Result<DataPackage, Thrown>)
    ensures NormalizeDescriptor(descriptor, NormalizeResource).Failure? ==> r == Failure(NormalizeDescriptor(descriptor, NormalizeResource).error)
    ensures r.Success? ==>
      && NormalizeDescriptor(descriptor, NormalizeResource).Success?
      && r.value.current == Helpers.ExpandDataPackageDescriptor(NormalizeDescriptor(descriptor, NormalizeResource).value)
      && r.value.next == r.value.current
      && Reconciled(r.value.current, r.value.resources)
      && r.value.strict == strict && r.value.basePath == basePath && r.value.profile == profile
  {
    var d :- NormalizeDescriptor(descriptor, NormalizeResource);
    match Build(DataPackage(d, d, basePath, strict, profile, [], []), env)
    case Ok(s, _) => Success(s)
    case Threw(e, _) => Failure(e)
  }

  /** The `descriptor` getter: the next descriptor, which callers edit. */
  function Descriptor(s: DataPackage): Obj {
    s.next
  }

  /** `commit({strict})`. A boolean `strict` (`Some`) replaces the strict
      flag and always rebuilds; otherwise a next descriptor deep-equal to
      the current one makes the call a no-op returning false. Rebuilding
      copies next into current and returns true. */
  function Commit(s: DataPackage, strict: Option<bool>, env: Env): (r: Step<DataPackage, bool>)
    ensures strict.None? && s.current == s.next ==> r == Ok(s, false)
    ensures !(strict.None? && s.current == s.next) ==>
      && r.state.strict == strict.GetOr(s.strict)
      && r.state.current == Helpers.ExpandDataPackageDescriptor(s.next)
      && r.state.next == r.state.current
      && (r.Ok? ==> r.value && Reconciled(r.state.current, r.state.resources))
  {
    if strict.None? && s.current == s.next then Ok(s, false)
    else
      var s1 := s.(strict := strict.GetOr(s.strict));
      match Build(s1.(current := s1.next), env)
      case Ok(s2, _) => Ok(s2, true)
      case Threw(e, s2) => Threw(e, s2)
  }

  /** Committing twice in a row: the second commit finds next equal to
      current and changes nothing, whether or not the first one threw. */
  lemma CommitThenCommitIsNoOp(s: DataPackage, strict: Option<bool>, env: Env)
    ensures var s1 := Commit(s, strict, env).state;
      Commit(s1, None, env) == Ok(s1, false)
  {
  }

  /** An edit of next through the `descriptor` getter is picked up by a
      commit, which reports a change and reconciles the resources with the
      edited descriptor. */
  lemma EditThenCommit(s: DataPackage, next: Obj, env: Env)
    requires next != s.current
    ensures var r := Commit(s.(next := next), None, env);
      && r.state.current == Helpers.ExpandDataPackageDescriptor(next)
      && (r.Ok? ==> r.value && |r.state.resources| == |ResourceList(next).value|)
  {
    var e := Helpers.ExpandDataPackageDescriptor(next);
    assert ResourceList(e) == ResourceList(next) by {
      assert TruthyField(e, "resources") <==> TruthyField(next, "resources");
    }
  }

  /** `addResource(descriptor)`: append to next's resources (created when
      missing or falsy), commit, and return the last resource. A truthy
      non-array `resources` has no `push`. */
  function AddResource(s: DataPackage, descriptor: Json, env: Env): (r: Step<DataPackage, Option<Child>>)
    ensures TruthyField(s.next, "resources") && !s.next["resources"].JArr? ==> r == Threw(TypeError, s)
    ensures r.Ok? ==> r.value == Last(r.state.resources)
  {
    var n1 := if !TruthyField(s.next, "resources") then s.next["resources" := JArr([])] else s.next;
    match n1["resources"]
    case JArr(items) =>
      (match Commit(s.(next := n1["resources" := JArr(items + [descriptor])]), None, env)
       case Ok(s2, _) => Ok(s2, Last(s2.resources))
       case Threw(e, s2) => Threw(e, s2))
    case _ => Threw(TypeError, s)
  }

  /** The resource list of next before an addition, as `addResource` sees
      it. */
  function PendingResources(s: DataPackage): Option<seq<Json>> {
    if !TruthyField(s.next, "resources") then Some([])
    else if s.next["resources"].JArr? then Some(s.next["resources"].items)
    else None
  }

  /** On a consistent instance, a successful `addResource` makes the
      descriptor's resources the pending ones plus the new descriptor, grows
      the resource list to match, and returns the instance at the new last
      position, freshly made from the descriptor when the list was not
      longer than the pending ones. */
  lemma AddResourceAppends(s: DataPackage, descriptor: Json, env: Env)
    requires Reconciled(s.current, s.resources)
    requires PendingResources(s).Some?
    requires AddResource(s, descriptor, env).Ok?
    ensures var r := AddResource(s, descriptor, env);
      var items := PendingResources(s).value;
      && ResourceList(r.state.current) == Success(items + [descriptor])
      && |r.state.resources| == |items| + 1
      && r.value == Some(r.state.resources[|items|])
      && (|s.resources| <= |items| ==> r.value == Some(env.make(descriptor, s.strict, s.basePath)))
  {
    var items := PendingResources(s).value;
    var n2 := (if !TruthyField(s.next, "resources") then s.next["resources" := JArr([])] else s.next)["resources" := JArr(items + [descriptor])];
    var e := Helpers.ExpandDataPackageDescriptor(n2);
    assert ResourceList(e) == Success(items + [descriptor]);
    var s1 := s.(next := n2);
    if s.current == n2 {
      assert Commit(s1, None, env) == Ok(s1, false);
    }
  }

  /** `removeResource(name)`: nothing happens and `null` is returned when no
      resource instance has that name; otherwise every descriptor with that
      name is dropped from next, the package is committed and the instance
      found is returned. Filtering a `resources` value that is not an array
      throws. */
  function RemoveResource(s: DataPackage, name: string, env: Env): (r: Step<DataPackage, Option<Child>>)
    ensures GetResource(s.resources, name).None? ==> r == Ok(s, None)
    ensures r.Ok? ==> r.value == GetResource(s.resources, name)
    ensures GetResource(s.resources, name).Some? && !("resources" in s.next && s.next["resources"].JArr?) ==>
      r == Threw(TypeError, s)
  {
    match GetResource(s.resources, name)
    case None => Ok(s, None)
    case Some(found) =>
      if !("resources" in s.next && s.next["resources"].JArr?) then Threw(TypeError, s)
      else match FilterOutNamed(s.next["resources"].items, name)
        case Failure(e) => Threw(e, s)
        case Success(kept) =>
          match Commit(s.(next := s.next["resources" := JArr(kept)]), None, env)
          case Ok(s2, _) => Ok(s2, Some(found))
          case Threw(e, s2) => Threw(e, s2)
  }

  /** After a successful removal of a known name, the current resources
      are exactly next's resources filtered by name, in their order: none
      of them bears the name, and every other descriptor of next is still
      there. */
  lemma RemoveResourceDropsAllNamed(s: DataPackage, name: string, env: Env)
    requires GetResource(s.resources, name).Some?
    requires RemoveResource(s, name, env).Ok?
    ensures var c := RemoveResource(s, name, env).state.current;
      && "resources" in c && c["resources"].JArr?
      && FilterOutNamed(s.next["resources"].items, name).Success?
      && c["resources"].items == FilterOutNamed(s.next["resources"].items, name).value
      && (forall j | 0 <= j < |c["resources"].items| :: !DescriptorNamed(c["resources"].items[j], name))
      && (forall i | 0 <= i < |s.next["resources"].items| :: !DescriptorNamed(s.next["resources"].items[i], name)
            ==> s.next["resources"].items[i] in c["resources"].items)
  {
    var kept := FilterOutNamed(s.next["resources"].items, name).value;
    var n2 := s.next["resources" := JArr(kept)];
    if s.current == n2 {
      assert Commit(s.(next := n2), None, env) == Ok(s.(next := n2), false);
    }
  }

  /** `DataPackage.load(descriptor, {basePath, strict})` after the
      descriptor has been retrieved: locate the base path when none is
      given, load the profile named by the descriptor (or the default one)
      through the profile cache, and construct. */
  function Load(descriptor: Obj, basePath: Option<string>, strict: bool, cache: Profile.Cache,
                fetch: string -> Option<Json>, bundled: map<string, Json>, env: Env)
    : (r: Result<(DataPackage, Profile.Cache), Thrown>)
    ensures r.Success? ==> r.value.0.strict == strict && r.value.0.basePath == basePath
    ensures r.Success? ==> r.value.0.next == r.value.0.current && Reconciled(r.value.0.current, r.value.0.resources)
    ensures var loaded := Profile.Load(cache, Helpers.DefaultDataPackageProfile, fetch, bundled);
      !TruthyField(descriptor, "profile") && loaded.Failure? ==> r == Failure(LoadFailed(loaded.error))
    ensures var loaded := LoadProfile(cache, ProfileKeyOf(descriptor), fetch, bundled);
      && (loaded.Failure? ==> r == Failure(loaded.error))
      && (r.Success? ==> loaded.Success? && r.value.0.profile == loaded.value.0 && r.value.1 == loaded.value.1)
    ensures var d := NormalizeDescriptor(descriptor, NormalizeResource);
      && (LoadProfile(cache, ProfileKeyOf(descriptor), fetch, bundled).Success? && d.Failure? ==> r == Failure(d.error))
      && (r.Success? ==> d.Success? && r.value.0.current == Helpers.ExpandDataPackageDescriptor(d.value))
    ensures r.Success? ==> Profile.CacheHit(r.value.1, JsString(ProfileKeyOf(descriptor))) || !Truthy(r.value.0.profile.jsonschema)
  {
    var base := if basePath.None? then Helpers.LocateDescriptor(descriptor) else basePath;
    var d := Helpers.DereferenceDataPackageDescriptor(Helpers.RetrieveDescriptor(descriptor));
    var (profile, cache1) :- LoadProfile(cache, ProfileKeyOf(d), fetch, bundled);
    var s :- Create(d, base, strict, profile, env);
    Success((s, cache1))
  }

  /** Loading the same descriptor again, with the cache the first load
      left, gives the same instance and cache whatever the sources now say,
      provided the profile's schema is truthy: the profile is read once. */
  lemma LoadAgainReadsNothing(descriptor: Obj, basePath: Option<string>, strict: bool, cache: Profile.Cache,
                              fetch: string -> Option<Json>, bundled: map<string, Json>,
                              fetch2: string -> Option<Json>, bundled2: map<string, Json>, env: Env)
    requires Load(descriptor, basePath, strict, cache, fetch, bundled, env).Success?
    requires Truthy(Load(descriptor, basePath, strict, cache, fetch, bundled, env).value.0.profile.jsonschema)
    ensures var cache1 := Load(descriptor, basePath, strict, cache, fetch, bundled, env).value.1;
      Load(descriptor, basePath, strict, cache1, fetch2, bundled2, env)
        == Load(descriptor, basePath, strict, cache, fetch, bundled, env)
  {
    LoadProfileAgainHits(cache, ProfileKeyOf(descriptor), fetch, bundled, fetch2, bundled2);
  }
}

=== FILE: helpers.dfy ===
/** src/helpers.js: descriptor expansion, the remote-path test, the intended
    path-safety test and the two descriptor-processing stubs. */
module Helpers {
  import opened Wrappers
  import opened Strings
  import opened JsonValues
  import Utils

  /** `config.DEFAULT_DATA_PACKAGE_PROFILE`. */
  const DefaultDataPackageProfile: string := "data-package"

  /** `locateDescriptor`: not implemented, it always gives `undefined`. */
  function LocateDescriptor(d: Obj): Option<string> {
    None
  }

  /** `retrieveDescriptor`: a shallow copy, which is the same value. */
  function RetrieveDescriptor(d: Obj): Obj {
    d
  }

  /** `dereferenceDataPackageDescriptor`: a shallow copy, which is the same value. */
  function DereferenceDataPackageDescriptor(d: Obj): Obj {
    d
  }

  /** `expandDataPackageDescriptor(descriptor)`: a copy whose `profile` is the
      caller's when truthy and "data-package" otherwise. */
  function ExpandDataPackageDescriptor(d: Obj): (r: Obj)
    ensures "profile" in r && Truthy(r["profile"])
    ensures TruthyField(d, "profile") ==> r["profile"] == d["profile"]
    ensures !TruthyField(d, "profile") ==> r["profile"] == JStr(DefaultDataPackageProfile)
    ensures forall k :: k != "profile" ==> (k in r <==> k in d)
    ensures forall k :: k in d && k != "profile" ==> r[k] == d[k]
  {
    var profile := if TruthyField(d, "profile") then d["profile"] else JStr(DefaultDataPackageProfile);
    d["profile" := profile]
  }

  /** Expanding an expanded descriptor changes nothing. */
  lemma ExpandIdempotent(d: Obj)
    ensures ExpandDataPackageDescriptor(ExpandDataPackageDescriptor(d)) == ExpandDataPackageDescriptor(d)
  {
    var e := ExpandDataPackageDescriptor(d);
    var e2 := ExpandDataPackageDescriptor(e);
    assert e2.Keys == e.Keys;
  }

  /** A descriptor with a truthy profile is already expanded. */
  lemma ExpandKeepsTruthyProfile(d: Obj)
    requires TruthyField(d, "profile")
    ensures ExpandDataPackageDescriptor(d) == d
  {
    var e := ExpandDataPackageDescriptor(d);
    assert e.Keys == d.Keys;
  }

  /** Retrieval and dereferencing change nothing, so the descriptor a package
      is built from is the caller's descriptor, expanded. */
  lemma PreparationIsTransparent(d: Obj)
    ensures ExpandDataPackageDescriptor(DereferenceDataPackageDescriptor(RetrieveDescriptor(d)))
         == ExpandDataPackageDescriptor(d)
  {
  }

  /** `isRemotePath(path)`: `path.startsWith('http')`. */
  predicate IsRemotePath(path: string): (r: bool)
    ensures r <==> |path| >= 4 && path[0] == 'h' && path[1] == 't' && path[2] == 't' && path[3] == 'p'
  {
    StartsWith(path, "http")
  }

  /** `isRemotePath` is a prefix test: "https" counts, "ftp" does not, and any
      "http..." string counts whatever follows. */
  lemma IsRemotePathExamples(rest: string)
    ensures IsRemotePath("https://example.com/data.csv")
    ensures !IsRemotePath("ftp://example.com/data.csv")
    ensures IsRemotePath("http" + rest)
  {
    assert ("http" + rest)[..4] == "http";
    assert "ftp://example.com/data.csv"[..4] == "ftp:";
  }

  /** `isRemotePath` and `Utils.isRemoteURL` disagree both ways: an FTP URL
      is a remote URL but not a remote path, and "httpdata.csv" is a remote
      path but not a remote URL. */
  lemma RemoteTestsDisagree()
    ensures Utils.IsRemoteUrl("ftp://example.com/a.csv") && !IsRemotePath("ftp://example.com/a.csv")
    ensures IsRemotePath("httpdata.csv") && !Utils.IsRemoteUrl("httpdata.csv")
  {
    assert Utils.SchemeSeparatorAt("ftp://example.com/a.csv", 3);
    Utils.NoColonNotRemote("httpdata.csv");
  }

  /** The intended `isSafePath(path)`: a path is unsafe when it starts with
      '/', with the home directory '~' or with a '$' or '%' variable
      reference, or when it contains "../" or "..\". A safe path can hold a
      ".." segment only as its very last segment. */
  function IsSafePath(path: string): (r: bool)
    ensures r ==> forall i | Utils.DotDotSegmentAt(path, i) :: i + 2 == |path|
  {
    DotDotFollowedIsParent(path);
    && !StartsWith(path, "/")
    && !StartsWith(path, "~")
    && !StartsWith(path, "$")
    && !StartsWith(path, "%")
    && !Includes(path, "../")
    && !Includes(path, "..\\")
  }

  /** A ".." segment followed by another segment is a "../" part. */
  lemma DotDotFollowedIsParent(s: string)
    ensures forall i | Utils.DotDotSegmentAt(s, i) && i + 2 < |s| :: Includes(s, "../")
  {
    forall i | Utils.DotDotSegmentAt(s, i) && i + 2 < |s|
      ensures Includes(s, "../")
    {
      assert OccursAt(s, "../", i);
    }
  }

  /** `isSafePath(path)` as written: the verdicts are the undefined
      identifiers `False` and `True`, whose evaluation throws a
      `ReferenceError`, and the second test calls the misspelled
      `path.inclues`, which is not a function. */
  function IsSafePathAsWritten(path: string): (r: Result<bool, Utils.ScriptError>)
    ensures r.Failure?
    ensures r.error == Utils.TypeError <==> !StartsWith(path, "/") && !Includes(path, "../")
  {
    if StartsWith(path, "/") then Failure(Utils.ReferenceError)
    else if Includes(path, "../") then Failure(Utils.ReferenceError)
    else Failure(Utils.TypeError)
  }

  /** Every path the intended logic calls safe makes the written helper
      throw the `TypeError`: the written helper never gives a verdict.
      "data.csv" is safe and yet throws. */
  lemma IsSafePathAsWrittenThrows(path: string)
    ensures IsSafePath(path) ==> IsSafePathAsWritten(path) == Failure(Utils.TypeError)
    ensures IsSafePath("data.csv") && IsSafePathAsWritten("data.csv") == Failure(Utils.TypeError)
  {
    var s := "data.csv";
    NoDoubleDotNoParent(s);
    assert s[..1] == "d";
  }

  /** A string without two consecutive dots contains neither "../" nor "..\". */
  lemma NoDoubleDotNoParent(s: string)
    requires forall i | 0 <= i < |s| - 1 :: !(s[i] == '.' && s[i + 1] == '.')
    ensures !Includes(s, "../") && !Includes(s, "..\\")
  {
    forall i | 0 <= i <= |s| - 3
      ensures !OccursAt(s, "../", i) && !OccursAt(s, "..\\", i)
    {
      assert s[i..i + 3][0] == s[i] && s[i..i + 3][1] == s[i + 1];
    }
  }

  /** A path starting with a letter and free of ".." is safe. */
  lemma PlainRelativeIsSafe(s: string)
    requires |s| > 0 && 'a' <= s[0] <= 'z'
    requires forall i | 0 <= i < |s| - 1 :: !(s[i] == '.' && s[i + 1] == '.')
    ensures IsSafePath(s)
  {
    NoDoubleDotNoParent(s);
    assert s[..1] == [s[0]];
  }

  /** The safe paths of the helper tests: relative paths with either
      separator. */
  lemma IsSafePathTestsSafe()
    ensures IsSafePath("data.csv") && IsSafePath("data/data.csv") && IsSafePath("data/country/data.csv")
    ensures IsSafePath("data\\data.csv") && IsSafePath("data\\country\\data.csv")
  {
    var a, b, c := "data.csv", "data/data.csv", "data/country/data.csv";
    var d, e := "data\\data.csv", "data\\country\\data.csv";
    PlainRelativeIsSafe(a);
    PlainRelativeIsSafe(b);
    PlainRelativeIsSafe(c);
    PlainRelativeIsSafe(d);
    PlainRelativeIsSafe(e);
  }

  /** A path whose first character is '~', '$' or '%' is unsafe. */
  lemma ReferenceStartIsUnsafe(s: string)
    requires |s| > 0 && (s[0] == '~' || s[0] == '$' || s[0] == '%')
    ensures !IsSafePath(s)
  {
    assert s[..1] == [s[0]];
  }

  /** The unsafe paths of the helper tests: a parent reference, the home
      directory of the current or of another user, and Windows and shell
      variable references. */
  lemma IsSafePathTestsUnsafe()
    ensures !IsSafePath("../data.csv") && !IsSafePath("~/data.csv") && !IsSafePath("~invalid_user/data.csv")
    ensures !IsSafePath("%userprofile%") && !IsSafePath("%unknown_windows_var%")
    ensures !IsSafePath("$HOME") && !IsSafePath("$UNKNOWN_VAR")
  {
    var f, g, h := "../data.csv", "~/data.csv", "~invalid_user/data.csv";
    var k, l, m, n := "%userprofile%", "%unknown_windows_var%", "$HOME", "$UNKNOWN_VAR";
    assert OccursAt(f, "../", 0);
    ReferenceStartIsUnsafe(g);
    ReferenceStartIsUnsafe(h);
    ReferenceStartIsUnsafe(k);
    ReferenceStartIsUnsafe(l);
    ReferenceStartIsUnsafe(m);
    ReferenceStartIsUnsafe(n);
  }

  /** The checks src/helpers.js:47-53 make once `False`, `True` and
      `inclues` are spelled as meant: only a leading '/' and the two parent
      parts are refused. */
  function IsSafePathTyposFixed(path: string): (r: bool)
    ensures IsSafePath(path) ==> r
    ensures r && !IsSafePath(path) ==> |path| > 0 && (path[0] == '~' || path[0] == '$' || path[0] == '%')
  {
    !StartsWith(path, "/") && !Includes(path, "../") && !Includes(path, "..\\")
  }

  /** The code and its tests disagree: with its typos fixed the helper
      calls "~/data.csv" safe, while test/helpers.js:16 expects it unsafe. */
  lemma CodeAndTestsDisagree()
    ensures IsSafePathTyposFixed("~/data.csv") && !IsSafePath("~/data.csv")
  {
    var s := "~/data.csv";
    NoDoubleDotNoParent(s);
    assert s[..1] == "~";
  }

  /** So the two path checks differ: "data/.." is safe for `isSafePath` but
      refused by `Utils.checkPath`. */
  lemma SafePathRefusedByCheckPath()
    ensures IsSafePath("data/..")
    ensures Utils.CheckPath(JStr("data/..")) == [Utils.DotDotMessage("data/..")]
  {
    var s := "data/..";
    NoDoubleDotNoParentExceptEnd();
    assert s[..1] == "d";
    Utils.NoColonNotRemote(s);
    Utils.IsRemoteUrlMatchesPattern(s);
    assert '\\' !in s;
    assert Utils.DotDotSegmentAt(s, 5);
    Utils.PlainBeginning(s);
  }

  /** "data/.." has its ".." at the end, so no parent part. */
  lemma NoDoubleDotNoParentExceptEnd()
    ensures !Includes("data/..", "../") && !Includes("data/..", "..\\")
  {
    var s := "data/..";
    forall i | 0 <= i <= |s| - 3
      ensures !OccursAt(s, "../", i) && !OccursAt(s, "..\\", i)
    {
      assert s[i..i + 3][0] == s[i];
    }
  }
}

=== FILE: json.dfy ===
/** JSON values as the descriptor layer sees them. Descriptors are plain
    JavaScript objects built from JSON; `lodash.isEqual` on them is structural
    equality and `lodash.cloneDeep` is the identity on values. JavaScript's
    `undefined` never appears inside a value: a missing key is simply absent. */
module JsonValues {
  import opened Wrappers
  import opened Strings

  datatype Json =
    | JNull
    | JBool(b: bool)
    | JInt(n: int)
    | JStr(str: string)
    | JArr(items: seq<Json>)
    | JObj(fields: map<string, Json>)

  /** A descriptor object: key to value. */
  type Obj = map<string, Json>

  /** JavaScript truthiness: `null`, `false`, `0` and `""` are falsy. */
  predicate Truthy(j: Json): (r: bool)
    ensures !r <==> j in {JNull, JBool(false), JInt(0), JStr("")}
  {
    match j
    case JNull => false
    case JBool(b) => b
    case JInt(n) => n != 0
    case JStr(s) => s != ""
    case JArr(_) => true
    case JObj(_) => true
  }

  /** Property read `j.key`; `None` is `undefined`. Primitives have no own
      properties of their own that the descriptor layer reads. */
  function Get(j: Json, key: string): (r: Option<Json>)
    ensures r.Some? <==> j.JObj? && key in j.fields
  {
    if j.JObj? && key in j.fields then Some(j.fields[key]) else None
  }

  /** Property read on a descriptor object. */
  function Field(o: Obj, key: string): (r: Option<Json>)
    ensures r.Some? <==> key in o
  {
    if key in o then Some(o[key]) else None
  }

  /** Truthiness of a property that may be `undefined`. */
  predicate TruthyField(o: Obj, key: string) {
    key in o && Truthy(o[key])
  }

  /** Decimal rendering of an integer, as in a template literal. */
  function IntToString(n: int): (r: string)
    ensures n >= 0 ==> r == DecimalDigits(n)
    ensures n < 0 ==> r == "-" + DecimalDigits(-n)
  {
    if n < 0 then "-" + DecimalDigits(-n) else DecimalDigits(n)
  }

  /** JavaScript `String(j)`, used by template literals and property keys:
      arrays join their elements with "," (a `null` element renders as
      the empty string) and every object renders as "[object Object]". */
  function JsString(j: Json): (r: string)
    ensures j.JStr? ==> r == j.str
    ensures (j.JBool? || j.JNull?) ==> |r| > 0 && !IsDigit(r[0])
  {
    match j
    case JNull => "null"
    case JBool(b) => if b then "true" else "false"
    case JInt(n) => IntToString(n)
    case JStr(s) => s
    case JArr(xs) =>
      Join(seq(|xs|, k requires 0 <= k < |xs| => if xs[k].JNull? then "" else JsString(xs[k])), ",")
    case JObj(_) => "[object Object]"
  }

  /** An integer's text reads back as the integer: its digits, after a '-'
      for a negative one, parse to its magnitude. */
  lemma JsStringIntParses(n: int)
    ensures n >= 0 ==> AllDigits(JsString(JInt(n))) && ParseDecimal(JsString(JInt(n))) == n
    ensures n < 0 ==> var r := JsString(JInt(n));
      |r| >= 2 && r[0] == '-' && AllDigits(r[1..]) && ParseDecimal(r[1..]) == -n
  {
    if n >= 0 {
      ParseDecimalDigits(n);
    } else {
      ParseDecimalDigits(-n);
      assert JsString(JInt(n))[1..] == DecimalDigits(-n);
    }
  }
}

=== FILE: legacy.dfy ===
/** index.js: the original, callback-era API. A `DataPackage` holds its
    metadata, one `Resource` per descriptor resource and the path it was
    created from; `getResource` looks a resource up by name or index; and
    `csvToStream` derives the CSV parser's options from a dialect and a
    cast per schema field. Reading files, the CSV parser and the casts
    themselves (number and date parsing) are outside this model. */
module Legacy {
  import opened Wrappers
  import opened Strings
  import opened JsonValues

  /** A legacy `Resource`: its base path (`base || ''`) and its metadata. */
  datatype LegacyResource = LegacyResource(base: Json, metadata: Json)

  /** A legacy `DataPackage`: `metadata`, `resources` and `path` (`null`
      is `None`). */
  datatype LegacyPackage = LegacyPackage(metadata: Json, resources: seq<LegacyResource>, path: Option<string>)

  /** `new Resource(resourceObject, base)`: a falsy or missing base
      becomes the empty string. */
  function NewResource(resourceObject: Json, base: Option<Json>): (r: LegacyResource)
    ensures r.metadata == resourceObject
    ensures Truthy(r.base) || r.base == JStr("")
    ensures base.Some? && Truthy(base.value) ==> r.base == base.value
  {
    LegacyResource(if base.Some? && Truthy(base.value) then base.value else JStr(""), resourceObject)
  }

  /** The base every resource of a package receives: its path, or `null`. */
  function PathValue(path: Option<string>): Option<Json> {
    match path
    case Some(p) => Some(JStr(p))
    case None => Some(JNull)
  }

  /** One `Resource` per descriptor resource, in order. */
  function MakeResources(items: seq<Json>, base: Option<Json>): (r: seq<LegacyResource>)
    ensures |r| == |items|
    ensures forall i | 0 <= i < |items| :: r[i] == NewResource(items[i], base)
  {
    if |items| == 0 then [] else [NewResource(items[0], base)] + MakeResources(items[1..], base)
  }

  /** `setDataPackageJson(data)`: the data becomes the metadata and its
      `resources` array is turned into resources based at the package's
      path. Data without a `resources` array makes `forEach` throw. */
  function SetDataPackageJson(p: LegacyPackage, data: Json): (r: Result<LegacyPackage, string>)
    ensures r.Success? <==> Get(data, "resources").Some? && Get(data, "resources").value.JArr?
    ensures r.Success? ==>
      var items := Get(data, "resources").value.items;
      && r.value.metadata == data && r.value.path == p.path
      && |r.value.resources| == |items|
      && forall i | 0 <= i < |items| :: r.value.resources[i].metadata == items[i]
           && r.value.resources[i].base == (if p.path.Some? && p.path.value != "" then JStr(p.path.value) else JStr(""))
  {
    match Get(data, "resources")
    case Some(JArr(items)) => Success(LegacyPackage(data, MakeResources(items, PathValue(p.path)), p.path))
    case _ => Failure("TypeError")
  }

  /** `new DataPackage(datapackageJsonOrPath)`: nothing for a falsy
      argument, the path for a string, the descriptor otherwise. */
  function NewPackage(arg: Option<Json>): (r: Result<LegacyPackage, string>)
    ensures !(arg.Some? && Truthy(arg.value)) ==> r == Success(LegacyPackage(JObj(map[]), [], None))
    ensures arg.Some? && arg.value.JStr? && Truthy(arg.value) ==> r == Success(LegacyPackage(JObj(map[]), [], Some(arg.value.str)))
    ensures arg.Some? && Truthy(arg.value) && !arg.value.JStr? ==>
      r == SetDataPackageJson(LegacyPackage(JObj(map[]), [], None), arg.value)
  {
    var empty := LegacyPackage(JObj(map[]), [], None);
    if !(arg.Some? && Truthy(arg.value)) then Success(empty)
    else
      var v := arg.value;
      match v
      case JStr(s) => Success(empty.(path := Some(s)))
      case _ => SetDataPackageJson(empty, v)
  }

  /** A package built from a descriptor has one resource per descriptor
      resource, each with the descriptor's entry as metadata and an empty
      base, since it has no path. */
  lemma NewPackageFromDescriptor(items: seq<Json>)
    ensures var r := NewPackage(Some(JObj(map["resources" := JArr(items)])));
      && r.Success? && r.value.path.None? && |r.value.resources| == |items|
      && forall i | 0 <= i < |items| :: r.value.resources[i] == LegacyResource(JStr(""), items[i])
  {
  }

  /** What `getResource` returns: `null`, `undefined`, or a resource. */
  datatype Lookup = Null | Undefined | Found(resource: LegacyResource)

  /** `res.metadata.name === id`. */
  predicate NamedAs(res: LegacyResource, id: string) {
    Get(res.metadata, "name") == Some(JStr(id))
  }

  /** The `forEach` over the resources that remembers the index of every
      match: the last match wins. */
  function LastNamed(resources: seq<LegacyResource>, id: string): (r: Option<nat>)
    ensures r.None? <==> forall i | 0 <= i < |resources| :: !NamedAs(resources[i], id)
    ensures r.Some? ==> r.value < |resources| && NamedAs(resources[r.value], id)
    ensures r.Some? ==> forall j | r.value < j < |resources| :: !NamedAs(resources[j], id)
  {
    if |resources| == 0 then None
    else if NamedAs(resources[|resources| - 1], id) then Some(|resources| - 1)
    else
      var r := LastNamed(resources[..|resources| - 1], id);
      assert forall j | 0 <= j < |resources| - 1 :: resources[..|resources| - 1][j] == resources[j];
      r
  }

  /** Reading `name` of a `null` metadata throws. */
  predicate HasNullMetadata(resources: seq<LegacyResource>) {
    exists i | 0 <= i < |resources| :: resources[i].metadata.JNull?
  }

  /** Whether an identifier matches `'^\d+$'` as the string literal reads:
      the `\d` escape is not a string escape, so the pattern is `^d+$` and
      matches one or more letters `d`. */
  predicate MatchesIndexPatternAsWritten(id: string) {
    |id| > 0 && forall i | 0 <= i < |id| :: id[i] == 'd'
  }

  /** The name branch of `getResource`, shared by both readings: the last
      resource of that name, the first resource when none has it, `null`
      for an empty package. */
  function LookupByName(p: LegacyPackage, id: string): (r: Result<Lookup, string>)
    ensures HasNullMetadata(p.resources) <==> r.Failure?
    ensures r.Success? && |p.resources| == 0 ==> r.value == Null
    ensures r.Success? && |p.resources| > 0 ==>
      r.value == Found(p.resources[LastNamed(p.resources, id).GetOr(0)])
  {
    if HasNullMetadata(p.resources) then Failure("TypeError")
    else if |p.resources| == 0 then Success(Null)
    else Success(Found(p.resources[LastNamed(p.resources, id).GetOr(0)]))
  }

  /** `getResource(resourceIdentifier)` as written. An identifier that
      matches the pattern is given to `parseInt`, which answers `NaN` for a
      run of `d`s, so the lookup is `undefined` unless the package is
      empty. Every other identifier, digit strings included, is a name. */
  function GetResourceAsWritten(p: LegacyPackage, id: string): (r: Result<Lookup, string>)
    ensures MatchesIndexPatternAsWritten(id) ==> r == Success(if |p.resources| == 0 then Null else Undefined)
    ensures !MatchesIndexPatternAsWritten(id) ==> r == LookupByName(p, id)
  {
    if MatchesIndexPatternAsWritten(id) then Success(if |p.resources| == 0 then Null else Undefined)
    else LookupByName(p, id)
  }

  /** `getResource` with the pattern the code evidently means, `/^\d+$/`:
      a string of decimal digits is an index, which is `undefined` past
      the end. */
  function GetResource(p: LegacyPackage, id: string): (r: Result<Lookup, string>)
    ensures |id| > 0 && AllDigits(id) ==>
      r == Success(if |p.resources| == 0 then Null
                   else if ParseDecimal(id) < |p.resources| then Found(p.resources[ParseDecimal(id)])
                   else Undefined)
    ensures !(|id| > 0 && AllDigits(id)) ==> r == LookupByName(p, id)
  {
    if |id| > 0 && AllDigits(id) then
      var index := ParseDecimal(id);
      Success(if |p.resources| == 0 then Null else if index < |p.resources| then Found(p.resources[index]) else Undefined)
    else LookupByName(p, id)
  }

  /** An empty package answers `null` to any identifier, in both readings. */
  lemma EmptyPackageHasNoResource(p: LegacyPackage, id: string)
    requires |p.resources| == 0
    ensures GetResourceAsWritten(p, id) == Success(Null)
    ensures GetResource(p, id) == Success(Null)
  {
  }

  /** Looking up a name finds the last resource of that name, and a name no
      resource bears falls back to the first resource. */
  lemma NameLookupLastWinsElseFirst(p: LegacyPackage, id: string)
    requires !HasNullMetadata(p.resources) && |p.resources| > 0
    requires !(|id| > 0 && AllDigits(id))
    ensures (forall i | 0 <= i < |p.resources| :: !NamedAs(p.resources[i], id)) ==>
      GetResource(p, id) == Success(Found(p.resources[0]))
    ensures forall i | 0 <= i < |p.resources| && NamedAs(p.resources[i], id) &&
                       (forall j | i < j < |p.resources| :: !NamedAs(p.resources[j], id)) ::
      GetResource(p, id) == Success(Found(p.resources[i]))
  {
    forall i | 0 <= i < |p.resources| && NamedAs(p.resources[i], id) &&
               (forall j | i < j < |p.resources| :: !NamedAs(p.resources[j], id))
      ensures LastNamed(p.resources, id) == Some(i)
    {
      var k := LastNamed(p.resources, id).value;
      assert !(k < i) && !(i < k);
    }
  }

  /** The two readings agree on every identifier that is neither a digit
      string nor a run of `d`s. */
  lemma ReadingsAgreeOnNames(p: LegacyPackage, id: string)
    requires !(|id| > 0 && AllDigits(id)) && !MatchesIndexPatternAsWritten(id)
    ensures GetResourceAsWritten(p, id) == GetResource(p, id)
  {
  }

  /** Where the readings part: with two resources named "a" and "b",
      identifier "1" finds the second one by index as intended, but as
      written it is a name nobody bears and the first resource comes back;
      and "d" finds nothing as written. */
  lemma IndexIdentifierCounterexample(a: LegacyResource, b: LegacyResource)
    requires a.metadata == JObj(map["name" := JStr("a")]) && b.metadata == JObj(map["name" := JStr("b")])
    ensures var p := LegacyPackage(JObj(map[]), [a, b], None);
      && GetResource(p, "1") == Success(Found(b))
      && GetResourceAsWritten(p, "1") == Success(Found(a))
      && GetResourceAsWritten(p, "d") == Success(Undefined)
  {
    var p := LegacyPackage(JObj(map[]), [a, b], None);
    assert ParseDecimal("1") == 1 by {
      assert "1"[..0] == "";
    }
    assert !MatchesIndexPatternAsWritten("1") by {
      assert "1"[0] != 'd';
    }
    assert !NamedAs(a, "1") && !NamedAs(b, "1");
    assert LastNamed(p.resources, "1").None?;
  }

  /** JavaScript's white space and line terminators, as `Number(s)` trims
      them. */
  predicate IsJsSpace(c: char) {
    || c == ' ' || c == '\t' || c == '\n' || c == '\r' || c == '\U{000B}' || c == '\U{000C}'
    || c == '\U{00A0}' || c == '\U{1680}' || ('\U{2000}' <= c <= '\U{200A}') || c == '\U{2028}'
    || c == '\U{2029}' || c == '\U{202F}' || c == '\U{205F}' || c == '\U{3000}' || c == '\U{FEFF}'
  }

  /** Every character of `s` is white space. */
  predicate AllJsSpace(s: string) {
    forall k | 0 <= k < |s| :: IsJsSpace(s[k])
  }

  /** `r` is `s` without a white-space prefix and a white-space suffix. */
  ghost predicate TrimmedSlice(s: string, r: string) {
    exists i, j | 0 <= i <= j <= |s| :: r == s[i..j] && AllJsSpace(s[..i]) && AllJsSpace(s[j..])
  }

  /** The string without leading and trailing white space, as `Number(s)`
      reads it: a slice of the string cut only at white space, and, unless
      empty, beginning and ending with a character that is not white
      space. */
  function Trim(s: string): (r: string)
    ensures |r| <= |s|
    ensures |r| > 0 ==> !IsJsSpace(r[0]) && !IsJsSpace(r[|r| - 1])
    ensures TrimmedSlice(s, r)
    decreases |s|
  {
    if |s| > 0 && IsJsSpace(s[0]) then
      var t := Trim(s[1..]);
      SliceDropFront(s, t);
      t
    else if |s| > 0 && IsJsSpace(s[|s| - 1]) then
      var t := Trim(s[..|s| - 1]);
      SliceDropBack(s, t);
      t
    else
      assert s[0..|s|] == s && s[..0] == [] && s[|s|..] == [];
      s
  }

  /** A trimmed slice of the string after a leading white space is a
      trimmed slice of the whole string. */
  lemma SliceDropFront(s: string, r: string)
    requires |s| > 0 && IsJsSpace(s[0]) && TrimmedSlice(s[1..], r)
    ensures TrimmedSlice(s, r)
  {
    var u := s[1..];
    var i, j :| 0 <= i <= j <= |u| && r == u[i..j] && AllJsSpace(u[..i]) && AllJsSpace(u[j..]);
    assert r == s[i + 1..j + 1];
    var prefix := s[..i + 1];
    forall k | 0 <= k < |prefix|
      ensures IsJsSpace(prefix[k])
    {
      if k > 0 {
        assert prefix[k] == u[..i][k - 1];
      }
    }
    assert s[j + 1..] == u[j..];
  }

  /** A trimmed slice of the string before a trailing white space is a
      trimmed slice of the whole string. */
  lemma SliceDropBack(s: string, r: string)
    requires |s| > 0 && IsJsSpace(s[|s| - 1]) && TrimmedSlice(s[..|s| - 1], r)
    ensures TrimmedSlice(s, r)
  {
    var n := |s| - 1;
    var u := s[..n];
    var i, j :| 0 <= i <= j <= |u| && r == u[i..j] && AllJsSpace(u[..i]) && AllJsSpace(u[j..]);
    assert r == s[i..j];
    assert s[..i] == u[..i];
    var suffix := s[j..];
    forall k | 0 <= k < |suffix|
      ensures IsJsSpace(suffix[k])
    {
      if j + k < n {
        assert suffix[k] == u[j..][k];
      }
    }
  }

  /** A (possibly empty) run of zeros. */
  predicate AllZeros(s: string) {
    forall i | 0 <= i < |s| :: s[i] == '0'
  }

  /** A non-empty run of decimal digits. */
  predicate Digits(s: string) {
    |s| > 0 && AllDigits(s)
  }

  /** An exponent after its `e`: an optional sign and digits. */
  predicate ValidExponent(x: string) {
    Digits(x) || (|x| > 0 && (x[0] == '+' || x[0] == '-') && Digits(x[1..]))
  }

  /** A decimal mantissa whose value is zero: zeros, a point, zeros, with
      at least one digit. */
  predicate ZeroMantissa(m: string) {
    match IndexOfChar(m, '.')
    case None => |m| > 0 && AllZeros(m)
    case Some(d) => AllZeros(m[..d]) && AllZeros(m[d + 1..]) && |m| > 1
  }

  /** The index of the first `e` or `E`. */
  function ExponentMark(s: string): (r: Option<nat>)
    ensures r.Some? ==> r.value < |s| && (s[r.value] == 'e' || s[r.value] == 'E')
  {
    match IndexOfChar(s, 'e')
    case Some(i) =>
      (match IndexOfChar(s, 'E')
       case Some(j) => if j < i then Some(j) else Some(i)
       case None => Some(i))
    case None => IndexOfChar(s, 'E')
  }

  /** An unsigned decimal literal of value zero, with an optional
      exponent. */
  predicate ZeroDecimal(t: string) {
    match ExponentMark(t)
    case None => ZeroMantissa(t)
    case Some(e) => ZeroMantissa(t[..e]) && ValidExponent(t[e + 1..])
  }

  /** Whether `Number(s)` is zero: the trimmed string is empty, a signed
      decimal zero, or a hexadecimal, octal or binary zero. */
  predicate ZeroNumericString(s: string) {
    var t := Trim(s);
    || t == ""
    || ZeroDecimal(t)
    || (|t| > 0 && (t[0] == '+' || t[0] == '-') && ZeroDecimal(t[1..]))
    || (|t| > 2 && t[0] == '0' && t[1] in "xXoObB" && AllZeros(t[2..]))
  }

  /** `v != undefined && v == false` with JavaScript's loose equality:
      `null` is excluded; a boolean is compared as is, a number and a string
      by numeric value, an array by the number its joined text denotes, and
      an object (whose text is "[object Object]") never equals false. */
  predicate LooselyFalse(v: Option<Json>): (r: bool)
    ensures r ==> v.Some? && !v.value.JNull? && !v.value.JObj?
    ensures v.Some? && v.value != JNull && !Truthy(v.value) ==> r
    ensures v.Some? && v.value.JBool? ==> (r <==> !v.value.b)
    ensures v.Some? && v.value.JInt? ==> (r <==> v.value.n == 0)
  {
    match v
    case None => false
    case Some(JNull) => false
    case Some(JBool(b)) => !b
    case Some(JInt(n)) => n == 0
    case Some(JStr(s)) => ZeroNumericString(s)
    case Some(JArr(items)) => ZeroNumericString(JsString(JArr(items)))
    case Some(JObj(_)) => false
  }

  /** A literal that starts with anything but a digit zero or a point has
      a value other than zero. */
  lemma NonZeroStart(t: string)
    requires |t| > 0 && t[0] != '0' && t[0] != '.'
    ensures !ZeroDecimal(t)
  {
    match ExponentMark(t)
    case None => NonZeroMantissa(t);
    case Some(e) =>
      if e > 0 {
        assert t[..e][0] == t[0];
        NonZeroMantissa(t[..e]);
      }
  }

  lemma NonZeroMantissa(m: string)
    requires |m| > 0 && m[0] != '0' && m[0] != '.'
    ensures !ZeroMantissa(m)
  {
    match IndexOfChar(m, '.')
    case None =>
    case Some(d) => assert m[..d][0] == m[0];
  }

  /** Text that, trimmed, starts with neither a zero, a point nor a sign
      is not a numeric zero. */
  lemma NotNumericZero(s: string)
    requires |Trim(s)| > 0
    requires Trim(s)[0] != '0' && Trim(s)[0] != '.' && Trim(s)[0] != '+' && Trim(s)[0] != '-'
    ensures !ZeroNumericString(s)
  {
    NonZeroStart(Trim(s));
  }

  /** Which values a dialect's `doubleQuote` may hold to count as false:
      false and 0 do, true and `null` do not. */
  lemma LooselyFalseExamples()
    ensures LooselyFalse(Some(JBool(false))) && LooselyFalse(Some(JInt(0))) && LooselyFalse(Some(JStr("")))
    ensures !LooselyFalse(Some(JBool(true))) && !LooselyFalse(Some(JNull)) && !LooselyFalse(None)
  {
  }

  /** The string "0" is loosely false. */
  lemma ZeroTextIsLooselyFalse()
    ensures LooselyFalse(Some(JStr("0")))
  {
    var s := "0";
    assert !IsJsSpace(s[0]);
    assert Trim(s) == s;
    assert IndexOfChar(s, '.') == None by {
      assert s[0] != '.';
    }
    assert ExponentMark(s) == None by {
      assert IndexOfChar(s, 'e') == None && IndexOfChar(s, 'E') == None;
    }
    assert AllZeros(s);
  }

  /** The string "false" is not: its numeric value is `NaN`. */
  lemma FalseWordIsNotLooselyFalse()
    ensures !LooselyFalse(Some(JStr("false")))
  {
    var s := "false";
    assert !IsJsSpace(s[0]) && !IsJsSpace(s[4]);
    assert Trim(s) == s;
    NotNumericZero(s);
  }

  /** The options `csvToStream` gives the CSV parser. `None` is an option
      that is not set. */
  datatype ParserOptions = ParserOptions(
    columns: bool,
    ltrim: bool,
    delimiter: Option<Json>,
    rowDelimiter: Option<Json>,
    quote: Option<Json>,
    escape: Option<string>)

  /** The parser options for an optional dialect: columns and left trim
      always; with a truthy dialect, its delimiter (default ","), its line
      terminator as row delimiter, its quote character (default a double
      quote), and an empty escape when `doubleQuote` is loosely false. */
  function ParseOptions(dialect: Option<Json>): (r: ParserOptions)
    ensures r.columns && r.ltrim
    ensures !(dialect.Some? && Truthy(dialect.value)) ==>
      r.delimiter.None? && r.rowDelimiter.None? && r.quote.None? && r.escape.None?
    ensures dialect.Some? && Truthy(dialect.value) ==>
      var d := dialect.value;
      && r.delimiter.Some? && Truthy(r.delimiter.value) && r.quote.Some? && Truthy(r.quote.value)
      && (Get(d, "delimiter").Some? && Truthy(Get(d, "delimiter").value) ==> r.delimiter == Get(d, "delimiter"))
      && (!(Get(d, "delimiter").Some? && Truthy(Get(d, "delimiter").value)) ==> r.delimiter == Some(JStr(",")))
      && (Get(d, "quoteChar").Some? && Truthy(Get(d, "quoteChar").value) ==> r.quote == Get(d, "quoteChar"))
      && (!(Get(d, "quoteChar").Some? && Truthy(Get(d, "quoteChar").value)) ==> r.quote == Some(JStr("\"")))
      && r.rowDelimiter == Get(d, "lineTerminator")
      && (r.escape.Some? <==> LooselyFalse(Get(d, "doubleQuote")))
      && (r.escape.Some? ==> r.escape.value == "")
  {
    if !(dialect.Some? && Truthy(dialect.value)) then ParserOptions(true, true, None, None, None, None)
    else
      var d := dialect.value;
      ParserOptions(
        true, true,
        Some(OrDefault(Get(d, "delimiter"), JStr(","))),
        Get(d, "lineTerminator"),
        Some(OrDefault(Get(d, "quoteChar"), JStr("\""))),
        if LooselyFalse(Get(d, "doubleQuote")) then Some("") else None)
  }

  /** `v || fallback` for a property that may be `undefined`. */
  function OrDefault(v: Option<Json>, fallback: Json): Json {
    if v.Some? && Truthy(v.value) then v.value else fallback
  }

  /** `parseBoolean(cell)`: "true" in any case or "1" is true, "false" in
      any case or "0" is false, anything else is `undefined` (`None`). The
      only non-ASCII characters whose lower case is ASCII are the Kelvin
      sign and the dotted capital I, neither of which can lower to a letter
      of "true" or "false", so ASCII lower-casing decides these comparisons
      exactly. */
  function ParseBoolean(cell: string): (r: Option<bool>)
    ensures r == Some(true) <==> Lower(cell) == "true" || cell == "1"
    ensures r == Some(false) <==> !(Lower(cell) == "true" || cell == "1") && (Lower(cell) == "false" || cell == "0")
  {
    if Lower(cell) == "true" || cell == "1" then Some(true)
    else if Lower(cell) == "false" || cell == "0" then Some(false)
    else None
  }

  /** Lower-casing twice is lower-casing once. */
  lemma LowerIdempotent(s: string)
    ensures Lower(Lower(s)) == Lower(s)
  {
  }

  /** `parseBoolean` ignores case, and it reads back the text of every
      boolean in both the word and the digit forms. */
  lemma ParseBooleanProperties(cell: string, b: bool)
    ensures ParseBoolean(Lower(cell)) == ParseBoolean(cell)
    ensures ParseBoolean(if b then "true" else "false") == Some(b)
    ensures ParseBoolean(if b then "1" else "0") == Some(b)
    ensures ParseBoolean("TRUE") == Some(true) && ParseBoolean("yes") == None
  {
    LowerIdempotent(cell);
    if Lower(cell) == "1" || Lower(cell) == "0" {
      assert |cell| == 1 && cell[0] == Lower(cell)[0];
      assert cell == Lower(cell);
    }
    if cell == "1" || cell == "0" {
      assert Lower(cell) == cell;
    }
    assert Lower("yes") == "yes";
    assert Lower("TRUE") == "true";
    assert Lower("true") == "true";
    assert Lower("false") == "false";
  }

  /** The cast functions of `typeToCast`: `parseInt`, `parseFloat`, the
      date parser, `parseBoolean` and `JSON.parse`. */
  datatype CastFn = ParseIntCast | ParseFloatCast | ParseDateCast | ParseBooleanCast | JsonParseCast

  /** `typeToCast`: the seven field types that are cast. */
  const TypeToCast: map<string, CastFn> := map[
    "integer" := ParseIntCast,
    "number" := ParseFloatCast,
    "date" := ParseDateCast,
    "datetime" := ParseDateCast,
    "boolean" := ParseBooleanCast,
    "object" := JsonParseCast,
    "array" := JsonParseCast]

  /** A field property as a property key: its string form, "undefined"
      when it is missing. */
  function KeyOf(field: Json, property: string): string {
    match Get(field, property)
    case Some(v) => JsString(v)
    case None => "undefined"
  }

  /** Whether a field's type is one `typeToCast` knows. */
  predicate Castable(field: Json) {
    KeyOf(field, "type") in TypeToCast
  }

  /** The index of the last castable field stored under `key`. */
  ghost predicate LastCastFor(fields: seq<Json>, key: string, i: int) {
    && 0 <= i < |fields| && Castable(fields[i]) && KeyOf(fields[i], "name") == key
    && forall j | i < j < |fields| :: !(Castable(fields[j]) && KeyOf(fields[j], "name") == key)
  }

  /** The `forEach` over the schema's fields: every field with a castable
      type maps its name to its cast, and a later field of the same name
      replaces an earlier one. Reading `type` of a `null` field throws. */
  function CastMapOf(fields: seq<Json>): (r: Result<map<string, CastFn>, string>)
    ensures r.Failure? <==> exists i | 0 <= i < |fields| :: fields[i].JNull?
    ensures r.Success? ==> CastMapFor(fields, r.value)
  {
    if |fields| == 0 then Success(map[])
    else
      var init := fields[..|fields| - 1];
      var f := fields[|fields| - 1];
      assert forall i | 0 <= i < |init| :: init[i] == fields[i];
      var prior :- CastMapOf(init);
      if f.JNull? then Failure("TypeError")
      else
        var r := if Castable(f) then prior[KeyOf(f, "name") := TypeToCast[KeyOf(f, "type")]] else prior;
        CastMapStep(fields, prior, r);
        Success(r)
  }

  /** `m` is the cast map of `fields`: its names are exactly those of the
      castable fields, each mapped to the cast of the last such field. */
  ghost predicate CastMapFor(fields: seq<Json>, m: map<string, CastFn>) {
    && (forall k :: k in m <==> exists i | 0 <= i < |fields| :: Castable(fields[i]) && KeyOf(fields[i], "name") == k)
    && (forall k, i | k in m && LastCastFor(fields, k, i) :: m[k] == TypeToCast[KeyOf(fields[i], "type")])
  }

  /** One more field: storing its cast when castable extends the cast map
      of the fields before it. */
  lemma CastMapStep(fields: seq<Json>, prior: map<string, CastFn>, r: map<string, CastFn>)
    requires |fields| > 0
    requires CastMapFor(fields[..|fields| - 1], prior)
    requires var f := fields[|fields| - 1];
      r == if Castable(f) then prior[KeyOf(f, "name") := TypeToCast[KeyOf(f, "type")]] else prior
    ensures CastMapFor(fields, r)
  {
    CastMapStepKeys(fields, prior, r);
    CastMapStepCasts(fields, prior, r);
  }

  /** The names of the extended map are those of the castable fields. */
  lemma CastMapStepKeys(fields: seq<Json>, prior: map<string, CastFn>, r: map<string, CastFn>)
    requires |fields| > 0
    requires CastMapFor(fields[..|fields| - 1], prior)
    requires var f := fields[|fields| - 1];
      r == if Castable(f) then prior[KeyOf(f, "name") := TypeToCast[KeyOf(f, "type")]] else prior
    ensures forall k :: k in r <==> exists i | 0 <= i < |fields| :: Castable(fields[i]) && KeyOf(fields[i], "name") == k
  {
    var init := fields[..|fields| - 1];
    var last := |fields| - 1;
    forall k
      ensures k in r <==> exists i | 0 <= i < |fields| :: Castable(fields[i]) && KeyOf(fields[i], "name") == k
    {
      if k in r && k !in prior {
        assert Castable(fields[last]) && KeyOf(fields[last], "name") == k;
      }
      if k in prior {
        var i :| 0 <= i < |init| && Castable(init[i]) && KeyOf(init[i], "name") == k;
        assert init[i] == fields[i];
      }
      if exists i | 0 <= i < |fields| :: Castable(fields[i]) && KeyOf(fields[i], "name") == k {
        var i :| 0 <= i < |fields| && Castable(fields[i]) && KeyOf(fields[i], "name") == k;
        if i < last {
          assert init[i] == fields[i];
          assert Castable(init[i]) && KeyOf(init[i], "name") == k;
        }
      }
    }
  }

  /** Each name of the extended map holds the cast of its last castable
      field. */
  lemma CastMapStepCasts(fields: seq<Json>, prior: map<string, CastFn>, r: map<string, CastFn>)
    requires |fields| > 0
    requires CastMapFor(fields[..|fields| - 1], prior)
    requires var f := fields[|fields| - 1];
      r == if Castable(f) then prior[KeyOf(f, "name") := TypeToCast[KeyOf(f, "type")]] else prior
    ensures forall k, i | k in r && LastCastFor(fields, k, i) :: r[k] == TypeToCast[KeyOf(fields[i], "type")]
  {
    var init := fields[..|fields| - 1];
    forall k, i | k in r && LastCastFor(fields, k, i)
      ensures r[k] == TypeToCast[KeyOf(fields[i], "type")]
    {
      if i < |init| {
        assert forall j | 0 <= j < |init| :: init[j] == fields[j];
        assert LastCastFor(init, k, i);
      }
    }
  }

  /** The cast map of `csvToStream`: empty without a truthy schema or
      truthy `fields`; `fields` that are not an array have no `forEach`. */
  function CastMap(schema: Option<Json>): (r: Result<map<string, CastFn>, string>)
    ensures !(schema.Some? && Truthy(schema.value)) ==> r == Success(map[])
    ensures schema.Some? && Truthy(schema.value) ==>
      match Get(schema.value, "fields")
      case Some(JArr(fields)) => r == CastMapOf(fields)
      case Some(v) => (Truthy(v) ==> r == Failure("TypeError")) && (!Truthy(v) ==> r == Success(map[]))
      case None => r == Success(map[])
  {
    if !(schema.Some? && Truthy(schema.value)) then Success(map[])
    else match Get(schema.value, "fields")
      case None => Success(map[])
      case Some(v) =>
        if !Truthy(v) then Success(map[])
        else if v.JArr? then CastMapOf(v.items)
        else Failure("TypeError")
  }

  /** A schema with a string field, an integer field and a date field casts
      exactly the latter two. */
  lemma CastMapExample()
    ensures var fields := [
        JObj(map["name" := JStr("a"), "type" := JStr("string")]),
        JObj(map["name" := JStr("b"), "type" := JStr("integer")]),
        JObj(map["name" := JStr("c"), "type" := JStr("date")])];
      CastMap(Some(JObj(map["fields" := JArr(fields)]))) == Success(map["b" := ParseIntCast, "c" := ParseDateCast])
  {
    var fields := [
        JObj(map["name" := JStr("a"), "type" := JStr("string")]),
        JObj(map["name" := JStr("b"), "type" := JStr("integer")]),
        JObj(map["name" := JStr("c"), "type" := JStr("date")])];
    assert !Castable(fields[0]);
    assert Castable(fields[1]) && Castable(fields[2]);
    assert fields[..2][..1] == [fields[0]];
    assert fields[..2] == [fields[0], fields[1]];
  }
}

=== FILE: package.dfy ===
/** src/package.js: the `Package` class, the later version of the package
    aggregate. Its shape is that of src/datapackage.js (a current and a next
    descriptor, a positional resource list, strict and non-strict
    validation), with these differences: resources are added to and removed
    from the current descriptor directly, children that declare foreign keys
    are rebuilt on every build, a deprecated `url` becomes a plain string
    `path`, and a rejected descriptor throws a single `DataPackageError`.
    The descriptor expansion it calls (`helpers.expandPackageDescriptor`),
    its profile's `validate` (which answers `{valid, errors}`), the child
    `Resource` constructor and the child's own `infer` are parameters. */
module Package {
  import opened Wrappers
  import opened Strings
  import opened JsonValues
  import Helpers
  import Profile
  import opened ResourceSet

  /** A `Package` instance; `profile` is the schema of its profile. */
  datatype Package = Package(
    current: Obj,
    next: Obj,
    basePath: Option<string>,
    strict: bool,
    profile: Json,
    resources: seq<Child>,
    errors: seq<string>)

  /** What the profile's `validate` answers. */
  datatype Validation = Validation(valid: bool, errors: seq<string>)

  /** The code `Package` relies on without defining it: descriptor
      expansion, profile validation (schema, descriptor) and the child
      constructor (descriptor, strict, basePath). */
  datatype Env = Env(
    expand: Obj -> Obj,
    validate: (Json, Obj) -> Validation,
    make: (Json, bool, Option<string>) -> Child)

  /** `There are N validation errors (see 'error.errors')`. */
  function StrictMessage(count: nat): string {
    "There are " + IntToString(count) + " validation errors (see 'error.errors')"
  }

  /** The constructor's rewrite of one resource: a truthy `url` replaces
      `path`, as a plain string, and is deleted. */
  function NormalizeResource(m: Obj): (r: Obj)
    ensures TruthyField(m, "url") ==> "url" !in r && "path" in r && r["path"] == m["url"]
    ensures !TruthyField(m, "url") ==> r == m
    ensures forall k | k != "url" && k != "path" :: (k in r <==> k in m) && (k in r ==> r[k] == m[k])
  {
    if TruthyField(m, "url") then (m - {"url"})["path" := m["url"]] else m
  }

  /** Rewriting is idempotent, and it never wraps a path in a list: a
      resource without a truthy `url` keeps its `path` as it is. */
  lemma NormalizeResourceIdempotent(m: Obj)
    ensures !TruthyField(NormalizeResource(m), "url")
    ensures NormalizeResource(NormalizeResource(m)) == NormalizeResource(m)
  {
  }

  /** The variant's rebuild rule: a child whose schema declares foreign
      keys is always made anew. */
  predicate MustRebuild(c: Child) {
    c.hasForeignKeys
  }

  /** `_build()`: expand the current descriptor and make next a copy of it;
      clear the errors and validate, storing the profile's errors on a
      rejection and, in strict mode, throwing them in a `DataPackageError`;
      then reconcile the resources, rebuilding foreign-key children. */
  function Build(s: Package, env: Env): (r: Step<Package, ()>)
    ensures r.state.current == env.expand(s.current) && r.state.next == r.state.current
    ensures r.state.strict == s.strict && r.state.basePath == s.basePath && r.state.profile == s.profile
    ensures var v := env.validate(s.profile, r.state.current);
      && r.state.errors == (if v.valid then [] else v.errors)
      && (!v.valid && s.strict ==>
            r == Threw(PackageError(StrictMessage(|v.errors|), v.errors), r.state) && r.state.resources == s.resources)
      && (r.Ok? <==> (v.valid || !s.strict) && ResourceList(r.state.current).Success?)
    ensures r.Ok? ==>
      r.state.resources ==
        Reconcile(s.resources, ResourceList(r.state.current).value, MustRebuild, d => env.make(d, s.strict, s.basePath))
    ensures r.Ok? ==> Reconciled(r.state.current, r.state.resources)
  {
    var current := env.expand(s.current);
    var v := env.validate(s.profile, current);
    var s1 := s.(current := current, next := current, errors := if v.valid then [] else v.errors);
    if !v.valid && s.strict then Threw(PackageError(StrictMessage(|v.errors|), v.errors), s1)
    else match ResourceList(current)
      case Failure(e) => Threw(e, s1)
      case Success(descs) =>
        Ok(s1.(resources := Reconcile(s.resources, descs, MustRebuild, d => env.make(d, s.strict, s.basePath))), ())
  }

  /** A child that declares foreign keys does not survive a build, even
      when its descriptor is unchanged; any other child with an unchanged
      descriptor does. */
  lemma BuildRebuildsForeignKeyChildren(s: Package, env: Env, i: int)
    requires Build(s, env).Ok? && 0 <= i < |s.resources| && i < |Build(s, env).state.resources|
    ensures var c := s.resources[i];
      var r := Build(s, env).state;
      && (c.hasForeignKeys ==> r.resources[i] == env.make(ResourceList(r.current).value[i], s.strict, s.basePath))
      && (!c.hasForeignKeys && c.descriptor == ResourceList(r.current).value[i] ==> r.resources[i] == c)
  {
  }

  /** In strict mode a rejected descriptor throws one error whose message
      counts the profile's errors and which carries them, and the instance
      keeps them as its errors: `valid` is false afterwards. */
  lemma StrictRejectionThrows(s: Package, env: Env)
    requires s.strict && !env.validate(s.profile, env.expand(s.current)).valid
    ensures var v := env.validate(s.profile, env.expand(s.current));
      && Build(s, env) == Threw(PackageError(StrictMessage(|v.errors|), v.errors), Build(s, env).state)
      && Build(s, env).state.errors == v.errors
  {
  }

  /** `new Package(descriptor, {basePath, strict, profile})`. */
  function Create(descriptor: Obj, basePath: Option<string>, strict: bool, profile: Json, env: Env)
    : (r: Result<Package, Thrown>)
    ensures NormalizeDescriptor(descriptor, NormalizeResource).Failure? ==> r == Failure(NormalizeDescriptor(descriptor, NormalizeResource).error)
    ensures r.Success? ==>
      && NormalizeDescriptor(descriptor, NormalizeResource).Success?
      && r.value.current == env.expand(NormalizeDescriptor(descriptor, NormalizeResource).value)
      && r.value.next == r.value.current
      && Reconciled(r.value.current, r.value.resources)
      && r.value.strict == strict && r.value.basePath == basePath && r.value.profile == profile
  {
    var d :- NormalizeDescriptor(descriptor, NormalizeResource);
    match Build(Package(d, d, basePath, strict, profile, [], []), env)
    case Ok(s, _) => Success(s)
    case Threw(e, _) => Failure(e)
  }

  /** `Package.load(descriptor, {basePath, strict})` after the descriptor
      has been retrieved and dereferenced (both outside this model): locate
      the base path when none is given, load the profile and construct. */
  function Load(descriptor: Obj, basePath: Option<string>, strict: bool, cache: Profile.Cache,
                fetch: string -> Option<Json>, bundled: map<string, Json>, env: Env)
    : (r: Result<(Package, Profile.Cache), Thrown>)
    ensures r.Success? ==> r.value.0.strict == strict && r.value.0.basePath == basePath
    ensures r.Success? ==> r.value.0.next == r.value.0.current && Reconciled(r.value.0.current, r.value.0.resources)
    ensures LoadProfile(cache, ProfileKeyOf(descriptor), fetch, bundled).Failure? ==>
      r == Failure(LoadProfile(cache, ProfileKeyOf(descriptor), fetch, bundled).error)
    ensures var loaded := LoadProfile(cache, ProfileKeyOf(descriptor), fetch, bundled);
      r.Success? ==> loaded.Success? && r.value.0.profile == loaded.value.0.jsonschema && r.value.1 == loaded.value.1
    ensures var d := NormalizeDescriptor(descriptor, NormalizeResource);
      && (LoadProfile(cache, ProfileKeyOf(descriptor), fetch, bundled).Success? && d.Failure? ==> r == Failure(d.error))
      && (r.Success? ==> d.Success? && r.value.0.current == env.expand(d.value))
  {
    var base := if basePath.None? then Helpers.LocateDescriptor(descriptor) else basePath;
    var (profile, cache1) :- LoadProfile(cache, ProfileKeyOf(descriptor), fetch, bundled);
    var s :- Create(descriptor, base, strict, profile.jsonschema, env);
    Success((s, cache1))
  }

  /** Loading the same descriptor again, with the cache the first load
      left, gives the same instance and cache whatever the sources now say,
      provided the profile's schema is truthy. */
  lemma LoadAgainReadsNothing(descriptor: Obj, basePath: Option<string>, strict: bool, cache: Profile.Cache,
                              fetch: string -> Option<Json>, bundled: map<string, Json>,
                              fetch2: string -> Option<Json>, bundled2: map<string, Json>, env: Env)
    requires Load(descriptor, basePath, strict, cache, fetch, bundled, env).Success?
    requires Truthy(Load(descriptor, basePath, strict, cache, fetch, bundled, env).value.0.profile)
    ensures var cache1 := Load(descriptor, basePath, strict, cache, fetch, bundled, env).value.1;
      Load(descriptor, basePath, strict, cache1, fetch2, bundled2, env)
        == Load(descriptor, basePath, strict, cache, fetch, bundled, env)
  {
    LoadProfileAgainHits(cache, ProfileKeyOf(descriptor), fetch, bundled, fetch2, bundled2);
  }

  /** The `descriptor` getter: the next descriptor, which callers edit. */
  function Descriptor(s: Package): Obj {
    s.next
  }

  /** `commit({strict})`: a boolean `strict` replaces the flag and always
      rebuilds; otherwise an unchanged next descriptor makes it a no-op
      returning false. */
  function Commit(s: Package, strict: Option<bool>, env: Env): (r: Step<Package, bool>)
    ensures strict.None? && s.current == s.next ==> r == Ok(s, false)
    ensures !(strict.None? && s.current == s.next) ==>
      && r.state.strict == strict.GetOr(s.strict)
      && r.state.current == env.expand(s.next)
      && r.state.next == r.state.current
      && (r.Ok? ==> r.value && Reconciled(r.state.current, r.state.resources))
  {
    if strict.None? && s.current == s.next then Ok(s, false)
    else
      var s1 := s.(strict := strict.GetOr(s.strict));
      match Build(s1.(current := s1.next), env)
      case Ok(s2, _) => Ok(s2, true)
      case Threw(e, s2) => Threw(e, s2)
  }

  /** A commit leaves next equal to current, so a second commit with no
      flag returns false and changes nothing. */
  lemma CommitThenCommitIsNoOp(s: Package, strict: Option<bool>, env: Env)
    ensures var s1 := Commit(s, strict, env).state;
      Commit(s1, None, env) == Ok(s1, false)
  {
  }

  /** An edit of next through the `descriptor` getter is picked up by a
      commit, which reports the change and builds from the edit. */
  lemma EditThenCommit(s: Package, next: Obj, env: Env)
    requires next != s.current
    ensures var r := Commit(s.(next := next), None, env);
      r.state.current == env.expand(next) && (r.Ok? ==> r.value)
  {
  }

  /** `addResource(descriptor)`: append to the current descriptor's
      resources (created when missing or falsy), build, and return the last
      resource. A truthy non-array `resources` has no `push`. */
  function AddResource(s: Package, descriptor: Json, env: Env): (r: Step<Package, Option<Child>>)
    ensures TruthyField(s.current, "resources") && !s.current["resources"].JArr? ==> r == Threw(TypeError, s)
    ensures r.Ok? ==> r.value == Last(r.state.resources)
  {
    var items := if !TruthyField(s.current, "resources") then Some([])
                 else if s.current["resources"].JArr? then Some(s.current["resources"].items)
                 else None;
    match items
    case None => Threw(TypeError, s)
    case Some(items) =>
      match Build(s.(current := s.current["resources" := JArr(items + [descriptor])]), env)
      case Ok(s2, _) => Ok(s2, Last(s2.resources))
      case Threw(e, s2) => Threw(e, s2)
  }

  /** `addResource` works on the current descriptor: whatever uncommitted
      edits next holds are discarded, and the outcome does not depend on
      them. */
  lemma AddResourceDiscardsPendingEdits(s: Package, next: Obj, descriptor: Json, env: Env)
    requires !TruthyField(s.current, "resources") || s.current["resources"].JArr?
    ensures AddResource(s.(next := next), descriptor, env) == AddResource(s, descriptor, env)
  {
  }

  /** Expanding `d` keeps its resource list. */
  predicate KeepsList(expand: Obj -> Obj, d: Obj) {
    ResourceList(expand(d)) == ResourceList(d)
  }

  /** The expansion keeps the resource list of every descriptor. */
  ghost predicate KeepsResourceLists(expand: Obj -> Obj) {
    forall d: Obj :: KeepsList(expand, d)
  }

  /** `addResource` with an expansion that keeps the resource list: the
      current resources become the old ones plus the new descriptor, the
      list grows by one, and the last resource is returned. */
  lemma AddResourceAppends(s: Package, descriptor: Json, env: Env)
    requires KeepsResourceLists(env.expand)
    requires ResourceList(s.current).Success?
    requires AddResource(s, descriptor, env).Ok?
    ensures var r := AddResource(s, descriptor, env);
      var items := ResourceList(s.current).value;
      && ResourceList(r.state.current) == Success(items + [descriptor])
      && |r.state.resources| == |items| + 1
      && r.value == Some(r.state.resources[|items|])
  {
    var items := ResourceList(s.current).value;
    var c := s.current["resources" := JArr(items + [descriptor])];
    assert ResourceList(c) == Success(items + [descriptor]);
    assert KeepsList(env.expand, c);
  }

  /** `removeResource(name)`: `null` and no change when no resource has
      that name; otherwise every descriptor of that name is dropped from
      the current descriptor, the package is built, and the instance found
      is returned. */
  function RemoveResource(s: Package, name: string, env: Env): (r: Step<Package, Option<Child>>)
    ensures GetResource(s.resources, name).None? ==> r == Ok(s, None)
    ensures r.Ok? ==> r.value == GetResource(s.resources, name)
    ensures GetResource(s.resources, name).Some? && !("resources" in s.current && s.current["resources"].JArr?) ==>
      r == Threw(TypeError, s)
  {
    match GetResource(s.resources, name)
    case None => Ok(s, None)
    case Some(found) =>
      if !("resources" in s.current && s.current["resources"].JArr?) then Threw(TypeError, s)
      else match FilterOutNamed(s.current["resources"].items, name)
        case Failure(e) => Threw(e, s)
        case Success(kept) =>
          match Build(s.(current := s.current["resources" := JArr(kept)]), env)
          case Ok(s2, _) => Ok(s2, Some(found))
          case Threw(e, s2) => Threw(e, s2)
  }

  /** After removing a known name, and with an expansion that keeps the
      resource list, the current resources are exactly the old ones
      filtered by name, in their order: none bears that name and every
      other descriptor is still there. */
  lemma RemoveResourceDropsAllNamed(s: Package, name: string, env: Env)
    requires KeepsResourceLists(env.expand)
    requires GetResource(s.resources, name).Some?
    requires RemoveResource(s, name, env).Ok?
    ensures var items := s.current["resources"].items;
      var rest := ResourceList(RemoveResource(s, name, env).state.current);
      && rest.Success?
      && FilterOutNamed(items, name).Success?
      && rest.value == FilterOutNamed(items, name).value
      && (forall j | 0 <= j < |rest.value| :: !DescriptorNamed(rest.value[j], name))
      && (forall i | 0 <= i < |items| :: !DescriptorNamed(items[i], name) ==> items[i] in rest.value)
  {
    var kept := FilterOutNamed(s.current["resources"].items, name).value;
    var c := s.current["resources" := JArr(kept)];
    assert KeepsList(env.expand, c);
  }

  /** The message of the error thrown by a pattern infer without a base
      path. */
  const NoBasePathMessage: string := "Base path is required for pattern infer"

  /** The loop of `infer` over the files a pattern matched: one
      `addResource({path: file})` each, stopping at the first throw. */
  function AddFiles(s: Package, files: seq<string>, env: Env): (r: Step<Package, ()>)
    ensures |files| == 0 ==> r == Ok(s, ())
    ensures r.Ok? && |files| > 0 ==> Reconciled(r.state.current, r.state.resources)
    decreases |files|
  {
    if |files| == 0 then Ok(s, ())
    else match AddResource(s, JObj(map["path" := JStr(files[0])]), env)
      case Threw(e, s2) => Threw(e, s2)
      case Ok(s2, _) =>
        var r := AddFiles(s2, files[1..], env);
        r
  }

  /** Expanding `d` keeps the number of its resources when it has a
      resource list. */
  predicate KeepsCount(expand: Obj -> Obj, d: Obj) {
    ResourceList(d).Success? ==>
      ResourceList(expand(d)).Success? && |ResourceList(expand(d)).value| == |ResourceList(d).value|
  }

  /** The expansion keeps the number of resources of every descriptor
      that has a resource list. */
  ghost predicate KeepsResourceCount(expand: Obj -> Obj) {
    forall d: Obj :: KeepsCount(expand, d)
  }

  /** The descriptor expansion src/helpers.js defines only fills in
      `profile`, so it keeps every resource list and with it the number of
      resources: the requirements of `AddResourceAppends`,
      `RemoveResourceDropsAllNamed` and `Infer` hold for it. */
  lemma DataPackageExpansionKeepsResources()
    ensures KeepsResourceLists(d => Helpers.ExpandDataPackageDescriptor(d))
    ensures KeepsResourceCount(d => Helpers.ExpandDataPackageDescriptor(d))
  {
    var expand := (d: Obj) => Helpers.ExpandDataPackageDescriptor(d);
    forall d: Obj ensures KeepsList(expand, d) && KeepsCount(expand, d) {
      var e := Helpers.ExpandDataPackageDescriptor(d);
      assert TruthyField(e, "resources") <==> TruthyField(d, "resources");
    }
  }

  /** The resource loop of `infer` from index `i` on: each child's inferred
      descriptor replaces the current one at its index, then the package is
      built. A build that throws ends the loop. */
  function InferResources(s: Package, i: nat, inferChild: Child -> Json, env: Env): (r: Step<Package, ()>)
    requires Reconciled(s.current, s.resources) && i <= |s.resources|
    requires KeepsResourceCount(env.expand)
    ensures r.Ok? ==> Reconciled(r.state.current, r.state.resources) && |r.state.resources| == |s.resources|
    ensures i == |s.resources| ==> r == Ok(s, ())
    decreases |s.resources| - i
  {
    if i == |s.resources| then Ok(s, ())
    else
      var items := ResourceList(s.current).value;
      var c := s.current["resources" := JArr(items[i := inferChild(s.resources[i])])];
      assert ResourceList(c).Success? && |ResourceList(c).value| == |items|;
      assert KeepsCount(env.expand, c);
      match Build(s.(current := c), env)
      case Threw(e, s2) => Threw(e, s2)
      case Ok(s2, _) => InferResources(s2, i + 1, inferChild, env)
  }

  /** Whether `infer` promotes the profile: next's profile is exactly
      "data-package", there is a resource, and every resource is tabular. */
  predicate Promotes(s: Package) {
    && Field(s.next, "profile") == Some(JStr(Helpers.DefaultDataPackageProfile))
    && |s.resources| > 0
    && forall i | 0 <= i < |s.resources| :: s.resources[i].tabular
  }

  /** The profile step at the end of `infer`. */
  function PromoteProfile(s: Package, env: Env): (r: Step<Package, ()>)
    ensures !Promotes(s) ==> r == Ok(s, ())
    ensures Promotes(s) ==> r == Build(s.(current := s.current["profile" := JStr("tabular-data-package")]), env)
  {
    if Promotes(s) then Build(s.(current := s.current["profile" := JStr("tabular-data-package")]), env)
    else Ok(s, ())
  }

  /** `infer(pattern)`. `files` is `None` for a falsy pattern and otherwise
      the files the pattern matched under the base path (the file search
      is outside this model); a pattern without a base path throws. Then
      every child's inferred descriptor replaces its own, the profile may
      be promoted, and the current descriptor is returned. */
  function Infer(s: Package, files: Option<seq<string>>, inferChild: Child -> Json, env: Env)
    : (r: Step<Package, Obj>)
    requires Reconciled(s.current, s.resources)
    requires KeepsResourceCount(env.expand)
    ensures files.Some? && !(s.basePath.Some? && s.basePath.value != "") ==>
      r == Threw(PackageError(NoBasePathMessage, []), s)
    ensures r.Ok? ==> r.value == r.state.current
  {
    var added := if files.None? then Ok(s, ())
                 else if !(s.basePath.Some? && s.basePath.value != "") then Threw(PackageError(NoBasePathMessage, []), s)
                 else AddFiles(s, files.value, env);
    match added
    case Threw(e, s1) => Threw(e, s1)
    case Ok(s1, _) =>
      match InferResources(s1, 0, inferChild, env)
      case Threw(e, s2) => Threw(e, s2)
      case Ok(s2, _) =>
        match PromoteProfile(s2, env)
        case Threw(e, s3) => Threw(e, s3)
        case Ok(s3, _) => Ok(s3, s3.current)
  }

  /** With no pattern and no resources, infer changes the package only by
      promoting, which it never does without resources: the current
      descriptor comes back as it was. */
  lemma InferWithoutResources(s: Package, inferChild: Child -> Json, env: Env)
    requires Reconciled(s.current, s.resources) && |s.resources| == 0
    requires KeepsResourceCount(env.expand)
    ensures Infer(s, None, inferChild, env) == Ok(s, s.current)
  {
  }

  /** An all-tabular package whose profile is "data-package" is built
      again with the tabular profile; a package with a non-tabular
      resource keeps its profile. */
  lemma PromotionIffAllTabular(s: Package, env: Env)
    requires Field(s.next, "profile") == Some(JStr("data-package")) && |s.resources| > 0
    ensures (forall i | 0 <= i < |s.resources| :: s.resources[i].tabular) ==>
      PromoteProfile(s, env).state.current == env.expand(s.current["profile" := JStr("tabular-data-package")])
    ensures (exists i | 0 <= i < |s.resources| :: !s.resources[i].tabular) ==> PromoteProfile(s, env) == Ok(s, ())
  {
  }

  /** The archive path of one child in a zip save: `data/<name>`, with
      `.<format>` lower-cased when the child's descriptor has a truthy
      format; `None` for a child that is unnamed or not local. A truthy
      format that is not a string has no `toLowerCase`. */
  function ZipPath(c: Child): (r: Result<Option<string>, Thrown>)
    ensures !(c.name.Some? && Truthy(c.name.value) && c.local) ==> r == Success(None)
    ensures c.name.Some? && Truthy(c.name.value) && c.local ==>
      var base := "data/" + JsString(c.name.value);
      match Get(c.descriptor, "format")
      case Some(f) =>
        && (Truthy(f) && f.JStr? ==> r == Success(Some(base + "." + Lower(f.str))))
        && (Truthy(f) && !f.JStr? ==> r == Failure(TypeError))
        && (!Truthy(f) ==> r == Success(Some(base)))
      case None => r == Success(Some(base))
  {
    if !(c.name.Some? && Truthy(c.name.value) && c.local) then Success(None)
    else
      var base := "data/" + JsString(c.name.value);
      match Get(c.descriptor, "format")
      case Some(f) =>
        if !Truthy(f) then Success(Some(base))
        else if f.JStr? then Success(Some(base + "." + Lower(f.str)))
        else Failure(TypeError)
      case None => Success(Some(base))
  }

  /** A zip path always lies in the archive's `data/` directory. */
  lemma ZipPathInDataDirectory(c: Child)
    requires ZipPath(c).Success? && ZipPath(c).value.Some?
    ensures StartsWith(ZipPath(c).value.value, "data/")
  {
  }

  /** One descriptor entry after the rename: a renamed entry gets the new
      `path`, anything else is left as it was. */
  function RenamedEntry(x: Json, path: Option<string>): Json {
    if path.Some? && x.JObj? then JObj(x.fields["path" := JStr(path.value)]) else x
  }

  /** Whether the entry at each renamed index is an object whose `path`
      can be set. */
  predicate Renamable(items: seq<Json>, paths: seq<Option<string>>) {
    forall i | 0 <= i < |paths| && paths[i].Some? :: i < |items| && items[i].JObj?
  }

  /** The zip paths of all children, in order; the first failing one
      throws. */
  function ZipPaths(children: seq<Child>): (r: Result<seq<Option<string>>, Thrown>)
    ensures r.Success? <==> forall i | 0 <= i < |children| :: ZipPath(children[i]).Success?
    ensures r.Failure? ==> r == Failure(TypeError)
    ensures r.Success? ==> |r.value| == |children| && forall i | 0 <= i < |children| :: r.value[i] == ZipPath(children[i]).value
  {
    if |children| == 0 then Success([])
    else
      var p :- ZipPath(children[0]);
      var rest :- ZipPaths(children[1..]);
      assert forall i | 1 <= i < |children| :: children[i] == children[1..][i - 1];
      Success([p] + rest)
  }

  /** The entries after renaming every index with a zip path. */
  function RenameEntries(items: seq<Json>, paths: seq<Option<string>>): (r: seq<Json>)
    ensures |r| == |items|
    ensures forall i | 0 <= i < |items| :: r[i] == RenamedEntry(items[i], if i < |paths| then paths[i] else None)
  {
    if |items| == 0 then []
    else
      var rest := RenameEntries(items[1..], if |paths| > 0 then paths[1..] else []);
      [RenamedEntry(items[0], if 0 < |paths| then paths[0] else None)] + rest
  }

  /** The descriptor written as `datapackage.json` in a zip save: a copy of
      the current descriptor in which every named, local resource's `path`
      is its zip path. Other resources, and everything else, are left as
      they were. Setting the path of a resource entry that is not an object
      throws. */
  function ZipDescriptor(s: Package): (r: Result<Obj, Thrown>)
    ensures ZipPaths(s.resources).Failure? ==> r == Failure(TypeError)
    ensures ZipPaths(s.resources).Success? && (forall i | 0 <= i < |s.resources| :: ZipPath(s.resources[i]).value.None?) ==>
      r == Success(s.current)
    ensures r.Success? && r.value != s.current ==>
      var paths := ZipPaths(s.resources).value;
      && "resources" in s.current && s.current["resources"].JArr?
      && Renamable(s.current["resources"].items, paths)
      && r.value == s.current["resources" := JArr(RenameEntries(s.current["resources"].items, paths))]
  {
    var paths :- ZipPaths(s.resources);
    if forall i | 0 <= i < |paths| :: paths[i].None? then Success(s.current)
    else if "resources" in s.current && s.current["resources"].JArr? && Renamable(s.current["resources"].items, paths) then
      Success(s.current["resources" := JArr(RenameEntries(s.current["resources"].items, paths))])
    else Failure(TypeError)
  }

  /** In a zip save, a named local resource gets its zip path and any
      other resource keeps its entry unchanged. */
  lemma ZipRenamesExactlyNamedLocal(s: Package, i: int)
    requires ZipDescriptor(s).Success? && "resources" in s.current && s.current["resources"].JArr?
    requires 0 <= i < |s.current["resources"].items| && i < |s.resources|
    ensures var out := ZipDescriptor(s).value;
      var x := s.current["resources"].items[i];
      var p := ZipPath(s.resources[i]).value;
      && "resources" in out && out["resources"].JArr? && i < |out["resources"].items|
      && (p.Some? ==> x.JObj? && out["resources"].items[i] == JObj(x.fields["path" := JStr(p.value)]))
      && (p.None? ==> out["resources"].items[i] == x)
  {
    var paths := ZipPaths(s.resources).value;
    assert paths[i] == ZipPath(s.resources[i]).value;
    if forall k | 0 <= k < |paths| :: paths[k].None? {
    } else {
      assert Renamable(s.current["resources"].items, paths);
    }
  }
}

=== FILE: profile.dfy ===
/** src/profile.js: a JSON Schema profile, loaded by name or URL through a
    process-wide cache. The HTTP fetch, the bundled profile files and the
    JSON Schema evaluator (tv4) are parameters of the model. */
module Profile {
  import opened Wrappers
  import opened Strings
  import opened JsonValues
  import Utils
  import Helpers

  /** A `Profile` instance; `jsonschema` is the schema it was constructed
      with, which the `jsonschema` getter returns unchanged. */
  datatype SchemaProfile = SchemaProfile(jsonschema: Json)

  /** The module-level `_cache`: profile key to schema. */
  type Cache = map<string, Json>

  /** `title.replace(' ', '-').toLowerCase()`. */
  function TitleToName(title: string): (r: string)
    ensures |r| == |title|
    ensures forall i :: 0 <= i < |title| ==>
      r[i] == if IndexOfChar(title, ' ') == Some(i) then '-' else LowerChar(title[i])
  {
    var replaced := ReplaceFirst(title, ' ', "-");
    assert |replaced| == |title|;
    assert forall i :: 0 <= i < |title| ==>
      replaced[i] == if IndexOfChar(title, ' ') == Some(i) then '-' else title[i];
    Lower(replaced)
  }

  /** The `name` getter: the title turned into a name when it is a
      non-empty string, `null` (`None`) when it is missing or falsy. A
      truthy title that is not a string has no `replace`, and reading a
      property of a `null` schema throws: both are `TypeError`s. */
  function Name(p: SchemaProfile): (r: Result<Option<string>, string>)
    ensures p.jsonschema.JNull? ==> r.Failure?
    ensures !p.jsonschema.JNull? ==>
      match Get(p.jsonschema, "title")
      case None => r == Success(None)
      case Some(t) =>
        && (!Truthy(t) ==> r == Success(None))
        && (Truthy(t) && !t.JStr? ==> r.Failure?)
        && (Truthy(t) && t.JStr? ==> r == Success(Some(TitleToName(t.str))))
  {
    if p.jsonschema.JNull? then Failure("TypeError")
    else match Get(p.jsonschema, "title")
      case None => Success(None)
      case Some(t) =>
        if !Truthy(t) then Success(None)
        else if t.JStr? then Success(Some(TitleToName(t.str)))
        else Failure("TypeError")
  }

  /** Only the first space of a title becomes a dash: the words before
      and after it are lower-cased, and any later space stays. */
  lemma TitleToNameFirstSpace(w1: string, w2: string)
    requires ' ' !in w1
    ensures TitleToName(w1 + " " + w2) == Lower(w1) + "-" + Lower(w2)
  {
    var t := w1 + " " + w2;
    assert t[..|w1|] == w1;
    IndexOfCharUnique(t, ' ', |w1|);
    var r := TitleToName(t);
    var e := Lower(w1) + "-" + Lower(w2);
    forall i | 0 <= i < |t| ensures r[i] == e[i] {
      if i < |w1| {
        assert t[i] == w1[i];
      } else if i > |w1| {
        assert t[i] == w2[i - |w1| - 1];
      }
    }
  }

  /** "Data Package" names "data-package". */
  lemma NameExample()
    ensures TitleToName("Data Package") == "data-package"
  {
    var w1, w2 := "Data", "Package";
    TitleWords();
    TitleToNameFirstSpace(w1, w2);
    LowerWords();
    NameWords();
  }

  lemma TitleWords()
    ensures "Data Package" == "Data" + " " + "Package" && ' ' !in "Data"
  {
  }

  lemma NameWords()
    ensures "data" + "-" + "package" == "data-package"
  {
  }

  lemma LowerWords()
    ensures Lower("Data") == "data" && Lower("Package") == "package"
  {
  }

  /** A name never holds an ASCII capital letter, and a title with a space
      gives a name with a dash where the first space was. */
  lemma NameIsLowerCase(title: string)
    ensures forall i :: 0 <= i < |title| ==> !('A' <= TitleToName(title)[i] <= 'Z')
    ensures ' ' in title ==> '-' in TitleToName(title)
  {
    if ' ' in title {
      var k := IndexOfChar(title, ' ').value;
      assert TitleToName(title)[k] == '-';
    }
  }

  /** `Can not retrieve remote profile "<key>"`. */
  function RemoteErrorMessage(key: string): string {
    "Can not retrieve remote profile \"" + key + "\""
  }

  /** `Profiles registry hasn't profile "<key>"`. */
  function LocalErrorMessage(key: string): string {
    "Profiles registry hasn't profile \"" + key + "\""
  }

  /** Whether `_cache[key]` answers the load: present and truthy. */
  predicate CacheHit(cache: Cache, key: string) {
    key in cache && Truthy(cache[key])
  }

  /** `Profile.load(profile)`. A truthy cached schema is used as is.
      Otherwise a key starting with "http" is fetched (`fetch`, `None` for
      a failed request) and any other key is looked up among the bundled
      profiles; the schema found is stored under the exact key. The result
      pairs the profile with the cache after the call; on failure the cache
      is unchanged. */
  function Load(cache: Cache, key: string, fetch: string -> Option<Json>, bundled: map<string, Json>)
    : (r: Result<(SchemaProfile, Cache), string>)
    ensures CacheHit(cache, key) ==> r == Success((SchemaProfile(cache[key]), cache))
    ensures !CacheHit(cache, key) && Helpers.IsRemotePath(key) ==>
      && (r.Success? <==> fetch(key).Some?)
      && (r.Failure? ==> r.error == RemoteErrorMessage(key))
      && (r.Success? ==> r.value.0.jsonschema == fetch(key).value)
    ensures !CacheHit(cache, key) && !Helpers.IsRemotePath(key) ==>
      && (r.Success? <==> key in bundled)
      && (r.Failure? ==> r.error == LocalErrorMessage(key))
      && (r.Success? ==> r.value.0.jsonschema == bundled[key])
    ensures r.Success? ==> r.value.1 == cache[key := r.value.0.jsonschema]
  {
    if CacheHit(cache, key) then
      assert cache[key := cache[key]] == cache;
      Success((SchemaProfile(cache[key]), cache))
    else
      var schema :- if Helpers.IsRemotePath(key) then
                      match fetch(key)
                      case None => Failure(RemoteErrorMessage(key))
                      case Some(j) => Success(j)
                    else if key in bundled then Success(bundled[key])
                    else Failure(LocalErrorMessage(key));
      Success((SchemaProfile(schema), cache[key := schema]))
  }

  /** Once a key is cached, loading it consults neither the network nor the
      bundled profiles: any two sources give the same answer. */
  lemma CacheHitIgnoresSources(cache: Cache, key: string,
                               fetch1: string -> Option<Json>, bundled1: map<string, Json>,
                               fetch2: string -> Option<Json>, bundled2: map<string, Json>)
    requires CacheHit(cache, key)
    ensures Load(cache, key, fetch1, bundled1) == Load(cache, key, fetch2, bundled2)
  {
  }

  /** Loading a key a second time, with the cache the first load left,
      returns the same profile from the cache whatever the sources now say,
      provided the schema is truthy. */
  lemma LoadThenLoadHits(cache: Cache, key: string, fetch: string -> Option<Json>, bundled: map<string, Json>,
                         fetch2: string -> Option<Json>, bundled2: map<string, Json>)
    requires Load(cache, key, fetch, bundled).Success?
    requires Truthy(Load(cache, key, fetch, bundled).value.0.jsonschema)
    ensures var (p, cache1) := Load(cache, key, fetch, bundled).value;
      Load(cache1, key, fetch2, bundled2) == Success((p, cache1))
  {
    var (p, cache1) := Load(cache, key, fetch, bundled).value;
    assert CacheHit(cache1, key);
  }

  /** A falsy schema is stored but does not count as cached: the next load
      of the same key goes back to the source. */
  lemma FalsySchemaIsRefetched(cache: Cache, key: string)
    requires !CacheHit(cache, key) && Helpers.IsRemotePath(key)
    ensures var fetch: string -> Option<Json> := _ => Some(JStr(""));
      var cache1 := Load(cache, key, fetch, map[]).value.1;
      !CacheHit(cache1, key) && Load(cache1, key, _ => None, map[]) == Failure(RemoteErrorMessage(key))
  {
  }

  /** The registry key "data-package" is not remote: a miss on it never
      reaches the network. */
  lemma RegistryNamesAreLocal(cache: Cache, key: string, fetch: string -> Option<Json>, bundled: map<string, Json>)
    requires key == Helpers.DefaultDataPackageProfile && !CacheHit(cache, key)
    ensures Load(cache, key, fetch, bundled).Success? <==> key in bundled
  {
    assert key[..4] == "data";
  }

  /** The outcome of `tv4.validateMultiple(descriptor, schema)`. */
  datatype Evaluation = Evaluation(valid: bool, errors: seq<Utils.SchemaError>)

  /** The prefix every validation error message starts with. */
  const ValidationHeader: string := "Descriptor validation error:\n          "

  /** The message of the `Error` built for one evaluator error: header,
      the error's message, then its data path and schema path in quotes on
      continuation lines indented by ten spaces. */
  function ValidationMessage(e: Utils.SchemaError): string {
    ValidationHeader + e.message
      + "\n          at \"" + e.dataPath + "\" in descriptor and"
      + "\n          at \"" + e.schemaPath + "\" in profile"
  }

  /** Each message carries the evaluator's message right after the header
      and its data path right after the first `at "`. */
  lemma ValidationMessageParts(e: Utils.SchemaError)
    ensures var m := ValidationMessage(e);
      && StartsWith(m, ValidationHeader)
      && |ValidationHeader| + |e.message| <= |m|
      && m[|ValidationHeader|..|ValidationHeader| + |e.message|] == e.message
      && m[|ValidationHeader| + |e.message| + 15..|ValidationHeader| + |e.message| + 15 + |e.dataPath|] == e.dataPath
  {
    var m := ValidationMessage(e);
    var h := |ValidationHeader|;
    assert m == ValidationHeader + e.message + "\n          at \"" + e.dataPath
      + ("\" in descriptor and" + "\n          at \"" + e.schemaPath + "\" in profile");
    assert m[..h] == ValidationHeader;
  }

  /** `validate(descriptor)`: `true` when the evaluator accepts, otherwise
      the thrown list with one message per evaluator error, in order. */
  function Validate(p: SchemaProfile, descriptor: Json, eval: (Json, Json) -> Evaluation): (r: Result<bool, seq<string>>)
    ensures r.Success? <==> eval(descriptor, p.jsonschema).valid
    ensures r.Success? ==> r.value
    ensures r.Failure? ==>
      && |r.error| == |eval(descriptor, p.jsonschema).errors|
      && forall i :: 0 <= i < |r.error| ==> r.error[i] == ValidationMessage(eval(descriptor, p.jsonschema).errors[i])
  {
    var validation := eval(descriptor, p.jsonschema);
    if validation.valid then Success(true)
    else Failure(seq(|validation.errors|, i requires 0 <= i < |validation.errors| => ValidationMessage(validation.errors[i])))
  }

  /** A rejection names the evaluator's messages, in the evaluator's order. */
  lemma ValidateReportsEvaluatorErrors(p: SchemaProfile, descriptor: Json, eval: (Json, Json) -> Evaluation, i: int)
    requires !eval(descriptor, p.jsonschema).valid
    requires 0 <= i < |eval(descriptor, p.jsonschema).errors|
    ensures var e := eval(descriptor, p.jsonschema).errors[i];
      && Validate(p, descriptor, eval).Failure?
      && StartsWith(Validate(p, descriptor, eval).error[i], ValidationHeader)
      && Validate(p, descriptor, eval).error[i][|ValidationHeader|..|ValidationHeader| + |e.message|] == e.message
  {
    ValidationMessageParts(eval(descriptor, p.jsonschema).errors[i]);
  }
}

=== FILE: profiles.dfy ===
/** src/profiles.js: the catalogue of all registry profiles, loaded once, and
    validation of a descriptor against one of them or against a schema
    given inline. Reading files and URLs, CSV parsing, path handling and the
    JSON Schema evaluator are parameters of the model. */
module Profiles {
  import opened Wrappers
  import opened JsonValues
  import Utils
  import Registry
  import Profile

  /** The id `retrieve` and `validate` use when none is given. */
  const DefaultProfileId: string := "base"

  /** The only message of a validation against a profile that is missing. */
  const LoadErrorMessage: string := "Error loading requested profile."

  /** A settled `Profiles` instance: `_allProfiles`, id to loaded schema. */
  datatype Catalog = Catalog(allProfiles: map<string, Json>)

  /** `retrieve(profile = 'base')`: the stored schema when it is truthy,
      `null` (`None`) otherwise. `None` for `profile` is an omitted id. */
  function Retrieve(c: Catalog, profile: Option<string>): (r: Option<Json>)
    ensures var id := profile.GetOr(DefaultProfileId);
      && (r.Some? <==> id in c.allProfiles && Truthy(c.allProfiles[id]))
      && (r.Some? ==> r.value == c.allProfiles[id])
  {
    var id := profile.GetOr(DefaultProfileId);
    if id in c.allProfiles && Truthy(c.allProfiles[id]) then Some(c.allProfiles[id]) else None
  }

  /** The answer of `validate`: `true` or a list of messages. */
  datatype Verdict = Passed | Failed(messages: seq<string>)

  /** `_tv4validation(data, schema)`: a missing schema gives the load
      error; otherwise the evaluator decides and its errors are rendered
      by `errorsToStringArray`. */
  function Tv4Validation(data: Json, schema: Option<Json>, eval: (Json, Json) -> Profile.Evaluation): (r: Verdict)
    ensures schema.None? ==> r == Failed([LoadErrorMessage])
    ensures schema.Some? ==> (r.Passed? <==> eval(data, schema.value).valid)
    ensures schema.Some? && r.Failed? ==> r.messages == Utils.ErrorsToStringArray(eval(data, schema.value).errors)
  {
    match schema
    case None => Failed([LoadErrorMessage])
    case Some(s) =>
      var validation := eval(data, s);
      if validation.valid then Passed else Failed(Utils.ErrorsToStringArray(validation.errors))
  }

  /** The catalogue key for a profile argument that is not a plain object:
      the default id when omitted, otherwise its string form. */
  function ProfileKey(profile: Option<Json>): string {
    match profile
    case None => DefaultProfileId
    case Some(j) => JsString(j)
  }

  /** `validate(descriptor, profile = 'base')`: a plain-object profile is the
      schema itself; anything else names a catalogue entry. */
  function Validate(c: Catalog, descriptor: Json, profile: Option<Json>, eval: (Json, Json) -> Profile.Evaluation)
    : (r: Verdict)
    ensures profile.Some? && profile.value.JObj? ==> r == Tv4Validation(descriptor, profile, eval)
    ensures !(profile.Some? && profile.value.JObj?) ==>
      r == Tv4Validation(descriptor, Retrieve(c, Some(ProfileKey(profile))), eval)
  {
    match profile
    case Some(JObj(_)) => Tv4Validation(descriptor, profile, eval)
    case _ => Tv4Validation(descriptor, Retrieve(c, Some(ProfileKey(profile))), eval)
  }

  /** A schema given inline is used as is: the catalogue plays no part. */
  lemma ValidateInlineIgnoresCatalog(c1: Catalog, c2: Catalog, descriptor: Json, schema: map<string, Json>,
                                     eval: (Json, Json) -> Profile.Evaluation)
    ensures Validate(c1, descriptor, Some(JObj(schema)), eval) == Validate(c2, descriptor, Some(JObj(schema)), eval)
    ensures Validate(c1, descriptor, Some(JObj(schema)), eval).Passed? <==> eval(descriptor, JObj(schema)).valid
  {
  }

  /** Validation against an id the catalogue lacks fails with the single
      load message, whatever the descriptor and the evaluator. */
  lemma ValidateUnknownId(c: Catalog, descriptor: Json, id: string, eval: (Json, Json) -> Profile.Evaluation)
    requires id !in c.allProfiles
    ensures Validate(c, descriptor, Some(JStr(id)), eval) == Failed([LoadErrorMessage])
  {
  }

  /** Validation by id agrees with validation against the retrieved schema
      given inline, when that schema is an object. */
  lemma ValidateByIdMatchesInline(c: Catalog, descriptor: Json, id: string, eval: (Json, Json) -> Profile.Evaluation)
    requires Retrieve(c, Some(id)).Some? && Retrieve(c, Some(id)).value.JObj?
    ensures Validate(c, descriptor, Some(JStr(id)), eval) == Validate(c, descriptor, Retrieve(c, Some(id)), eval)
  {
  }

  /** The registry location: the remote CSV when asked for or in a
      browser, the bundled one otherwise. */
  function RegistryPath(remote: bool, browser: bool, localPath: string): (r: string)
    ensures remote || browser ==> r == Registry.DefaultRemotePath
    ensures !remote && !browser ==> r == localPath
  {
    if remote || browser then Registry.DefaultRemotePath else localPath
  }

  /** Every grouped row's schema file can be read and parsed. */
  predicate AllSchemasReadable(g: map<string, Registry.Row>, browser: bool, base: Option<string>,
                               join: (string, string) -> string, readJson: string -> Option<Json>) {
    forall id | id in g :: Registry.ReadProfile(browser, Registry.ProfilePath(browser, base, g[id], join), readJson).Some?
  }

  /** `new Profiles(remote)`: read the registry, work out its base path with
      `getDirname`, and load every row's schema. The instance settles
      (`Some`) only when the registry and every schema could be read. */
  function Create(remote: bool, browser: bool, localPath: string,
                  readRows: string -> Option<seq<Registry.Row>>, dirOf: string -> string,
                  join: (string, string) -> string, readJson: string -> Option<Json>)
    : (r: Option<Catalog>)
    ensures var path := RegistryPath(remote, browser, localPath);
      var base := Registry.LoadBasePath(path, browser, Utils.IsRemoteUrl, dirOf);
      && (r.Some? <==>
           && readRows(path).Some?
           && AllSchemasReadable(Registry.GroupById(readRows(path).value), browser, base, join, readJson))
      && (r.Some? ==>
           var g := Registry.GroupById(readRows(path).value);
           && r.value.allProfiles.Keys == g.Keys
           && forall id | id in g ::
                r.value.allProfiles[id] == Registry.ReadProfile(browser, Registry.ProfilePath(browser, base, g[id], join), readJson).value)
  {
    var path := RegistryPath(remote, browser, localPath);
    var base := Registry.LoadBasePath(path, browser, Utils.IsRemoteUrl, dirOf);
    match readRows(path)
    case None => None
    case Some(rows) =>
      var g := Registry.GroupById(rows);
      if AllSchemasReadable(g, browser, base, join, readJson) then
        Some(Catalog(map id | id in g :: Registry.ReadProfile(browser, Registry.ProfilePath(browser, base, g[id], join), readJson).value))
      else None
  }

  /** The remote registry has no base path, so every profile is loaded from
      its row's `schema` URL. */
  lemma RemoteCatalogUsesSchemaUrls(browser: bool, localPath: string, dirOf: string -> string, row: Registry.Row,
                                    join: (string, string) -> string)
    ensures var base := Registry.LoadBasePath(RegistryPath(true, browser, localPath), browser, Utils.IsRemoteUrl, dirOf);
      Registry.ProfilePath(browser, base, row, join) == (if "schema" in row then Some(row["schema"]) else None)
  {
    DefaultRemotePathIsRemote();
  }

  lemma DefaultRemotePathIsRemote()
    ensures Utils.IsRemoteUrl(Registry.DefaultRemotePath)
  {
    var s := Registry.DefaultRemotePath;
    assert s == "http://schemas.datapackages.org/registry.csv";
    assert s[4] == ':' && s[5] == '/' && s[6] == '/';
    assert s[4..7] == "://";
    assert Utils.SchemeSeparatorAt(s, 4);
  }

  /** After construction, retrieving the id of a registry row yields the
      schema read for the last row with that id, when it is truthy. */
  lemma RetrieveAfterCreate(remote: bool, browser: bool, localPath: string,
                            rows: seq<Registry.Row>, dirOf: string -> string,
                            join: (string, string) -> string, readJson: string -> Option<Json>, i: int)
    requires 0 <= i < |rows| && Registry.IsLastWithId(rows, Registry.IdOf(rows[i]), i)
    requires Create(remote, browser, localPath, _ => Some(rows), dirOf, join, readJson).Some?
    ensures var c := Create(remote, browser, localPath, _ => Some(rows), dirOf, join, readJson).value;
      var base := Registry.LoadBasePath(RegistryPath(remote, browser, localPath), browser, Utils.IsRemoteUrl, dirOf);
      var schema := Registry.ReadProfile(browser, Registry.ProfilePath(browser, base, rows[i], join), readJson);
      schema.Some? && Truthy(schema.value) ==> Retrieve(c, Some(Registry.IdOf(rows[i]))) == schema
  {
    Registry.GroupByIdLastWins(rows, i);
  }
}

=== FILE: registry.dfy ===
/** src/registry.js: the profile registry, a CSV table of profiles keyed by
    id. Reading files and URLs, CSV parsing, `path.join` and
    `path.dirname(path.resolve(..))` are parameters of the model. */
module Registry {
  import opened Wrappers
  import opened JsonValues

  /** One parsed registry row: column name to cell text. */
  type Row = map<string, string>

  /** The registry location used in a browser. */
  const DefaultRemotePath: string := "http://schemas.datapackages.org/registry.csv"

  /** `String(row.id)` as an object key: a row without an `id` column is
      filed under "undefined". */
  function IdOf(row: Row): string {
    if "id" in row then row["id"] else "undefined"
  }

  /** `rows[i]` has id `id` and no later row has it. */
  ghost predicate IsLastWithId(rows: seq<Row>, id: string, i: int) {
    && 0 <= i < |rows|
    && IdOf(rows[i]) == id
    && forall j | i < j < |rows| :: IdOf(rows[j]) != id
  }

  /** `_groupProfilesById(registry)`: every row filed under its id, a later
      row overwriting an earlier one with the same id. */
  function GroupById(rows: seq<Row>): (r: map<string, Row>)
    ensures r.Keys == set i | 0 <= i < |rows| :: IdOf(rows[i])
    ensures forall id | id in r :: exists i :: IsLastWithId(rows, id, i) && r[id] == rows[i]
  {
    if |rows| == 0 then map[]
    else
      var g := GroupById(rows[..|rows| - 1]);
      GroupByIdStep(rows, g);
      g[IdOf(rows[|rows| - 1]) := rows[|rows| - 1]]
  }

  /** The inductive step of `GroupById`: filing the last row on top of the
      grouping of the others. */
  lemma GroupByIdStep(rows: seq<Row>, g: map<string, Row>)
    requires |rows| > 0
    requires g.Keys == set i | 0 <= i < |rows| - 1 :: IdOf(rows[i])
    requires forall id | id in g :: exists i :: IsLastWithId(rows[..|rows| - 1], id, i) && g[id] == rows[i]
    ensures var r := g[IdOf(rows[|rows| - 1]) := rows[|rows| - 1]];
      && r.Keys == (set i | 0 <= i < |rows| :: IdOf(rows[i]))
      && forall id | id in r :: exists i :: IsLastWithId(rows, id, i) && r[id] == rows[i]
  {
    var n := |rows| - 1;
    var last := IdOf(rows[n]);
    var r := g[last := rows[n]];
    var all := set i | 0 <= i < |rows| :: IdOf(rows[i]);
    forall id | id in all ensures id in r.Keys {
      var i :| 0 <= i < |rows| && IdOf(rows[i]) == id;
      if i < n {
        assert IdOf(rows[i]) in g.Keys;
      }
    }
    forall id | id in r.Keys ensures id in all {
      if id != last {
        var i :| 0 <= i < n && IdOf(rows[i]) == id;
        assert IdOf(rows[i]) in all;
      }
    }
    forall id | id in r ensures exists i :: IsLastWithId(rows, id, i) && r[id] == rows[i] {
      if id == last {
        assert IsLastWithId(rows, id, n);
      } else {
        var i :| IsLastWithId(rows[..n], id, i) && g[id] == rows[i];
        assert rows[..n][i] == rows[i];
        forall j | i < j < n ensures IdOf(rows[j]) != id {
          assert rows[..n][j] == rows[j];
        }
        assert IsLastWithId(rows, id, i);
      }
    }
  }

  /** The last row carrying an id is the one the grouping keeps. */
  lemma GroupByIdLastWins(rows: seq<Row>, i: int)
    requires 0 <= i < |rows|
    requires IsLastWithId(rows, IdOf(rows[i]), i)
    ensures IdOf(rows[i]) in GroupById(rows)
    ensures GroupById(rows)[IdOf(rows[i])] == rows[i]
  {
    var id := IdOf(rows[i]);
    var g := GroupById(rows);
    assert id in g.Keys;
    var k :| IsLastWithId(rows, id, k) && g[id] == rows[k];
  }

  /** Two rows with the same id: the grouping keeps only the second. */
  lemma GroupByIdDuplicate(a: Row, b: Row)
    requires IdOf(a) == IdOf(b)
    ensures GroupById([a, b]) == map[IdOf(b) := b]
  {
    var rows := [a, b];
    GroupByIdLastWins(rows, 1);
    var g := GroupById(rows);
    assert g.Keys == {IdOf(b)} by {
      assert IdOf(rows[0]) == IdOf(rows[1]);
    }
  }

  /** A registry instance. `profiles` is the settled `_registry` promise,
      `None` when reading or parsing the CSV failed; it is computed once by
      the constructor and every later read sees the same value. */
  datatype Registry = Registry(profiles: Option<map<string, Row>>, basePath: Option<string>, browser: bool)

  /** The default registry location: the remote URL in a browser, the
      bundled CSV otherwise. */
  function DefaultRegistryPath(browser: bool, bundledPath: string): (r: string)
    ensures browser ==> r == DefaultRemotePath
    ensures !browser ==> r == bundledPath
  {
    if browser then DefaultRemotePath else bundledPath
  }

  /** `_loadBasePath(pathOrURL)`: the directory of the resolved path, known
      only outside a browser and for a location that is not a remote URL. */
  function LoadBasePath(pathOrURL: string, browser: bool, isRemoteUrl: string -> bool, dirOf: string -> string): (r: Option<string>)
    ensures r.None? <==> browser || isRemoteUrl(pathOrURL)
    ensures r.Some? ==> r.value == dirOf(pathOrURL)
  {
    if !browser && !isRemoteUrl(pathOrURL) then Some(dirOf(pathOrURL)) else None
  }

  /** `new Registry(pathOrURL)`: read and group the rows once, and work out
      the base path. `readRows` stands for reading the location and parsing
      it as CSV with a header line. */
  function Create(pathOrURL: string, browser: bool, readRows: string -> Option<seq<Row>>,
                  isRemoteUrl: string -> bool, dirOf: string -> string): (r: Registry)
    ensures r.browser == browser
    ensures r.profiles.Some? <==> readRows(pathOrURL).Some?
    ensures r.profiles.Some? ==> r.profiles.value == GroupById(readRows(pathOrURL).value)
    ensures r.basePath == LoadBasePath(pathOrURL, browser, isRemoteUrl, dirOf)
  {
    var profiles := match readRows(pathOrURL)
      case None => None
      case Some(rows) => Some(GroupById(rows));
    Registry(profiles, LoadBasePath(pathOrURL, browser, isRemoteUrl, dirOf), browser)
  }

  /** The file or URL `_loadProfile` reads for a row: the row's
      `schema_path` under the base path when not in a browser and both are
      non-empty, the row's `schema` URL otherwise (`None` when that column
      is missing). */
  function ProfilePath(browser: bool, basePath: Option<string>, row: Row, join: (string, string) -> string): (r: Option<string>)
    ensures !browser && basePath.Some? && basePath.value != ""
            && "schema_path" in row && row["schema_path"] != ""
            ==> r == Some(join(basePath.value, row["schema_path"]))
    ensures (browser || basePath.None? || basePath.value == ""
             || "schema_path" !in row || row["schema_path"] == "")
            ==> (r.Some? <==> "schema" in row) && (r.Some? ==> r.value == row["schema"])
  {
    if !browser && basePath.Some? && basePath.value != ""
       && "schema_path" in row && row["schema_path"] != ""
    then Some(join(basePath.value, row["schema_path"]))
    else if "schema" in row then Some(row["schema"])
    else None
  }

  /** A registry read from a remote URL, or any registry in a browser,
      loads every profile from its `schema` URL. */
  lemma RemoteRegistryUsesSchemaUrls(pathOrURL: string, browser: bool, readRows: string -> Option<seq<Row>>,
                                     isRemoteUrl: string -> bool, dirOf: string -> string,
                                     row: Row, join: (string, string) -> string)
    requires browser || isRemoteUrl(pathOrURL)
    requires "schema" in row
    ensures var reg := Create(pathOrURL, browser, readRows, isRemoteUrl, dirOf);
      ProfilePath(reg.browser, reg.basePath, row, join) == Some(row["schema"])
  {
  }

  /** Why `get` failed: the registry itself could not be read, or the
      profile file at the given path could not be read or parsed. */
  datatype GetError = RegistryUnavailable | ProfileUnreadable(path: Option<string>)

  /** `readFileOrURL(profilePath)` followed by `JSON.parse`; `readJson`
      stands for both, `None` for a failure. A missing path is `undefined`:
      a browser fetches it as the relative URL "undefined", and Node cannot
      read it at all. */
  function ReadProfile(browser: bool, path: Option<string>, readJson: string -> Option<Json>): (r: Option<Json>)
    ensures path.Some? ==> r == readJson(path.value)
    ensures path.None? && !browser ==> r.None?
    ensures path.None? && browser ==> r == readJson("undefined")
  {
    match path
    case Some(p) => readJson(p)
    case None => if browser then readJson("undefined") else None
  }

  /** `get(profileId)`: `undefined` (`None`) for an id the registry lacks,
      otherwise the parsed JSON of the row's profile file. */
  function Get(reg: Registry, profileId: string, join: (string, string) -> string,
               readJson: string -> Option<Json>): (r: Result<Option<Json>, GetError>)
    ensures reg.profiles.None? ==> r == Failure(RegistryUnavailable)
    ensures reg.profiles.Some? && profileId !in reg.profiles.value ==> r == Success(None)
    ensures reg.profiles.Some? && profileId in reg.profiles.value ==>
      var path := ProfilePath(reg.browser, reg.basePath, reg.profiles.value[profileId], join);
      && (r.Success? <==> ReadProfile(reg.browser, path, readJson).Some?)
      && (r.Success? ==> r.value == Some(ReadProfile(reg.browser, path, readJson).value))
      && (r.Failure? ==> r.error == ProfileUnreadable(path))
      && (path.None? && !reg.browser ==> r == Failure(ProfileUnreadable(None)))
  {
    match reg.profiles
    case None => Failure(RegistryUnavailable)
    case Some(grouped) =>
      if profileId !in grouped then Success(None)
      else
        var path := ProfilePath(reg.browser, reg.basePath, grouped[profileId], join);
        match ReadProfile(reg.browser, path, readJson)
        case None => Failure(ProfileUnreadable(path))
        case Some(j) => Success(Some(j))
  }

  /** Asking for an id the registry lacks reads nothing: the outcome is the
      same whatever the readers would return. */
  lemma GetUnknownReadsNothing(reg: Registry, profileId: string, join1: (string, string) -> string,
                               join2: (string, string) -> string,
                               read1: string -> Option<Json>, read2: string -> Option<Json>)
    requires reg.profiles.Some? && profileId !in reg.profiles.value
    ensures Get(reg, profileId, join1, read1) == Get(reg, profileId, join2, read2) == Success(None)
  {
  }

  /** The profile of a row is found under the id of the last row carrying
      that id. */
  lemma GetFindsLastRow(rows: seq<Row>, i: int, pathOrURL: string, browser: bool,
                        isRemoteUrl: string -> bool, dirOf: string -> string,
                        join: (string, string) -> string, readJson: string -> Option<Json>)
    requires 0 <= i < |rows| && IsLastWithId(rows, IdOf(rows[i]), i)
    ensures var reg := Create(pathOrURL, browser, _ => Some(rows), isRemoteUrl, dirOf);
      var path := ProfilePath(reg.browser, reg.basePath, rows[i], join);
      var read := ReadProfile(reg.browser, path, readJson);
      read.Some? ==> Get(reg, IdOf(rows[i]), join, readJson) == Success(Some(read.value))
  {
    GroupByIdLastWins(rows, i);
  }
}

=== FILE: resource.dfy ===
/** src/resource.js: a data resource seen through its descriptor: its name,
    where its data lives and whether that place is inline, remote or local.
    URL protocol extraction (`url.parse(..).protocol`) is a parameter of
    the model; building a `jsontableschema.Table` is left out. */
module Resource {
  import opened Wrappers
  import opened JsonValues

  /** A `Resource` instance: the descriptor object it was constructed with,
      which the `descriptor` getter returns as is. */
  datatype Resource = Resource(descriptor: Obj)

  /** `REMOTE_PROTOCOLS`. */
  const RemoteProtocols: seq<string> := ["http:", "https:", "ftp:", "ftps:"]

  /** Where the data of a resource lives. */
  datatype Location = Inline | Remote | Local

  /** The descriptor key holding the data or its location. */
  datatype SourceKey = DataKey | PathKey {
    function Key(): string {
      match this
      case DataKey => "data"
      case PathKey => "path"
    }
  }

  /** `_getSourceKey()`: truthy inline `data` wins, anything else points at
      `path`. */
  function GetSourceKey(res: Resource): (r: SourceKey)
    ensures r == DataKey <==> TruthyField(res.descriptor, "data")
  {
    if TruthyField(res.descriptor, "data") then DataKey else PathKey
  }

  /** The `name` getter; `None` is `undefined`. */
  function Name(res: Resource): (r: Option<Json>)
    ensures r.Some? <==> "name" in res.descriptor
    ensures r.Some? ==> r.value == res.descriptor["name"]
  {
    Field(res.descriptor, "name")
  }

  /** The `source` getter: the value under the source key, `undefined`
      (`None`) when that key is missing. */
  function Source(res: Resource): (r: Option<Json>)
    ensures TruthyField(res.descriptor, "data") ==> r == Some(res.descriptor["data"])
    ensures !TruthyField(res.descriptor, "data") ==> r == Field(res.descriptor, "path")
  {
    Field(res.descriptor, GetSourceKey(res).Key())
  }

  /** The `type` getter. Inline data is "inline"; otherwise the path is
      parsed as a URL and is "remote" exactly when its protocol is one of
      `RemoteProtocols`. `url.parse` throws a `TypeError` on a path that is
      missing or not a string. `protocolOf` gives the lower-cased protocol
      with its colon, `None` when there is none. */
  function Type(res: Resource, protocolOf: string -> Option<string>): (r: Result<Location, string>)
    ensures r == Success(Inline) <==> GetSourceKey(res) == DataKey
    ensures GetSourceKey(res) == PathKey ==>
      match Field(res.descriptor, "path")
      case Some(JStr(p)) =>
        && r.Success?
        && (r.value == Remote <==> protocolOf(p).Some? && protocolOf(p).value in RemoteProtocols)
      case _ => r.Failure?
  {
    match GetSourceKey(res)
    case DataKey => Success(Inline)
    case PathKey =>
      match Field(res.descriptor, "path")
      case Some(JStr(p)) =>
        var protocol := protocolOf(p);
        if protocol.Some? && protocol.value in RemoteProtocols then Success(Remote) else Success(Local)
      case _ => Failure("TypeError")
  }

  /** The location always describes the source: inline exactly when the
      source is the truthy `data` value, and otherwise a classification of
      the `path` string. */
  lemma TypeMatchesSource(res: Resource, protocolOf: string -> Option<string>)
    ensures Type(res, protocolOf) == Success(Inline) ==> Source(res) == Some(res.descriptor["data"])
    ensures Type(res, protocolOf).Success? && Type(res, protocolOf).value != Inline ==>
      Source(res).Some? && Source(res).value.JStr?
  {
  }

  /** Inline data wins over a path, and falsy data falls through to the
      path. */
  lemma InlineDataWins(data: Json, path: Json)
    ensures Truthy(data) ==> Source(Resource(map["data" := data, "path" := path])) == Some(data)
    ensures !Truthy(data) ==> Source(Resource(map["data" := data, "path" := path])) == Some(path)
  {
  }

  /** Examples of the resource tests: an empty descriptor has no source, a
      relative path is local, an HTTP path is remote, inline data is
      inline, and the name is the descriptor's. */
  lemma ResourceExamples(protocolOf: string -> Option<string>)
    requires protocolOf("foo/bar.txt") == None
    requires protocolOf("http://www.foo.org/bar.txt") == Some("http:")
    ensures Source(Resource(map[])) == None
    ensures Source(Resource(map["data" := JStr("foo")])) == Some(JStr("foo"))
    ensures Name(Resource(map["name" := JStr("FooBar")])) == Some(JStr("FooBar"))
    ensures Type(Resource(map["path" := JStr("foo/bar.txt")]), protocolOf) == Success(Local)
    ensures Type(Resource(map["path" := JStr("http://www.foo.org/bar.txt")]), protocolOf) == Success(Remote)
    ensures Type(Resource(map["data" := JStr("foo, bar")]), protocolOf) == Success(Inline)
  {
    assert RemoteProtocols[0] == "http:";
  }

  /** A resource with neither data nor path has no location: parsing the
      missing path throws. */
  lemma NoSourceNoType(protocolOf: string -> Option<string>)
    ensures Type(Resource(map[]), protocolOf).Failure?
  {
  }
}

=== FILE: resourceset.dfy ===
/** What the two package classes (src/datapackage.js and src/package.js)
    share: the view they have of their child resources, the positional
    reconciliation of the resource list in `_build`, lookup by name, the
    `valid`/`errors` aggregation, and the outcome of a call that may throw.
    The child `Resource` class those versions construct is not part of this
    model: a child is an abstract record made by a factory parameter. */
module ResourceSet {
  import opened Wrappers
  import opened Strings
  import opened JsonValues
  import Helpers
  import Profile

  /** What a package reads from one of its child resources. */
  datatype Child = Child(
    descriptor: Json,
    name: Option<Json>,
    valid: bool,
    tabular: bool,
    local: bool,
    hasForeignKeys: bool)

  /** What an operation on a package threw: the error list a profile
      rejects a descriptor with, a `DataPackageError` with its message and
      errors, a profile load error, the `TypeError` a value of the wrong
      shape provokes, or the `RangeError` of an invalid array length. */
  datatype Thrown =
    | ValidationErrors(messages: seq<string>)
    | PackageError(message: string, errors: seq<string>)
    | LoadFailed(message: string)
    | TypeError
    | RangeError

  /** The outcome of a call on a package instance: it returned `value`, or
      it threw after having already changed part of the instance. Either
      way `state` is the instance afterwards. */
  datatype Step<S, T> = Ok(state: S, value: T) | Threw(error: Thrown, state: S)

  /** `(descriptor.resources || [])` as `_build` uses it: a falsy or
      missing value is the empty list and an array its items. A string has
      a length but no `entries()`, which throws a `TypeError`; a number, a
      boolean or an object has no length, and assigning `undefined` as the
      length of the resource list throws a `RangeError`. */
  function ResourceList(d: Obj): (r: Result<seq<Json>, Thrown>)
    ensures !TruthyField(d, "resources") ==> r == Success([])
    ensures TruthyField(d, "resources") && d["resources"].JArr? ==> r == Success(d["resources"].items)
    ensures TruthyField(d, "resources") && d["resources"].JStr? ==> r == Failure(TypeError)
    ensures TruthyField(d, "resources") && !d["resources"].JArr? && !d["resources"].JStr? ==> r == Failure(RangeError)
  {
    if !TruthyField(d, "resources") then Success([])
    else match d["resources"]
      case JArr(items) => Success(items)
      case JStr(_) => Failure(TypeError)
      case _ => Failure(RangeError)
  }

  /** The resource list matches the descriptor's resources in number, as
      every build that did not throw leaves it. */
  predicate Reconciled(d: Obj, children: seq<Child>) {
    ResourceList(d).Success? && |children| == |ResourceList(d).value|
  }

  /** `_resources.length = n`: the list is cut to `n` entries or padded
      with holes (`None`). */
  function Resize(prior: seq<Child>, n: nat): (r: seq<Option<Child>>)
    ensures |r| == n
    ensures forall i :: 0 <= i < n ==> r[i] == if i < |prior| then Some(prior[i]) else None
  {
    if n <= |prior| then seq(n, i requires 0 <= i < n => Some(prior[i]))
    else seq(|prior|, i requires 0 <= i < |prior| => Some(prior[i])) + seq(n - |prior|, _ => None)
  }

  /** Whether the rebuild loop keeps the instance in a slot for `desc`:
      there is one, its descriptor deep-equals `desc`, and the variant does
      not insist on rebuilding it. */
  predicate KeepsSlot(slot: Option<Child>, desc: Json, mustRebuild: Child -> bool) {
    slot.Some? && slot.value.descriptor == desc && !mustRebuild(slot.value)
  }

  /** The rebuild loop of `_build` from index `i` on: every slot whose
      instance is not kept gets a new instance made from its descriptor. */
  function RebuildFrom(slots: seq<Option<Child>>, descs: seq<Json>, i: nat,
                       mustRebuild: Child -> bool, make: Json -> Child): (r: seq<Child>)
    requires |slots| == |descs| && i <= |descs|
    requires forall k | 0 <= k < i :: slots[k].Some?
    ensures |r| == |descs|
    ensures forall k | 0 <= k < i :: r[k] == slots[k].value
    ensures forall k | i <= k < |descs| ::
      r[k] == if KeepsSlot(slots[k], descs[k], mustRebuild) then slots[k].value else make(descs[k])
    decreases |descs| - i
  {
    if i == |descs| then seq(|slots|, k requires 0 <= k < |slots| && slots[k].Some? => slots[k].value)
    else
      var next := if KeepsSlot(slots[i], descs[i], mustRebuild) then slots else slots[i := Some(make(descs[i]))];
      RebuildFrom(next, descs, i + 1, mustRebuild, make)
  }

  /** The instance `_build` leaves at index `i`: the prior one when it is
      kept, a new one made from the descriptor otherwise. */
  function SlotAfter(prior: seq<Child>, descs: seq<Json>, i: nat, mustRebuild: Child -> bool, make: Json -> Child): Child
    requires i < |descs|
  {
    if i < |prior| && prior[i].descriptor == descs[i] && !mustRebuild(prior[i]) then prior[i] else make(descs[i])
  }

  /** `_build`'s resource update: resize the list to the descriptor's
      resource count, then rebuild every slot that is not kept. The list
      ends exactly as long as `descs`, and index `i` holds the prior instance
      iff there was one whose descriptor deep-equals `descs[i]` and that
      the variant does not insist on rebuilding. */
  function Reconcile(prior: seq<Child>, descs: seq<Json>, mustRebuild: Child -> bool, make: Json -> Child)
    : (r: seq<Child>)
    ensures |r| == |descs|
    ensures forall i | 0 <= i < |descs| :: r[i] == SlotAfter(prior, descs, i, mustRebuild, make)
  {
    var slots := Resize(prior, |descs|);
    var r := RebuildFrom(slots, descs, 0, mustRebuild, make);
    assert forall i | 0 <= i < |descs| :: slots[i] == if i < |prior| then Some(prior[i]) else None;
    r
  }

  /** A second reconciliation against the same descriptors keeps every
      instance when the factory keeps its descriptor and makes instances
      the variant does not insist on rebuilding. */
  lemma ReconcileIsStable(prior: seq<Child>, descs: seq<Json>, mustRebuild: Child -> bool, make: Json -> Child)
    requires forall d :: make(d).descriptor == d && !mustRebuild(make(d))
    ensures var r := Reconcile(prior, descs, mustRebuild, make);
      Reconcile(r, descs, mustRebuild, make) == r
  {
    var r := Reconcile(prior, descs, mustRebuild, make);
    var r2 := Reconcile(r, descs, mustRebuild, make);
    forall i | 0 <= i < |descs| ensures r2[i] == r[i] {
      assert r[i] == SlotAfter(prior, descs, i, mustRebuild, make);
      assert make(descs[i]).descriptor == descs[i];
    }
  }

  /** An instance flagged for rebuilding is replaced even when its
      descriptor is unchanged. */
  lemma ReconcileReplacesFlagged(prior: seq<Child>, descs: seq<Json>, mustRebuild: Child -> bool,
                                 make: Json -> Child, i: int)
    requires 0 <= i < |prior| && i < |descs| && mustRebuild(prior[i])
    ensures Reconcile(prior, descs, mustRebuild, make)[i] == make(descs[i])
  {
  }

  /** A child is named `name` when its `name` is that very string
      (`resource.name === name`). */
  predicate HasName(c: Child, name: string) {
    c.name == Some(JStr(name))
  }

  /** The index `Array.prototype.find` stops at: the first child named
      `name`, `None` when there is none. */
  function FindByName(children: seq<Child>, name: string): (r: Option<nat>)
    ensures r.None? <==> forall i | 0 <= i < |children| :: !HasName(children[i], name)
    ensures r.Some? ==> r.value < |children| && HasName(children[r.value], name)
    ensures r.Some? ==> forall i | 0 <= i < r.value :: !HasName(children[i], name)
  {
    if |children| == 0 then None
    else if HasName(children[0], name) then Some(0)
    else match FindByName(children[1..], name)
      case None => None
      case Some(k) => Some(k + 1)
  }

  /** `getResource(name)`: the first child with that exact name, `null`
      (`None`) when there is none. */
  function GetResource(children: seq<Child>, name: string): (r: Option<Child>)
    ensures r.None? <==> forall i | 0 <= i < |children| :: !HasName(children[i], name)
    ensures r.Some? ==> FindByName(children, name).Some? && r.value == children[FindByName(children, name).value]
  {
    match FindByName(children, name)
    case None => None
    case Some(k) => Some(children[k])
  }

  /** Among several children with the same name the first one is found. */
  lemma GetResourceFindsFirst(children: seq<Child>, name: string, i: int)
    requires 0 <= i < |children| && HasName(children[i], name)
    requires forall j | 0 <= j < i :: !HasName(children[j], name)
    ensures GetResource(children, name) == Some(children[i])
  {
    var k := FindByName(children, name).value;
    assert !(k < i) && !(i < k);
  }

  /** The `valid` getter: no package errors and every child valid. */
  predicate Valid(errors: seq<string>, children: seq<Child>) {
    |errors| == 0 && forall i | 0 <= i < |children| :: children[i].valid
  }

  /** `Resource "<name or index>" validation error(s)`: the child's name
      when truthy, its index otherwise. */
  function ResourceMessage(c: Child, index: nat): (r: string)
    ensures |r| >= 31 && r[..10] == "Resource \"" && r[|r| - 21..] == "\" validation error(s)"
  {
    var tag := if c.name.Some? && Truthy(c.name.value) then JsString(c.name.value) else IntToString(index);
    "Resource \"" + tag + "\" validation error(s)"
  }

  /** Between the quotes stands `String(name)` for a truthy name of any
      kind, and otherwise the index, whose digits parse back to it. */
  lemma ResourceMessageTag(c: Child, index: nat)
    ensures var r := ResourceMessage(c, index);
      && |r| >= 31
      && (c.name.Some? && Truthy(c.name.value) ==> r[10..|r| - 21] == JsString(c.name.value))
      && (!(c.name.Some? && Truthy(c.name.value)) ==>
            AllDigits(r[10..|r| - 21]) && ParseDecimal(r[10..|r| - 21]) == index)
  {
    JsStringIntParses(index);
  }

  /** One message per invalid child, in order; `offset` is the index of
      `children[0]` in the whole list. */
  function InvalidMessages(children: seq<Child>, offset: nat): (r: seq<string>)
    ensures |r| <= |children|
    ensures r == [] <==> forall i | 0 <= i < |children| :: children[i].valid
  {
    if |children| == 0 then []
    else
      var rest := InvalidMessages(children[1..], offset + 1);
      assert forall i | 1 <= i < |children| :: children[i] == children[1..][i - 1];
      if children[0].valid then rest else [ResourceMessage(children[0], offset)] + rest
  }

  /** The `errors` getter: the package errors, then one message per invalid
      child. */
  function Errors(errors: seq<string>, children: seq<Child>): (r: seq<string>)
    ensures |errors| <= |r| <= |errors| + |children|
    ensures r[..|errors|] == errors
  {
    errors + InvalidMessages(children, 0)
  }

  /** `valid` and `errors` agree: a package is valid exactly when it
      reports no error. */
  lemma ValidIffNoErrors(errors: seq<string>, children: seq<Child>)
    ensures Valid(errors, children) <==> Errors(errors, children) == []
  {
  }

  /** Messages of two lists side by side are the messages of their
      concatenation, with the second list's indexes shifted. */
  lemma {:induction false} InvalidMessagesAppend(a: seq<Child>, b: seq<Child>, offset: nat)
    ensures InvalidMessages(a + b, offset) == InvalidMessages(a, offset) + InvalidMessages(b, offset + |a|)
    decreases |a|
  {
    if |a| > 0 {
      var tail := a[1..];
      assert (a + b)[0] == a[0];
      assert (a + b)[1..] == tail + b;
      InvalidMessagesAppend(tail, b, offset + 1);
      var head := if a[0].valid then [] else [ResourceMessage(a[0], offset)];
      assert InvalidMessages(a + b, offset) == head + InvalidMessages(tail + b, offset + 1);
      assert InvalidMessages(a, offset) == head + InvalidMessages(tail, offset + 1);
      assert offset + 1 + |tail| == offset + |a|;
    } else {
      assert a + b == b;
    }
  }

  /** An invalid child appended at index `i` adds exactly its own message,
      labelled by name or by `i`. */
  lemma ErrorsOfAppendedChild(errors: seq<string>, children: seq<Child>, c: Child)
    requires !c.valid
    ensures Errors(errors, children + [c]) == Errors(errors, children) + [ResourceMessage(c, |children|)]
  {
    InvalidMessagesAppend(children, [c], 0);
    assert [c][1..] == [];
  }

  /** One resource entry after a constructor's rewrite of deprecated
      forms: objects are rewritten, anything else is left alone. */
  function NormalizeEntry(x: Json, rewrite: Obj -> Obj): Json {
    if x.JObj? then JObj(rewrite(x.fields)) else x
  }

  /** A constructor's loop over a resource array: each entry is rewritten
      in place, and reading a property of a `null` entry throws. */
  function NormalizeEntries(items: seq<Json>, rewrite: Obj -> Obj): (r: Result<seq<Json>, Thrown>)
    ensures r.Failure? <==> exists i | 0 <= i < |items| :: items[i].JNull?
    ensures r.Success? ==> |r.value| == |items| && forall i | 0 <= i < |items| :: r.value[i] == NormalizeEntry(items[i], rewrite)
  {
    if |items| == 0 then Success([])
    else if items[0].JNull? then Failure(TypeError)
    else
      var rest :- NormalizeEntries(items[1..], rewrite);
      assert forall i | 1 <= i < |items| :: items[i] == items[1..][i - 1];
      Success([NormalizeEntry(items[0], rewrite)] + rest)
  }

  /** A constructor's loop over `descriptor.resources || []`, rewriting
      each resource with `rewrite`. A string is iterated character by
      character and changes nothing; any other truthy value that is not an
      array is not iterable and throws. */
  function NormalizeDescriptor(d: Obj, rewrite: Obj -> Obj): (r: Result<Obj, Thrown>)
    ensures !TruthyField(d, "resources") ==> r == Success(d)
    ensures TruthyField(d, "resources") && d["resources"].JStr? ==> r == Success(d)
    ensures TruthyField(d, "resources") && !d["resources"].JStr? && !d["resources"].JArr? ==> r == Failure(TypeError)
    ensures TruthyField(d, "resources") && d["resources"].JArr? ==>
      var items := d["resources"].items;
      && (r.Failure? <==> exists i | 0 <= i < |items| :: items[i].JNull?)
      && (r.Success? ==>
           && "resources" in r.value && r.value["resources"].JArr?
           && r.value == d["resources" := r.value["resources"]]
           && |r.value["resources"].items| == |items|
           && forall i | 0 <= i < |items| :: r.value["resources"].items[i] == NormalizeEntry(items[i], rewrite))
  {
    if !TruthyField(d, "resources") then Success(d)
    else match d["resources"]
      case JStr(_) => Success(d)
      case JArr(items) =>
        var normalized :- NormalizeEntries(items, rewrite);
        Success(d["resources" := JArr(normalized)])
      case _ => Failure(TypeError)
  }

  /** The last resource, `undefined` (`None`) for an empty list. */
  function Last(children: seq<Child>): (r: Option<Child>)
    ensures r.None? <==> |children| == 0
    ensures r.Some? ==> r.value == children[|children| - 1]
  {
    if |children| == 0 then None else Some(children[|children| - 1])
  }

  /** Whether a resource descriptor is named `name` (`resource.name ===
      name`); only objects have a name. */
  predicate DescriptorNamed(x: Json, name: string) {
    x.JObj? && "name" in x.fields && x.fields["name"] == JStr(name)
  }

  /** `resources.filter(resource => resource.name !== name)`: the
      descriptors not named `name`, in order. Reading `name` of a `null`
      entry throws. */
  function FilterOutNamed(items: seq<Json>, name: string): (r: Result<seq<Json>, Thrown>)
    ensures r.Failure? <==> exists i | 0 <= i < |items| :: items[i].JNull?
    ensures r.Success? ==> |r.value| <= |items|
    ensures r.Success? ==> forall j | 0 <= j < |r.value| :: !DescriptorNamed(r.value[j], name)
    ensures r.Success? ==> forall i | 0 <= i < |items| :: !DescriptorNamed(items[i], name) ==> items[i] in r.value
    ensures r.Success? ==> forall j | 0 <= j < |r.value| :: r.value[j] in items
  {
    if |items| == 0 then Success([])
    else if items[0].JNull? then Failure(TypeError)
    else
      var rest :- FilterOutNamed(items[1..], name);
      assert forall i | 1 <= i < |items| :: items[i] == items[1..][i - 1];
      Success(if DescriptorNamed(items[0], name) then rest else [items[0]] + rest)
  }

  /** Filtering a list in which nothing bears the name keeps it whole. */
  lemma {:induction false} FilterOutUnnamedIsIdentity(items: seq<Json>, name: string)
    requires forall i | 0 <= i < |items| :: !items[i].JNull? && !DescriptorNamed(items[i], name)
    ensures FilterOutNamed(items, name) == Success(items)
  {
    if |items| > 0 {
      FilterOutUnnamedIsIdentity(items[1..], name);
      assert items == [items[0]] + items[1..];
    }
  }

  /** Filtering an entry followed by a list: the entry's verdict, then the
      list's. */
  lemma FilterOutNamedCons(x: Json, rest: seq<Json>, name: string)
    ensures var r := FilterOutNamed([x] + rest, name);
      && (r.Success? <==> !x.JNull? && FilterOutNamed(rest, name).Success?)
      && (r.Success? ==> r.value == (if DescriptorNamed(x, name) then [] else [x]) + FilterOutNamed(rest, name).value)
  {
    assert ([x] + rest)[0] == x;
    assert ([x] + rest)[1..] == rest;
  }

  /** The filter of one entry: a `null` entry throws, an entry with the
      name is dropped, and any other entry is kept. */
  lemma FilterOutNamedSingle(x: Json, name: string)
    ensures FilterOutNamed([x], name).Failure? <==> x.JNull?
    ensures FilterOutNamed([x], name).Success? ==>
      FilterOutNamed([x], name).value == if DescriptorNamed(x, name) then [] else [x]
  {
    FilterOutNamedCons(x, [], name);
    assert [x] + [] == [x];
  }

  /** The entries `filter` keeps, ignoring the throw on `null`: a reference
      definition of the filter's value. */
  function Kept(items: seq<Json>, name: string): seq<Json> {
    if |items| == 0 then []
    else (if DescriptorNamed(items[0], name) then [] else [items[0]]) + Kept(items[1..], name)
  }

  /** A successful filter keeps exactly the reference entries. */
  lemma {:induction false} FilterOutNamedIsKept(items: seq<Json>, name: string)
    ensures FilterOutNamed(items, name).Success? ==> FilterOutNamed(items, name).value == Kept(items, name)
  {
    if |items| > 0 {
      FilterOutNamedIsKept(items[1..], name);
    }
  }

  /** The reference filter distributes over concatenation. */
  lemma {:induction false} KeptAppend(a: seq<Json>, b: seq<Json>, name: string)
    ensures Kept(a + b, name) == Kept(a, name) + Kept(b, name)
    decreases |a|
  {
    if |a| == 0 {
      assert a + b == b;
    } else {
      KeptAppend(a[1..], b, name);
      assert (a + b)[0] == a[0];
      assert (a + b)[1..] == a[1..] + b;
      var keep := if DescriptorNamed(a[0], name) then [] else [a[0]];
      assert keep + (Kept(a[1..], name) + Kept(b, name)) == (keep + Kept(a[1..], name)) + Kept(b, name);
    }
  }

  /** Filtering distributes over concatenation: the kept entries of a
      joined list are the kept entries of each part, in order. Together
      with the one-entry case this fixes the order and the number of
      copies of every kept entry. */
  lemma FilterOutNamedAppend(a: seq<Json>, b: seq<Json>, name: string)
    ensures FilterOutNamed(a + b, name).Success? <==> FilterOutNamed(a, name).Success? && FilterOutNamed(b, name).Success?
    ensures FilterOutNamed(a + b, name).Success? ==>
      FilterOutNamed(a + b, name).value == FilterOutNamed(a, name).value + FilterOutNamed(b, name).value
  {
    var ab := a + b;
    if exists i | 0 <= i < |ab| :: ab[i].JNull? {
      var i :| 0 <= i < |ab| && ab[i].JNull?;
      if i < |a| {
        assert a[i].JNull?;
      } else {
        assert b[i - |a|].JNull?;
      }
    }
    if exists i | 0 <= i < |a| :: a[i].JNull? {
      var i :| 0 <= i < |a| && a[i].JNull?;
      assert ab[i].JNull?;
    }
    if exists i | 0 <= i < |b| :: b[i].JNull? {
      var i :| 0 <= i < |b| && b[i].JNull?;
      assert ab[|a| + i].JNull?;
    }
    FilterOutNamedIsKept(ab, name);
    FilterOutNamedIsKept(a, name);
    FilterOutNamedIsKept(b, name);
    KeptAppend(a, b, name);
  }

  /** `descriptor.profile || config.DEFAULT_DATA_PACKAGE_PROFILE`: the
      value `load` asks `Profile.load` for. */
  function ProfileKeyOf(d: Obj): (r: Json)
    ensures Truthy(r)
    ensures TruthyField(d, "profile") ==> r == d["profile"]
    ensures !TruthyField(d, "profile") ==> r == JStr(Helpers.DefaultDataPackageProfile)
  {
    if TruthyField(d, "profile") then d["profile"] else JStr(Helpers.DefaultDataPackageProfile)
  }

  /** `Profile.load(key)` for a key of any JSON type. A key that is not a
      string can only be found in the cache under its string form;
      otherwise the remote-path test throws on it. */
  function LoadProfile(cache: Profile.Cache, key: Json, fetch: string -> Option<Json>, bundled: map<string, Json>)
    : (r: Result<(Profile.SchemaProfile, Profile.Cache), Thrown>)
    ensures key.JStr? ==> (r.Success? <==> Profile.Load(cache, key.str, fetch, bundled).Success?)
    ensures key.JStr? && r.Success? ==> r.value == Profile.Load(cache, key.str, fetch, bundled).value
    ensures !key.JStr? ==> (r.Success? <==> Profile.CacheHit(cache, JsString(key)))
  {
    match key
    case JStr(k) =>
      (match Profile.Load(cache, k, fetch, bundled)
       case Success(v) => Success(v)
       case Failure(msg) => Failure(LoadFailed(msg)))
    case _ =>
      if Profile.CacheHit(cache, JsString(key)) then Success((Profile.SchemaProfile(cache[JsString(key)]), cache))
      else Failure(TypeError)
  }

  /** Loading the same key again, with the cache the first load left, gives
      the same profile and cache whatever the sources now say, provided the
      schema is truthy. */
  lemma LoadProfileAgainHits(cache: Profile.Cache, key: Json,
                             fetch: string -> Option<Json>, bundled: map<string, Json>,
                             fetch2: string -> Option<Json>, bundled2: map<string, Json>)
    requires LoadProfile(cache, key, fetch, bundled).Success?
    requires Truthy(LoadProfile(cache, key, fetch, bundled).value.0.jsonschema)
    ensures LoadProfile(LoadProfile(cache, key, fetch, bundled).value.1, key, fetch2, bundled2)
         == LoadProfile(cache, key, fetch, bundled)
  {
    if key.JStr? {
      Profile.LoadThenLoadHits(cache, key.str, fetch, bundled, fetch2, bundled2);
    }
  }
}

=== FILE: strings.dfy ===
/** The handful of JavaScript string operations the descriptor layer relies on:
    `startsWith`, `includes`, `indexOf` of one character, `replace` of the first
    occurrence of a one-character pattern, `split` on one character, `join`,
    ASCII `toLowerCase`, and decimal rendering / `parseInt` of digit strings. */
module Strings {
  import opened Wrappers

  /** JavaScript `s.startsWith(prefix)`. */
  predicate StartsWith(s: string, prefix: string) {
    |prefix| <= |s| && s[..|prefix|] == prefix
  }

  /** JavaScript `s.includes(sub)`: `sub` occurs at some position of `s`. */
  predicate Includes(s: string, sub: string) {
    exists i | 0 <= i <= |s| - |sub| :: OccursAt(s, sub, i)
  }

  /** `sub` sits in `s` starting at index `i`. */
  predicate OccursAt(s: string, sub: string, i: int) {
    0 <= i && i + |sub| <= |s| && s[i..i + |sub|] == sub
  }

  /** JavaScript `s.indexOf(c)` for a one-character `c`; `None` stands for -1. */
  function IndexOfChar(s: string, c: char): (r: Option<nat>)
    ensures r.None? <==> c !in s
    ensures r.Some? ==> r.value < |s| && s[r.value] == c && c !in s[..r.value]
  {
    if |s| == 0 then None
    else if s[0] == c then Some(0)
    else match IndexOfChar(s[1..], c)
      case None => None
      case Some(i) =>
        assert s[..i + 1] == [s[0]] + s[1..][..i];
        Some(i + 1)
  }

  /** The first index of `c` is unique: any position holding `c` with no
      earlier `c` is the one `IndexOfChar` reports. */
  lemma IndexOfCharUnique(s: string, c: char, k: nat)
    requires k < |s| && s[k] == c && c !in s[..k]
    ensures IndexOfChar(s, c) == Some(k)
  {
    var i := IndexOfChar(s, c).value;
    assert forall j | 0 <= j < k :: s[..k][j] == s[j];
    assert forall j | 0 <= j < i :: s[..i][j] == s[j];
  }

  /** JavaScript `s.replace(c, repl)` with a one-character string pattern and a
      replacement free of `$` patterns: only the FIRST occurrence is replaced. */
  function ReplaceFirst(s: string, c: char, repl: string): (r: string)
    ensures c !in s ==> r == s
    ensures c in s ==> |r| == |s| - 1 + |repl|
  {
    match IndexOfChar(s, c)
    case None => s
    case Some(i) => s[..i] + repl + s[i + 1..]
  }

  /** The first occurrence is the one after a separator-free prefix. */
  lemma ReplaceFirstAfter(a: string, b: string, c: char, repl: string)
    requires c !in a
    ensures ReplaceFirst(a + [c] + b, c, repl) == a + repl + b
  {
    var s := a + [c] + b;
    assert s[..|a|] == a;
    IndexOfCharUnique(s, c, |a|);
    assert s[|a| + 1..] == b;
  }

  /** JavaScript `parts.join(sep)`. */
  function Join(parts: seq<string>, sep: string): string
  {
    if |parts| == 0 then ""
    else if |parts| == 1 then parts[0]
    else parts[0] + sep + Join(parts[1..], sep)
  }

  /** JavaScript `s.split(c)` for a one-character separator: never empty, and
      no piece contains the separator. */
  function Split(s: string, c: char): (r: seq<string>)
    ensures |r| >= 1
    ensures forall k :: 0 <= k < |r| ==> c !in r[k]
    decreases |s|
  {
    match IndexOfChar(s, c)
    case None => [s]
    case Some(i) => [s[..i]] + Split(s[i + 1..], c)
  }

  /** Joining the pieces of a split with the separator gives back the string. */
  lemma {:induction false} JoinSplit(s: string, c: char)
    ensures Join(Split(s, c), [c]) == s
    decreases |s|
  {
    match IndexOfChar(s, c)
    case None =>
    case Some(i) =>
      var rest := Split(s[i + 1..], c);
      var parts := [s[..i]] + rest;
      assert parts[1..] == rest;
      assert Join(parts, [c]) == s[..i] + [c] + Join(rest, [c]);
      JoinSplit(s[i + 1..], c);
      assert s == s[..i] + [c] + s[i + 1..];
  }

  /** Conversely, splitting a join of separator-free pieces gives back the
      pieces: together with `JoinSplit` this pins `Split` down uniquely. */
  lemma {:induction false} SplitJoin(parts: seq<string>, c: char)
    requires |parts| >= 1
    requires forall k :: 0 <= k < |parts| ==> c !in parts[k]
    ensures Split(Join(parts, [c]), c) == parts
    decreases |parts|
  {
    if |parts| > 1 {
      var p, tail := parts[0], parts[1..];
      forall k | 0 <= k < |tail| ensures c !in tail[k] {
        assert tail[k] == parts[k + 1];
      }
      SplitJoin(tail, c);
      var rest := Join(tail, [c]);
      SplitAfterFirst(p, rest, c);
      assert parts == [p] + tail;
    } else {
      assert c !in parts[0];
    }
  }

  /** Splitting a separator-free piece, the separator and a rest gives the
      piece followed by the pieces of the rest. */
  lemma SplitAfterFirst(p: string, rest: string, c: char)
    requires c !in p
    ensures Split(p + [c] + rest, c) == [p] + Split(rest, c)
  {
    var s := p + [c] + rest;
    assert s[..|p|] == p;
    IndexOfCharUnique(s, c, |p|);
    assert s[|p| + 1..] == rest;
  }

  /** ASCII `toLowerCase` of one character. */
  function LowerChar(c: char): char {
    if 'A' <= c <= 'Z' then (c as int + 32) as char else c
  }

  /** ASCII `toLowerCase`: same length, every character lowered in place. */
  function Lower(s: string): (r: string)
    ensures |r| == |s|
    ensures forall i :: 0 <= i < |s| ==> r[i] == LowerChar(s[i])
  {
    seq(|s|, i requires 0 <= i < |s| => LowerChar(s[i]))
  }

  predicate IsDigit(c: char) {
    '0' <= c <= '9'
  }

  predicate AllDigits(s: string) {
    forall i :: 0 <= i < |s| ==> IsDigit(s[i])
  }

  function DigitChar(d: nat): char
    requires d < 10
  {
    ('0' as int + d) as char
  }

  /** Decimal rendering of a natural number, as JavaScript prints an integer. */
  function DecimalDigits(n: nat): (r: string)
    ensures |r| >= 1 && AllDigits(r)
    ensures r[0] == '0' ==> n == 0
  {
    if n < 10 then [DigitChar(n)]
    else DecimalDigits(n / 10) + [DigitChar(n % 10)]
  }

  /** `parseInt` of a string of decimal digits. */
  function ParseDecimal(s: string): nat
    requires AllDigits(s)
  {
    if |s| == 0 then 0
    else ParseDecimal(s[..|s| - 1]) * 10 + (s[|s| - 1] as int - '0' as int)
  }

  /** Parsing a rendered number gives the number back. */
  lemma {:induction false} ParseDecimalDigits(n: nat)
    ensures ParseDecimal(DecimalDigits(n)) == n
  {
    if n >= 10 {
      var r := DecimalDigits(n);
      assert r[..|r| - 1] == DecimalDigits(n / 10);
      ParseDecimalDigits(n / 10);
    }
  }
}

=== FILE: utils.dfy ===
/** `Utils` of src/utils.js: the remote-URL test, resource path checking and
    the rendering of schema errors as strings. */
module Utils {
  import opened Wrappers
  import opened Strings
  import opened JsonValues

  // ---------------------------------------------------------------------------
  // isRemoteURL: the unanchored regular expression /\w+:\/\/.+/

  /** `\w`: ASCII letters, digits and underscore. */
  predicate IsWordChar(c: char) {
    ('a' <= c <= 'z') || ('A' <= c <= 'Z') || ('0' <= c <= '9') || c == '_'
  }

  /** The characters `.` does not match. */
  predicate IsLineTerminator(c: char) {
    c == '\n' || c == '\r' || c == '\U{2028}' || c == '\U{2029}'
  }

  /** The regular expression matches `s[i..k]`: word characters on `[i, j)`,
      then "://" on `[j, j + 3)`, then at least one non-terminator up to `k`. */
  ghost predicate RemoteUrlMatch(s: string, i: int, j: int, k: int) {
    && 0 <= i < j
    && j + 3 < k <= |s|
    && (forall m | i <= m < j :: IsWordChar(s[m]))
    && s[j..j + 3] == "://"
    && (forall m | j + 3 <= m < k :: !IsLineTerminator(s[m]))
  }

  /** The regular expression matches somewhere in `s`. */
  ghost predicate MatchesRemoteUrlPattern(s: string) {
    exists i, j, k :: RemoteUrlMatch(s, i, j, k)
  }

  /** A word character, "://" at `j`, then a character `.` accepts. */
  predicate SchemeSeparatorAt(s: string, j: int) {
    && 1 <= j
    && j + 3 < |s|
    && IsWordChar(s[j - 1])
    && s[j..j + 3] == "://"
    && !IsLineTerminator(s[j + 3])
  }

  /** The executable test: some shortest witness of the pattern exists. */
  predicate IsRemoteUrl(s: string): (r: bool)
    ensures r ==> |s| >= 5
  {
    exists j | 1 <= j < |s| :: SchemeSeparatorAt(s, j)
  }

  /** The shortest-witness scan decides exactly the regular expression. */
  lemma IsRemoteUrlMatchesPattern(s: string)
    ensures IsRemoteUrl(s) <==> MatchesRemoteUrlPattern(s)
  {
    if IsRemoteUrl(s) {
      var j :| 1 <= j < |s| && SchemeSeparatorAt(s, j);
      assert RemoteUrlMatch(s, j - 1, j, j + 4);
    }
    if MatchesRemoteUrlPattern(s) {
      var i, j, k :| RemoteUrlMatch(s, i, j, k);
      assert SchemeSeparatorAt(s, j);
    }
  }

  /** JavaScript errors a call can throw: an undefined identifier or a
      property read or call on a value of the wrong shape. */
  datatype ScriptError = ReferenceError | TypeError

  /** `Utils.isRemoteURL(v)`: strings are matched against the pattern, every
      other value is not remote, and reading `.constructor` of `null`
      throws. */
  function IsRemoteUrlValue(v: Json): (r: Result<bool, ScriptError>)
    ensures r.Failure? <==> v.JNull?
    ensures r.Failure? ==> r.error == TypeError
    ensures r.Success? ==> (r.value <==> v.JStr? && MatchesRemoteUrlPattern(v.str))
  {
    match v
    case JNull => Failure(TypeError)
    case JStr(s) => IsRemoteUrlMatchesPattern(s); Success(IsRemoteUrl(s))
    case _ => Success(false)
  }

  /** A string with no ':' cannot be a remote URL. */
  lemma NoColonNotRemote(s: string)
    requires ':' !in s
    ensures !IsRemoteUrl(s)
  {
    forall j | 1 <= j < |s|
      ensures !SchemeSeparatorAt(s, j)
    {
      if j + 3 < |s| {
        assert s[j..j + 3][0] == s[j];
      }
    }
  }

  // ---------------------------------------------------------------------------
  // checkPath

  function DotDotMessage(s: string): string {
    "Found illegal '..' in '" + s + "'"
  }

  function SlashMessage(s: string): string {
    "Found illegal beginning character '/' in '" + s + "'"
  }

  function DotMessage(s: string): string {
    "Found illegal beginning character '.' in '" + s + "'"
  }

  function NotStringMessage(v: Json): string {
    "Resource path " + JsString(v) + " is not a string."
  }

  /** `sourcePath.replace('\\', '')`: only the first backslash is deleted. */
  function StripFirstBackslash(s: string): (r: string)
    ensures '\\' !in s ==> r == s
    ensures '\\' in s ==> |r| == |s| - 1
  {
    ReplaceFirst(s, '\\', "")
  }

  /** ".." occupies `t[i..i + 2]` and is a whole '/'-delimited segment. */
  ghost predicate DotDotSegmentAt(t: string, i: int) {
    && 0 <= i
    && i + 2 <= |t|
    && t[i] == '.' && t[i + 1] == '.'
    && (i == 0 || t[i - 1] == '/')
    && (i + 2 == |t| || t[i + 2] == '/')
  }

  ghost predicate HasDotDotSegment(t: string) {
    exists i :: DotDotSegmentAt(t, i)
  }

  /** Without a separator the only ".." segment is the whole string. */
  lemma DotDotWithoutSeparator(t: string)
    requires '/' !in t
    ensures HasDotDotSegment(t) <==> t == ".."
  {
    assert forall m | 0 <= m < |t| :: t[m] != '/';
    if HasDotDotSegment(t) {
      var i :| DotDotSegmentAt(t, i);
      assert i == 0 && |t| == 2;
      assert t == [t[0], t[1]];
    }
    if t == ".." {
      assert DotDotSegmentAt(t, 0);
    }
  }

  /** With a first separator at `p`, a ".." segment of `t` is either the whole
      first piece or a ".." segment of what follows the separator. */
  lemma DotDotAfterSeparator(t: string, p: nat)
    requires p < |t| && t[p] == '/' && '/' !in t[..p]
    ensures HasDotDotSegment(t) <==> t[..p] == ".." || HasDotDotSegment(t[p + 1..])
  {
    var u := t[p + 1..];
    assert forall m | 0 <= m < p :: t[m] != '/' by {
      forall m | 0 <= m < p
        ensures t[m] != '/'
      {
        assert t[..p][m] == t[m];
      }
    }
    if t[..p] == ".." {
      assert t[0] == t[..p][0] && t[1] == t[..p][1];
      assert DotDotSegmentAt(t, 0);
    }
    if HasDotDotSegment(u) {
      var i' :| DotDotSegmentAt(u, i');
      assert DotDotSegmentAt(t, i' + p + 1);
    }
    if HasDotDotSegment(t) {
      var i :| DotDotSegmentAt(t, i);
      if i == 0 {
        assert p == 2;
        assert t[..p] == [t[0], t[1]];
      } else {
        assert i - 1 >= p;
        assert DotDotSegmentAt(u, i - p - 1);
      }
    }
  }

  /** `_.find(t.split('/'), dir => dir === '..')` finds something exactly when
      ".." stands between separators (or the ends) somewhere in `t`. */
  lemma {:induction false} DotDotSegmentIff(t: string)
    ensures ".." in Split(t, '/') <==> HasDotDotSegment(t)
    decreases |t|
  {
    match IndexOfChar(t, '/')
    case None =>
      DotDotWithoutSeparator(t);
    case Some(p) =>
      var u := t[p + 1..];
      assert Split(t, '/') == [t[..p]] + Split(u, '/');
      DotDotSegmentIff(u);
      DotDotAfterSeparator(t, p);
  }

  /** `checkForDotDot`: URLs may contain "..", local paths may not. */
  function CheckForDotDot(s: string): (r: seq<string>)
    ensures r == [] || r == [DotDotMessage(s)]
    ensures r != [] <==> !MatchesRemoteUrlPattern(s) && HasDotDotSegment(StripFirstBackslash(s))
  {
    IsRemoteUrlMatchesPattern(s);
    if IsRemoteUrl(s) then []
    else
      DotDotSegmentIff(StripFirstBackslash(s));
      if ".." in Split(StripFirstBackslash(s), '/') then [DotDotMessage(s)] else []
  }

  /** `checkBeginning`: `charAt(0)` of the empty string is "", so an empty
      path has no beginning error. */
  function CheckBeginning(s: string): (r: seq<string>)
    ensures StartsWith(s, "/") ==> r == [SlashMessage(s)]
    ensures StartsWith(s, ".") ==> r == [DotMessage(s)]
    ensures !StartsWith(s, "/") && !StartsWith(s, ".") ==> r == []
  {
    if |s| > 0 && s[0] == '/' then
      assert s[..1] == [s[0]];
      [SlashMessage(s)]
    else if |s| > 0 && s[0] == '.' then
      assert s[..1] == [s[0]];
      [DotMessage(s)]
    else
      assert |s| > 0 ==> s[..1] == [s[0]];
      []
  }

  /** The three path messages are distinct texts. */
  lemma MessagesDiffer(s: string)
    ensures DotDotMessage(s) != SlashMessage(s)
    ensures DotDotMessage(s) != DotMessage(s)
    ensures SlashMessage(s) != DotMessage(s)
  {
    assert DotDotMessage(s)[14] == '\'';
    assert SlashMessage(s)[14] == 'b' && DotMessage(s)[14] == 'b';
    assert SlashMessage(s)[35] == '/' && DotMessage(s)[35] == '.';
  }

  /** The paths `checkPath` accepts: no ".." segment (unless a URL) and no
      leading '/' or '.'. */
  ghost predicate PathAccepted(s: string) {
    && (MatchesRemoteUrlPattern(s) || !HasDotDotSegment(StripFirstBackslash(s)))
    && !StartsWith(s, "/")
    && !StartsWith(s, ".")
  }

  /** `Utils.checkPath(pathOrURL)`. */
  function CheckPath(v: Json): (r: seq<string>)
    ensures !v.JStr? ==> r == [NotStringMessage(v)]
    ensures |r| <= 2
    ensures v.JStr? ==> (r == [] <==> PathAccepted(v.str))
    ensures v.JStr? && MatchesRemoteUrlPattern(v.str) ==> DotDotMessage(v.str) !in r
    ensures v.JStr? && !StartsWith(v.str, "/") && !StartsWith(v.str, ".") ==> r == CheckForDotDot(v.str)
    ensures v.JStr? && StartsWith(v.str, "/") ==> r == CheckForDotDot(v.str) + [SlashMessage(v.str)]
    ensures v.JStr? && StartsWith(v.str, ".") ==> r == CheckForDotDot(v.str) + [DotMessage(v.str)]
  {
    match v
    case JStr(s) =>
      var dotdot := CheckForDotDot(s);
      var beginning := CheckBeginning(s);
      MessagesDiffer(s);
      assert StartsWith(s, "/") ==> !StartsWith(s, ".");
      dotdot + beginning
    case _ => [NotStringMessage(v)]
  }

  /** A path with ".." between separators is refused with exactly the ".."
      error, as `data/../../data.csv` in the resource tests. */
  lemma CheckPathRefusesDotDot()
    ensures CheckPath(JStr("data/../../data.csv")) == [DotDotMessage("data/../../data.csv")]
  {
    var s := "data/../../data.csv";
    ParentPathExample();
    NoColonNotRemote(s);
    IsRemoteUrlMatchesPattern(s);
    PlainBeginning(s);
  }

  lemma ParentPathExample()
    ensures var s := "data/../../data.csv";
      ':' !in s && '\\' !in s && DotDotSegmentAt(s, 5) && s[0] == 'd'
  {
  }

  /** `data/.\./data.csv` is refused: its first backslash is deleted before
      splitting, which leaves a ".." segment. */
  lemma CheckPathStripsOneBackslash()
    ensures CheckPath(JStr("data/.\\./data.csv")) == [DotDotMessage("data/.\\./data.csv")]
  {
    var s := "data/.\\./data.csv";
    NoColonNotRemote(s);
    IsRemoteUrlMatchesPattern(s);
    StrippedExample();
    StrippedHasDotDot();
    PlainBeginning(s);
  }

  /** A first character other than '/' and '.' raises no beginning error. */
  lemma PlainBeginning(s: string)
    requires |s| > 0 && s[0] != '/' && s[0] != '.'
    ensures !StartsWith(s, "/") && !StartsWith(s, ".")
  {
    assert s[..1] == [s[0]];
  }

  /** Deleting the first backslash of `data/.\./data.csv` leaves
      `data/../data.csv`. */
  lemma StrippedExample()
    ensures StripFirstBackslash("data/.\\./data.csv") == "data/../data.csv"
  {
    var a, b := "data/.", "./data.csv";
    BackslashExample();
    ReplaceFirstAfter(a, b, '\\', "");
    StrippedJoinExample();
  }

  lemma BackslashExample()
    ensures "data/.\\./data.csv" == "data/." + ['\\'] + "./data.csv" && '\\' !in "data/."
  {
  }

  lemma StrippedJoinExample()
    ensures "data/." + "" + "./data.csv" == "data/../data.csv"
  {
  }

  lemma StrippedHasDotDot()
    ensures HasDotDotSegment("data/../data.csv")
  {
    assert DotDotSegmentAt("data/../data.csv", 5);
  }

  /** A leading '/' gives the slash error. */
  lemma CheckPathRefusesAbsolute()
    ensures CheckPath(JStr("/data.csv")) == [SlashMessage("/data.csv")]
  {
    var s := "/data.csv";
    NoColonNotRemote(s);
    IsRemoteUrlMatchesPattern(s);
    assert '\\' !in s;
    assert !HasDotDotSegment(s) by {
      assert forall i | 0 <= i < |s| - 1 :: !(s[i] == '.' && s[i + 1] == '.');
    }
  }

  // ---------------------------------------------------------------------------
  // errorsToStringArray

  /** A tv4 validation error: message, JSON pointer into the descriptor and
      JSON pointer into the schema. */
  datatype SchemaError = SchemaError(message: string, dataPath: string, schemaPath: string)

  /** The rendering of one error: the message, then ` in "<dataPath>"` when the
      data path is non-empty, then ` schema path: "<schemaPath>"` when the
      schema path is non-empty. */
  function Describe(e: SchemaError): (r: string)
    ensures StartsWith(r, e.message)
    ensures e.dataPath == "" && e.schemaPath == "" ==> r == e.message
    ensures |r| == |e.message|
                   + (if e.dataPath != "" then |e.dataPath| + 6 else 0)
                   + (if e.schemaPath != "" then |e.schemaPath| + 16 else 0)
    ensures e.dataPath != "" ==> r[|e.message|..|e.message| + |e.dataPath| + 6] == " in \"" + e.dataPath + "\""
    ensures e.schemaPath != "" ==> r[|r| - |e.schemaPath| - 16..] == " schema path: \"" + e.schemaPath + "\""
  {
    var withData := if e.dataPath != "" then e.message + " in \"" + e.dataPath + "\"" else e.message;
    var r := if e.schemaPath != "" then withData + " schema path: \"" + e.schemaPath + "\"" else withData;
    assert r[..|e.message|] == e.message;
    r
  }

  /** The rendering is fixed by its parts: a string that starts with the
      message, carries each non-empty path's decoration where `Describe`
      puts it and has its length is that rendering. */
  lemma DescribeIsDetermined(e: SchemaError, t: string)
    requires StartsWith(t, e.message)
    requires |t| == |e.message|
                    + (if e.dataPath != "" then |e.dataPath| + 6 else 0)
                    + (if e.schemaPath != "" then |e.schemaPath| + 16 else 0)
    requires e.dataPath != "" ==> t[|e.message|..|e.message| + |e.dataPath| + 6] == " in \"" + e.dataPath + "\""
    requires e.schemaPath != "" ==> t[|t| - |e.schemaPath| - 16..] == " schema path: \"" + e.schemaPath + "\""
    ensures t == Describe(e)
  {
    var r := Describe(e);
    var m := |e.message|;
    var d := if e.dataPath != "" then |e.dataPath| + 6 else 0;
    assert t == t[..m] + t[m..m + d] + t[m + d..];
    assert r == r[..m] + r[m..m + d] + r[m + d..];
    if e.dataPath == "" {
      assert t[m..m + d] == [] == r[m..m + d];
    }
    assert t[m + d..] == r[m + d..];
  }

  /** `Utils.errorsToStringArray(values)`: one string per error, in order. */
  function ErrorsToStringArray(errors: seq<SchemaError>): (r: seq<string>)
    ensures |r| == |errors|
    ensures forall i :: 0 <= i < |r| ==> r[i] == Describe(errors[i])
  {
    if |errors| == 0 then []
    else [Describe(errors[0])] + ErrorsToStringArray(errors[1..])
  }

  /** Rendering distributes over concatenation of error lists. */
  lemma {:induction false} ErrorsToStringArrayAppend(a: seq<SchemaError>, b: seq<SchemaError>)
    ensures ErrorsToStringArray(a + b) == ErrorsToStringArray(a) + ErrorsToStringArray(b)
    decreases |a|
  {
    if |a| == 0 {
      assert a + b == b;
    } else {
      assert (a + b)[1..] == a[1..] + b;
      ErrorsToStringArrayAppend(a[1..], b);
    }
  }

}

=== FILE: wrappers.dfy ===
/** Failure-compatible wrappers used throughout the model.
    `Option.None` stands for JavaScript's `undefined`/`null` results,
    `Result.Failure` for a thrown exception or a rejected promise. */
module Wrappers {

  datatype Option<+T> = None | Some(value: T) {

    predicate IsFailure() {
      None?
    }

    function PropagateFailure<U>(): Option<U>
      requires None?
    {
      None
    }

    function Extract(): T
      requires Some?
    {
      value
    }

    function GetOr(default: T): T {
      match this
      case Some(v) => v
      case None => default
    }
  }

  datatype Result<+R, +E> = Success(value: R) | Failure(error: E) {

    predicate IsFailure() {
      Failure?
    }

    function PropagateFailure<U>(): Result<U, E>
      requires Failure?
    {
      Failure(error)
    }

    function Extract(): R
      requires Success?
    {
      value
    }
  }
}
